=== FILE: README.md ===
# Alfred bot — a Dafny model of the intent-resolution core

Alfred is a retrieval-based chatbot. For each user message one turn runs:

1. The message is stored in the user's session, which lives in a key-value store keyed by `alfred_session:<id>`.
2. A snapshot of the session is built.
3. The message, enriched with recent history and context variables, is embedded and searched against a vector store of intent patterns.
4. Each hit's raw similarity is blended with an additive context score.
5. The first match is accepted by confidence band and conversation flow; otherwise a context-aware fallback answers.
6. A response variant is chosen, `{user_name}` is substituted, and the conversation state moves from greeting to ongoing to closing.
7. The reply is validated and stored.

Intents come from a JSON knowledge base. A manager caches it by file modification time and offers CRUD operations. Pydantic-style validators normalise intent ids, patterns and responses.

The model is a set of pure functions over immutable datatypes:

- the session store is a map from key to session;
- the knowledge-base file is an abstract disk (`Missing`, or present with an optional mtime and a parsed or malformed document);
- the embedding model, cosine similarity and the vector-store backends are uninterpreted function parameters;
- random choices are a `choice: nat` index;
- uuids and clock readings are parameters.

Modules follow the source files:

| module | source |
|---|---|
| `Common`, `Strings`, `Dicts`, `Sorting` | shared results, ASCII string operations, insertion-ordered dicts, stable descending sort |
| `SessionModel`, `SessionManager`, `SessionUtils` | `src/models/session.py`, `src/models/conversation_state.py`, `src/services/session_manager.py`, `src/utils/session_utils.py` |
| `IntentModel`, `IntentDecoding` | `src/models/intent.py` (validators; JSON decoding of stored intents) |
| `DataUtils`, `KnowledgeManager` | `src/utils/data_utils.py`, `src/services/knowledge_manager.py` |
| `TextProcessor` | `src/services/text_processor.py` |
| `Retrieval`, `ChromaStore`, `ContextScoring` | hit formatting and indexing records shared by both retrieval services, `src/services/vector_store/chroma_store.py`, the additive context score |
| `SearchService`, `VectorSearch` | `src/services/vector_store/search_service.py`, `src/services/vector_search.py` |
| `ChatbotEngine` | `src/services/chatbot_engine.py` |

Constants are those of the code:

- engine thresholds 0.25 and 0.1;
- `search_service` default threshold 0.5 and `vector_search` default threshold 0.6;
- `IntentMetadata` defaults: confidence 0.7, priority 1;
- snapshot of the last 5 history entries;
- maximum context score 0.35.

## Model

| member | source | states |
|---|---|---|
| Common.Pick | src/services/chatbot_engine.py:320-324 | a random choice from a non-empty list always yields one of its members |
| Common.PickReachesEvery | src/services/chatbot_engine.py:320-324 | every member of the list can be the random choice |
| Common.MapResult | src/models/intent.py:74-89 | validating a list item by item succeeds iff every item validates, keeps order and length, and otherwise reports the error of a failing item |
| SessionModel.RoleNamesDistinct | src/models/session.py:8-11 | the role names user, bot and system are pairwise distinct |
| SessionModel.StateOf | src/models/conversation_state.py:5-11 | reading a stored state string back gives a state whose string is that value |
| SessionModel.StateRoundTrip | src/models/conversation_state.py:5-11 | every conversation state survives the store's string round trip |
| SessionManager.SessionKeyShape | src/services/session_manager.py:27-29 | a session key is "alfred_session:" followed by the session id |
| SessionManager.SessionKeyInjective | src/services/session_manager.py:27-29 | distinct session ids never share a key |
| SessionManager.EmptyStoreWellFormed | src/services/session_manager.py:27-29 | an empty store keeps every record under the key of its own id |
| SessionManager.WellFormedOwnId | src/services/session_manager.py:99-103 | in a store that keeps every record under its own id's key, the record found for an id carries that id |
| SessionManager.CreateKeepsWellFormed | src/services/session_manager.py:31-46 | creating a session stores it under its own id's key, so every record stays under its own id's key |
| SessionManager.UpdateKeepsWellFormed | src/services/session_manager.py:65-103 | an update writes the record back under its own id's key, so every record stays under its own id's key |
| SessionManager.DeleteKeepsWellFormed | src/services/session_manager.py:105-112 | deleting a session keeps every remaining record under its own id's key |
| SessionManager.CreateSession | src/services/session_manager.py:31-46 | a new session has the fresh id, the given user, empty history, is active, starts with the initial context or {}, and is stored under its key |
| SessionManager.GetSession | src/services/session_manager.py:48-65 | a session is found iff its key is stored, and then it is the stored value |
| SessionManager.CreateThenGet | src/services/session_manager.py:31-65 | reading a just-created session gives it back |
| SessionManager.AppendBounded | src/services/session_manager.py:77-84 | with a positive max_history the new history is the last min(len+1, max_history) entries of history + [message], so it ends with the message; with 0 (`[-0:]`) or below the bound it is history + [message] in full |
| SessionManager.AppendOntoNewest | src/services/session_manager.py:77-84 | appending to the newest max_history messages keeps the newest max_history messages of the longer history |
| SessionManager.AppendAllKeepsNewest | src/services/session_manager.py:77-84 | after any number of appends the stored history is the newest max_history messages of everything ever added |
| SessionManager.AppendKeepsLast | src/services/session_manager.py:77-84 | with room for two entries, the entry that was last before an append sits just before the appended message |
| SessionManager.UpdateSession | src/services/session_manager.py:65-103 | an update of a missing session returns None and stores nothing; otherwise the updated session keeps the stored record's id and is written back under the requested key, which in a well-formed store is the key of that record's own id, as `_save_session` computes it |
| SessionManager.UpdateSessionEffect | src/services/session_manager.py:67-97 | an update keeps id and user, changes history only when a message is supplied, overwrites exactly the supplied context keys and changes is_active only when supplied |
| SessionManager.UpdateThenGet | src/services/session_manager.py:67-97 | after an update the session reads back as returned and every other session is unchanged |
| SessionManager.AddMessage | src/services/session_manager.py:115-120 | adding a message is an update carrying only that message; it succeeds iff the session exists |
| SessionManager.AddMessageHistory | src/services/session_manager.py:115-120 | the stored history is the suffix of the old history + [message] of the bounded length, ending with the message |
| SessionManager.DeleteSession | src/services/session_manager.py:106-113 | delete reports true iff the session existed; afterwards it is gone and every other session is unchanged |
| SessionManager.FormatLine | src/services/session_manager.py:134-141 | a user line is "User: " and a bot or system line "Alfred: " followed by the message, and nothing else (the length is prefix plus message) |
| SessionManager.FormatLines | src/services/session_manager.py:134-141 | messages are formatted one line each, in order |
| SessionManager.GetConversationContext | src/services/session_manager.py:122-143 | a missing session gives ""; otherwise the last n messages are formatted and joined by newlines |
| SessionManager.ContextShowsLastMessage | src/services/session_manager.py:115-143 | after a message is added, the one-message context is exactly that message's line |
| SessionUtils.MetadataOrEmpty | src/utils/session_utils.py:6-21 | supplied metadata is kept and absent metadata becomes {} |
| SessionUtils.CreateUserMessage | src/utils/session_utils.py:6-12 | a user message has the user role, the text unchanged and the metadata supplied or {} |
| SessionUtils.CreateBotMessage | src/utils/session_utils.py:15-21 | a bot message has the bot role, the text unchanged and the metadata supplied or {} |
| SessionUtils.MessageRolesFormat | src/utils/session_utils.py:6-21 | created user and bot messages format as "User: " and "Alfred: " lines |
| SessionUtils.ExtractEntitiesFromContext | src/utils/session_utils.py:24-42 | a missing session gives {}; otherwise the keys are exactly the session's context keys |
| SessionUtils.ExtractedEntitiesAreContext | src/utils/session_utils.py:24-42 | every extracted entity has the session's value for that key |
| SessionUtils.GetSessionSummary | src/utils/session_utils.py:45-60 | a missing session gives no summary; otherwise id, user, message count = history length, is_active and the context keys are copied |
| SessionUtils.SummaryCountsAddedMessage | src/utils/session_utils.py:45-60 | below the history bound, adding a message raises the summary's message count by one |
| Strings.LowerChar | src/services/text_processor.py:58 | lower-casing leaves no upper-case letter, fixes every other character and keeps word and whitespace classes |
| Strings.Lower | src/services/text_processor.py:58 | `lower()` maps the text character by character, keeping its length |
| Strings.LowerIsLower | src/services/text_processor.py:58 | lower-cased text has no upper-case letter, and lower-casing such text changes nothing |
| Strings.TrimLeft | src/models/intent.py:31-33 | the left strip removes only leading whitespace and leaves a text that starts with a non-space |
| Strings.TrimLeftIsSuffix | src/models/intent.py:31-33 | the left strip is a suffix of its input |
| Strings.TrimRight | src/models/intent.py:31-33 | the right strip removes only trailing whitespace and leaves a text that ends with a non-space |
| Strings.TrimRightIsPrefix | src/models/intent.py:31-33 | the right strip is a prefix of its input |
| Strings.Trim | src/models/intent.py:31-33 | `strip()` is empty exactly for blank text and otherwise neither starts nor ends with whitespace |
| Strings.TrimIsSlice | src/models/intent.py:31-33 | `strip()` is a contiguous slice of its input |
| Strings.RunLen | src/services/text_processor.py:120 | the leading run has the property throughout and stops at the first character without it |
| Strings.Runs | src/services/text_processor.py:120 | every maximal run is non-empty and made only of characters with the property; RunsSplit, RunsOfRun and RunsOfGap pin down which runs come out |
| Strings.RunsSplit | src/services/text_processor.py:120 | a non-word character splits the text: the runs of a + [c] + b are those of a followed by those of b |
| Strings.RunsOfRun | src/services/text_processor.py:120 | a non-empty text of word characters is exactly one run |
| Strings.RunsOfGap | src/services/text_processor.py:120 | a text without word characters has no run |
| Strings.Words | src/services/chatbot_engine.py:318 | `split()` yields non-empty words without whitespace; WordsSplit and WordsOfWordAndBlank pin down which words come out |
| Strings.WordsSplit | src/services/chatbot_engine.py:318 | a whitespace character splits the text: the words of a + [c] + b are those of a followed by those of b |
| Strings.WordsOfWordAndBlank | src/services/chatbot_engine.py:318 | a non-empty text without whitespace is one word, and an all-whitespace text has none |
| Strings.NatToString | src/services/vector_store/search_service.py:45 | an index is written as a non-empty string of decimal digits, with no leading zero, whose decimal value is the index |
| Strings.LastN | src/services/session_manager.py:131 | `s[-n:]` is a suffix of `s` of length min(n, len(s)), and `n == 0` keeps the whole list |
| Strings.LastTwoJoined | src/services/vector_store/search_service.py:148 | `" ".join(msgs[-2:])` of two or more messages is the second-to-last, a space and the last |
| Dicts.Keys | src/services/session_manager.py:86-88 | a dict has one key per entry |
| Dicts.KeysIndexed | src/services/session_manager.py:86-88 | the i-th key of a dict is the key of its i-th entry |
| Dicts.Get | src/services/session_manager.py:86-88 | a lookup fails iff the key is absent |
| Dicts.GetFirst | src/services/session_manager.py:86-88 | a lookup returns the first entry with that key |
| Dicts.Set | src/services/knowledge_manager.py:214-217 | assignment makes the key map to the value, keeps every other key, and appends a new key at the end |
| Dicts.SetSameValue | src/services/knowledge_manager.py:59-64 | assigning a key the value it already has changes nothing |
| Dicts.Update | src/services/session_manager.py:86-88 | `dict.update` has exactly the keys of both dicts |
| Dicts.UpdateGet | src/services/session_manager.py:86-88 | after `update` each key of the second dict has its new value and every other key keeps its old one |
| Sorting.Insert | src/services/vector_store/search_service.py:121 | inserting into a descending list keeps it descending and adds exactly the new element |
| Sorting.SortDesc | src/services/vector_store/search_service.py:121 | `sort(key, reverse=True)` gives a descending permutation of its input |
| Sorting.SortDescStable | src/services/vector_store/search_service.py:121 | the sort is stable: the elements of any one key keep their original relative order |
| Sorting.InsertStable | src/services/vector_store/search_service.py:121 | inserting an element puts it ahead of the elements of equal key already there and keeps their order |
| Sorting.PrefixIsBest | src/services/text_processor.py:230-232 | a prefix of a descending list holds its best elements: anything left behind scores at most the last kept |
| Sorting.Filter | src/services/knowledge_manager.py:141-143 | a comprehension filter keeps exactly the elements satisfying the condition and adds none |
| Sorting.FilterAppendOne | src/services/vector_search.py:409-414 | filtering one more element appends it iff it passes |
| Sorting.FilterKeepsAll | src/services/knowledge_manager.py:140-146 | a filter keeps the length iff every element passes, and then returns its input |
| Sorting.FilterKeepsSorted | src/services/vector_search.py:407-416 | filtering a descending list leaves it descending |
| Sorting.FilterMultiset | src/services/vector_search.py:409-414 | a filter keeps every copy of a passing element and no copy of a failing one |
| IntentModel.ValidateMetadata | src/models/intent.py:7-19 | metadata validates iff a category is given, the threshold (default 0.7) is in [0, 1] and the priority (default 1) is in [1, 10]; the values are kept |
| IntentModel.MetadataDefaults | src/models/intent.py:11-16 | metadata with only a category gets threshold 0.7, priority 1 and no tags or timestamps |
| IntentModel.ValidateResponseObject | src/models/intent.py:28-40 | a response object validates iff its stripped id and text are non-blank, and then both are stored stripped |
| IntentModel.StripNonBlank | src/models/intent.py:69 | stripping and dropping blanks yields nothing exactly when every entry is blank |
| IntentModel.StripNonBlankStripped | src/models/intent.py:69 | every kept entry is non-empty and already stripped |
| IntentModel.StripNonBlankKeeps | src/models/intent.py:69 | every non-blank entry survives, stripped |
| IntentModel.StripNonBlankSplit | src/models/intent.py:69 | the comprehension works entry by entry: the result for a + b is the result for a followed by the result for b, so order and count are kept |
| IntentModel.StripNonBlankOne | src/models/intent.py:69 | a single entry is dropped iff it is blank, otherwise kept stripped |
| IntentModel.TrimIdempotent | src/models/intent.py:69 | stripping twice equals stripping once |
| IntentModel.NormalizeId | src/models/intent.py:57-63 | an intent id is stripped and lower-cased, with every space turned into "_", character for character |
| IntentModel.SpaceRunKept | src/models/intent.py:63 | a run of n interior spaces becomes n underscores, so "Multiple   Spaces" normalises to "multiple___spaces" |
| IntentModel.NormalizedIdTrimmed | src/models/intent.py:57-63 | a normalised id has no leading or trailing whitespace |
| IntentModel.NormalizeIdIdempotent | src/models/intent.py:57-63 | normalising an id twice equals normalising it once |
| IntentModel.NormalizedIdFixed | src/models/intent.py:57-63 | an id that is stripped, lower-case and space-free is left unchanged |
| IntentModel.ValidateResponses | src/models/intent.py:74-89 | string responses validate iff one is non-blank and are stored stripped without blanks; object responses validate iff the list is non-empty and every object validates |
| IntentModel.ValidateTexts | src/models/intent.py:82-86 | a string list validates iff some entry is non-blank, giving the stripped non-blank entries |
| IntentModel.ValidateObjects | src/models/intent.py:88-89 | an object list validates iff each object does, keeping order and length |
| IntentModel.ValidateIntent | src/models/intent.py:43-89 | an intent validates iff its id is non-blank, a pattern is non-blank, and responses and metadata validate; the stored fields are the normalised ones |
| IntentModel.ValidatedIntentIsCanonical | src/models/intent.py:43-89 | a validated intent is in canonical form |
| IntentModel.CanonicalIntentRevalidates | src/models/intent.py:43-89 | validating a canonical intent again gives it back unchanged |
| IntentModel.CanonicalResponsesRevalidate | src/models/intent.py:74-89 | canonical responses validate to themselves |
| IntentModel.Ids | src/models/intent.py:104 | the id list lists each intent's id in order |
| IntentModel.ValidateKnowledgeBase | src/models/intent.py:92-107 | a knowledge base validates iff its intent ids are pairwise distinct; the version defaults to "1.0.0" |
| IntentModel.SetSizeMeansUnique | src/models/intent.py:104-106 | the id set is as large as the id list iff no id repeats |
| IntentModel.SetOfIdsBound | src/models/intent.py:104-106 | the id set is never larger than the id list |
| IntentModel.ValidateChatRequest | src/models/intent.py:111-129 | a chat request validates iff its message is non-blank, which is then stored stripped |
| IntentModel.ValidateChatResponse | src/models/intent.py:132-143 | a chat response validates iff its confidence lies in [0, 1] |
| IntentDecoding.DecodeString | src/services/knowledge_manager.py:66 | a JSON value decodes as a string iff it is a JSON string, keeping its text |
| IntentDecoding.DecodeStrings | src/services/knowledge_manager.py:66 | a JSON value decodes as a string list iff it is an array of strings, keeping order |
| IntentDecoding.DecodeTimestamp | src/models/intent.py:18-19 | an absent or null timestamp decodes to none, a string to itself, anything else fails |
| IntentDecoding.DecodeRawMetadata | src/models/intent.py:7-19 | decoded metadata comes from a JSON object, with category present iff the "category" key is, and threshold and priority read from their keys |
| IntentDecoding.DecodeMetadataFields | src/models/intent.py:7-19 | metadata fields decode from exactly the JSON values of their keys |
| IntentDecoding.DecodeResponseObject | src/models/intent.py:22-26 | a decoded response object comes from a JSON object whose "id" and "text" are those strings |
| IntentDecoding.DecodeResponses | src/models/intent.py:50-54 | decoded responses come from a JSON array of the same length; string responses are its strings in order |
| IntentDecoding.DecodeIntent | src/services/knowledge_manager.py:66 | an intent decodes only from a JSON object with an "id", and the result is canonical |
| IntentDecoding.DecodeIntentFields | src/models/intent.py:43-89 | an intent built from decoded fields is canonical |
| IntentDecoding.DecodeIntents | src/services/knowledge_manager.py:66 | an intent list decodes iff every item does, keeping order |
| IntentDecoding.DecodeKnowledgeBase | src/services/knowledge_manager.py:66 | a decoded knowledge base has an "intents" key, unique canonical intents, and version "1.0.0" when none is stored |
| IntentDecoding.DecodeKnowledgeBaseFields | src/models/intent.py:92-107 | a knowledge base built from fields needs intents, has unique canonical intents, and defaults its version |
| IntentDecoding.EncodeStrings | src/services/knowledge_manager.py:85-92 | a string list is dumped as a JSON array of those strings |
| IntentDecoding.EncodeMetadata | src/services/knowledge_manager.py:85-92 | dumped metadata is an object with exactly the keys category, confidence_threshold, priority, tags, created_at, updated_at in that order; MetadataRoundTrip reads it back |
| IntentDecoding.EncodeResponses | src/services/knowledge_manager.py:85-92 | dumped responses are an array of the same length holding each string, or each object's id and text, in order |
| IntentDecoding.EncodeIntent | src/services/knowledge_manager.py:85-92 | a dumped intent is an object with exactly the keys id, patterns, responses, metadata in that order; IntentRoundTrip reads it back |
| IntentDecoding.EncodeKnowledgeBase | src/services/knowledge_manager.py:85-92 | a dumped knowledge base is an object with exactly the keys intents, metadata, version, its intents array as long as the knowledge base; KnowledgeBaseRoundTrip reads it back |
| IntentDecoding.EncodeIntents | src/services/knowledge_manager.py:85-92 | intents are dumped one JSON object each, in order |
| IntentDecoding.StringsRoundTrip | src/services/knowledge_manager.py:66-92 | a dumped string list reads back unchanged |
| IntentDecoding.MetadataRoundTrip | src/services/knowledge_manager.py:66-92 | dumped metadata reads back as the same fields |
| IntentDecoding.MetadataFieldsRoundTrip | src/services/knowledge_manager.py:66-92 | dumped metadata fields decode back to the same metadata |
| IntentDecoding.ResponseObjectRoundTrip | src/services/knowledge_manager.py:66-92 | a dumped response object reads back unchanged |
| IntentDecoding.ResponsesRoundTrip | src/services/knowledge_manager.py:66-92 | a non-empty response list reads back unchanged |
| IntentDecoding.IntentRoundTrip | src/services/knowledge_manager.py:66-92 | a canonical intent survives dump and reload unchanged |
| IntentDecoding.IntentFieldsRoundTrip | src/services/knowledge_manager.py:66-92 | a canonical intent's dumped fields decode back to it |
| IntentDecoding.IntentFieldsDecode | src/models/intent.py:43-89 | decoding an intent's dumped fields is validating the intent again |
| IntentDecoding.EncodedIntentFields | src/services/knowledge_manager.py:85-92 | a dumped intent carries its id, patterns, responses and metadata under their keys |
| IntentDecoding.EncodedMetadataFields | src/services/knowledge_manager.py:85-92 | dumped metadata carries category, threshold, priority, tags and both timestamps under their keys |
| IntentDecoding.EncodedMetadataTimes | src/services/knowledge_manager.py:85-92 | dumped metadata carries its tags and both timestamps under their keys |
| IntentDecoding.KnowledgeBaseRoundTrip | src/services/knowledge_manager.py:66-92 | a knowledge base of unique canonical intents survives dump and reload unchanged |
| IntentDecoding.KnowledgeBaseFieldsRoundTrip | src/services/knowledge_manager.py:66-92 | a dumped knowledge base's fields decode back to it |
| IntentDecoding.FieldsValidateDecoded | src/models/intent.py:92-107 | decoding knowledge-base fields is validating the decoded intents for unique ids |
| IntentDecoding.IntentsRoundTrip | src/services/knowledge_manager.py:66-92 | dumped canonical intents read back unchanged |
| DataUtils.MissingFieldIssues | src/utils/data_utils.py:46-50 | no missing-field issue iff every required field is present; each issue carries the intent prefix |
| DataUtils.MissingFieldIssuesListed | src/utils/data_utils.py:46-50 | there is exactly one issue per missing field, "<prefix>Missing required field '<field>'", in the order of the required fields |
| DataUtils.FieldIssue | src/utils/data_utils.py:52-66 | a present field with a bad value gives exactly its one issue, an absent field gives none, and a non-object intent fails as in Python |
| DataUtils.IntentIssues | src/utils/data_utils.py:43-66 | an intent yields no issue iff it is well formed; every issue starts with "Intent i: " |
| DataUtils.IntentsIssues | src/utils/data_utils.py:43-66 | a list yields no issue iff every intent in it is well formed |
| DataUtils.IssuesNamed | src/utils/data_utils.py:44 | every issue names its intent with "Intent " |
| DataUtils.ValidateKnowledgeBaseStructure | src/utils/data_utils.py:29-68 | a missing "intents" key gives exactly "Missing 'intents' key", a non-list gives exactly "'intents' must be a list", and the issue list is empty iff the document is well formed |
| DataUtils.EncodedIntentWellFormed | src/utils/data_utils.py:43-66 | every dumped canonical intent passes the structural check |
| DataUtils.EncodedMetadataHasCategory | src/utils/data_utils.py:63-66 | dumped metadata always has a category |
| DataUtils.WellFormedFromFields | src/utils/data_utils.py:43-66 | an object with an id, non-empty pattern and response lists and categorised metadata is well formed |
| DataUtils.EncodedKnowledgeBaseWellFormed | src/utils/data_utils.py:29-68 | a dumped knowledge base of canonical intents yields no structural issue |
| DataUtils.CanonicalResponsesNonEmpty | src/utils/data_utils.py:58-60 | a canonical intent's dumped responses are a non-empty list |
| KnowledgeManager.InvalidateCache | src/services/knowledge_manager.py:30-33 | after invalidation the cache is not valid for any file state, and the file path is kept |
| KnowledgeManager.IsCacheValid | src/services/knowledge_manager.py:18-28 | the cache is valid only when loaded; a missing file or one without a time invalidates it; otherwise it is valid iff the file is no newer than the cached time |
| KnowledgeManager.FillMetadataDefaults | src/services/knowledge_manager.py:58-64 | missing category, created_at and updated_at are filled with "general" and the load time; present values and other keys are never overwritten |
| KnowledgeManager.SetDefault | src/services/knowledge_manager.py:59-64 | `if k not in d: d[k] = v` sets only an absent key and keeps every other entry |
| KnowledgeManager.FillMetadataDefaultsIdempotent | src/services/knowledge_manager.py:54-64 | filling defaults again, at any later time, changes nothing |
| KnowledgeManager.FillIntentDefaults | src/services/knowledge_manager.py:54-64 | an intent object gets metadata (created as {} when absent) with defaults filled and no other key changed; a non-object intent or metadata fails |
| KnowledgeManager.FillDefaults | src/services/knowledge_manager.py:54-64 | every listed intent is filled in place and the document's other keys are kept |
| KnowledgeManager.LoadFromDisk | src/services/knowledge_manager.py:41-73 | a missing file is "Knowledge base file not found: <path>", bad JSON is "Invalid JSON in knowledge base", other failures are configuration errors leaving the manager unchanged; success caches the decoded, default-filled document with the mtime read before parsing |
| KnowledgeManager.Load | src/services/knowledge_manager.py:35-40 | a valid cache is returned without reading the file; otherwise the file is loaded |
| KnowledgeManager.LoadThenCached | src/services/knowledge_manager.py:18-40 | right after a successful load the cache is valid and a second load returns the same knowledge base without reading |
| KnowledgeManager.NewerFileIsReread | src/services/knowledge_manager.py:18-28 | a file modified after the recorded time is always re-read |
| KnowledgeManager.Ensure | src/services/knowledge_manager.py:103-104 | CRUD methods load only when nothing is cached, and then the loaded base is cached |
| KnowledgeManager.StampUpdated | src/services/knowledge_manager.py:79-80 | saving stamps every intent's updated_at with the save time and changes nothing else |
| KnowledgeManager.Commit | src/services/knowledge_manager.py:75-99 | a save caches the stamped base; a successful write stores it and records the new mtime, a failed write is "Error saving knowledge base" and leaves disk and mtime as they were |
| KnowledgeManager.SaveThenReload | src/services/knowledge_manager.py:35-99 | a saved knowledge base of unique canonical intents reloads, after invalidation, to exactly what was saved |
| KnowledgeManager.ReadBackParsed | src/services/knowledge_manager.py:46-68 | a file that needs no defaults and decodes loads as its decoded knowledge base |
| KnowledgeManager.StampKeepsValid | src/services/knowledge_manager.py:79-80 | stamping keeps ids unique and intents canonical |
| KnowledgeManager.StampKeepsCanonical | src/services/knowledge_manager.py:79-80 | a stamped canonical intent stays canonical |
| KnowledgeManager.EncodedNeedsNoDefaults | src/services/knowledge_manager.py:54-64 | a dumped knowledge base already has every default, so loading fills nothing |
| KnowledgeManager.EncodedIntentNeedsNoDefaults | src/services/knowledge_manager.py:54-64 | a dumped intent already has category and timestamps |
| KnowledgeManager.FirstIndex | src/services/knowledge_manager.py:122-123 | the first position holding the id, and none iff no intent has it |
| KnowledgeManager.FindIntent | src/services/knowledge_manager.py:150-158 | `get_intent` returns the first intent with the id, and none iff no intent has it |
| KnowledgeManager.InsertIntent | src/services/knowledge_manager.py:101-115 | an existing id is "Intent with ID '<id>' already exists"; otherwise the caller's intent, unchanged except that created_at and updated_at are now, is appended and the rest of the list is untouched |
| KnowledgeManager.ReplaceIntent | src/services/knowledge_manager.py:117-133 | the first intent with the id is replaced in place by the caller's intent, unchanged except that updated_at is now and created_at is the old one when set; others are unchanged; an unknown id is "Intent with ID '<id>' not found" |
| KnowledgeManager.RemoveIntent | src/services/knowledge_manager.py:135-148 | the new intent list is the old one with exactly the intents of that id filtered out, in order; if none was removed it is "Intent with ID '<id>' not found" |
| KnowledgeManager.StampKeepsIds | src/services/knowledge_manager.py:79-80 | stamping keeps every id in place |
| KnowledgeManager.InsertKeepsUnique | src/services/knowledge_manager.py:106-114 | adding an intent keeps ids unique |
| KnowledgeManager.RemoveKeepsUnique | src/services/knowledge_manager.py:140-143 | deleting keeps ids unique |
| KnowledgeManager.FilterKeepsUnique | src/services/knowledge_manager.py:140-143 | any filter of a list with unique ids keeps them unique |
| KnowledgeManager.InsertThenFind | src/services/knowledge_manager.py:101-158 | an added intent is found by its id as the caller's intent stamped with the current time |
| KnowledgeManager.UpdateThenFind | src/services/knowledge_manager.py:117-158 | an intent updated under its own id is found by that id as the update, stamped with the current time and keeping the replaced intent's created_at when set |
| KnowledgeManager.RemoveThenFind | src/services/knowledge_manager.py:135-158 | after deletion the id is not found |
| KnowledgeManager.InsertThenRemove | src/services/knowledge_manager.py:101-148 | deleting a just-added intent restores the previous knowledge base |
| KnowledgeManager.Apply | src/services/knowledge_manager.py:108-115 | a rejected change leaves everything unchanged; an accepted one is saved and caches the stamped base, and a successful write leaves the cache valid |
| KnowledgeManager.AddIntent | src/services/knowledge_manager.py:101-115 | `add_intent` loads if needed, then inserts and saves; a load failure leaves the file untouched |
| KnowledgeManager.UpdateIntent | src/services/knowledge_manager.py:117-133 | `update_intent` loads if needed, then replaces and saves |
| KnowledgeManager.DeleteIntent | src/services/knowledge_manager.py:135-148 | `delete_intent` loads if needed, then removes and saves |
| KnowledgeManager.GetIntent | src/services/knowledge_manager.py:150-158 | `get_intent` returns the first intent with the id from the loaded base |
| KnowledgeManager.AddThenGet | src/services/knowledge_manager.py:101-158 | after a successful add and save, `get_intent` returns the caller's intent with created_at and updated_at set to the time of the add |
| KnowledgeManager.SavedInsertFound | src/services/knowledge_manager.py:75-115 | saving a base with an intent just added still finds that intent under its id, unchanged by the save's update stamp |
| KnowledgeManager.FirstIndexOnIds | src/services/knowledge_manager.py:122-123 | lookup by id depends only on the id list |
| KnowledgeManager.GetAllIntents | src/services/knowledge_manager.py:160-164 | `get_all_intents` returns the loaded intents in order |
| KnowledgeManager.InCategory | src/services/knowledge_manager.py:171-175 | the category filter is the order-preserving filter of the intents whose category matches ignoring case |
| KnowledgeManager.InCategoryIgnoresCase | src/services/knowledge_manager.py:174 | the query's case never changes the answer |
| KnowledgeManager.LowerIdempotent | src/services/knowledge_manager.py:174 | lower-casing twice equals lower-casing once |
| KnowledgeManager.GetIntentsByCategory | src/services/knowledge_manager.py:166-175 | `get_intents_by_category` filters the loaded intents by category, ignoring case |
| KnowledgeManager.GetCacheStatus | src/services/knowledge_manager.py:177-199 | each field is read from the manager and the file: is_cached iff a base is cached, file_exists iff the file is present, the cached and current modification times, cache_valid iff the cache check passes, cache_outdated iff both times are known and the file is newer; valid iff cached with both times known and not outdated |
| KnowledgeManager.StatusAfterLoad | src/services/knowledge_manager.py:18-199 | after a successful load the status reports a cached, valid, not outdated cache of an existing file |
| KnowledgeManager.StatusAfterInvalidate | src/services/knowledge_manager.py:30-199 | after invalidation nothing is reported cached or valid and no cached time is kept |
| KnowledgeManager.CountCategories | src/services/knowledge_manager.py:214-217 | each category's count is its number of intents, and the counts sum to the number of intents |
| KnowledgeManager.SumAfterSet | src/services/knowledge_manager.py:217 | overwriting one count changes the sum by the difference |
| KnowledgeManager.GetStats | src/services/knowledge_manager.py:201-226 | stats report the intent, pattern and response totals, category counts summing to the intent total, the version and the cache status |
| KnowledgeManager.CountCategoryAppend | src/services/knowledge_manager.py:215-217 | one more intent raises only its own category's count by one |
| KnowledgeManager.CountCategory | src/services/knowledge_manager.py:214-217 | a category's count is at most the number of intents, zero iff no intent has it, and all of them iff every intent has it |
| KnowledgeManager.CountCategoryIsFiltered | src/services/knowledge_manager.py:214-217 | a category's count is the number of intents whose category is exactly that string |
| KnowledgeManager.TotalPatterns | src/services/knowledge_manager.py:207-209 | the pattern total is at least every intent's pattern count, and zero iff no intent has a pattern |
| KnowledgeManager.TotalResponses | src/services/knowledge_manager.py:210-212 | the response total is at least every intent's response count, and zero iff no intent has a response |
| KnowledgeManager.TotalsSplit | src/services/knowledge_manager.py:207-212 | the pattern and response totals add up over a split of the intents |
| TextProcessor.Zeros | src/services/text_processor.py:74 | a zero vector of the embedding dimension |
| TextProcessor.RemoveSpecial | src/services/text_processor.py:61 | dropping special characters keeps only word characters, whitespace and `. ! ? , - '`, adds no upper case, and changes nothing when every character is already kept |
| TextProcessor.RemoveSpecialSplit | src/services/text_processor.py:61 | the substitution works character by character: the result for a + b is the result for a followed by the result for b, so kept characters stay in order |
| TextProcessor.RemoveSpecialOne | src/services/text_processor.py:61 | a single character survives iff it is a word character, whitespace or one of `. ! ? , - '` |
| TextProcessor.CollapseSpaces | src/services/text_processor.py:64 | collapsing whitespace leaves only plain spaces as whitespace, is empty iff its input is, and starts with whitespace iff its input does |
| TextProcessor.CollapseSingleSpaced | src/services/text_processor.py:64 | after collapsing, no two whitespace characters are adjacent |
| TextProcessor.CollapseKeepsChars | src/services/text_processor.py:64 | when every non-whitespace character has a property, so does every non-space character after collapsing |
| TextProcessor.CleanText | src/services/text_processor.py:55-69 | `_clean_text` output is lower case, holds only word characters, single spaces and `. ! ? , - '`, has no leading or trailing space and no two adjacent spaces |
| TextProcessor.CollapseIsJoinedWords | src/services/text_processor.py:64 | collapsing whitespace is joining the words with single spaces, plus one space if the text ends with whitespace |
| TextProcessor.CollapseTrimIsJoinedWords | src/services/text_processor.py:64-67 | collapsing then stripping is joining the words with single spaces |
| TextProcessor.CleanTextIsJoinedWords | src/services/text_processor.py:55-69 | cleaned text is the words of the lower-cased, filtered text joined by single spaces |
| TextProcessor.CollapseFixpoint | src/services/text_processor.py:64 | text that is already single-spaced is not changed by collapsing |
| TextProcessor.CleanTextIdempotent | src/services/text_processor.py:55-69 | cleaning cleaned text changes nothing |
| TextProcessor.GetTextVector | src/services/text_processor.py:71-77 | blank text gives a zero vector of the embedding dimension; other text gives its embedding |
| TextProcessor.PreprocessText | src/services/text_processor.py:31-53 | blank input is a TextProcessingError; otherwise the original is kept, cleaned is `_clean_text(text)`, the vector embeds the raw text and vector_dim is its length |
| TextProcessor.GetSimilarity | src/services/text_processor.py:79-90 | similarity is 0.0 when either text is blank, otherwise the cosine of the two embeddings |
| TextProcessor.GetBatchSimilarities | src/services/text_processor.py:92-115 | one similarity per candidate; a blank query gives zeros, and a blank candidate is compared as " " |
| TextProcessor.PyTake | src/services/text_processor.py:144 | `s[:n]` is a prefix of `s`, of length min(n, len(s)) when n is not negative |
| TextProcessor.TakeSubBag | src/services/text_processor.py:230-232 | the first top_k of the sorted pairs are drawn without repetition from the pairs |
| TextProcessor.TakeBest | src/services/text_processor.py:230-232 | no pair left out of the first top_k of the sorted pairs scores above the last one kept |
| TextProcessor.BestPairs | src/services/text_processor.py:229-232 | the top_k best pairs, best first, drawn without repetition, and none left out scores above the last kept |
| TextProcessor.KeywordCandidates | src/services/text_processor.py:120-141 | the candidates are exactly the lower-cased word runs of at least three characters that are not stopwords |
| TextProcessor.ExtractKeywords | src/services/text_processor.py:117-144 | the keywords are the first min(n, candidates) keyword candidates, each lower case, of at least three word characters and no stopword |
| TextProcessor.RunsOfLowered | src/services/text_processor.py:120 | every word found in lower-cased text is lower case and made of word characters |
| TextProcessor.RunsAreSlices | src/services/text_processor.py:120 | every character of a found word occurs in the text |
| TextProcessor.KeywordsPrefix | src/services/text_processor.py:141-144 | the keywords for n are a prefix of those for any m at least n |
| TextProcessor.CollectValid | src/services/text_processor.py:152-157 | the non-blank texts are collected with their indices, in increasing order, and none is missed |
| TextProcessor.PlaceAt | src/services/text_processor.py:159-185 | each result lands at its original index; every other slot stays empty |
| TextProcessor.BatchProcessTexts | src/services/text_processor.py:146-209 | one result per input, index-aligned: blank inputs get the "Empty or invalid text" error with a zero vector, others their cleaned text and embedding; [] gives [] |
| TextProcessor.Fill | src/services/text_processor.py:199-207 | an empty slot becomes the error entry and a filled one is kept |
| TextProcessor.Zip | src/services/text_processor.py:229 | candidates are paired with their similarities index by index |
| TextProcessor.FindMostSimilar | src/services/text_processor.py:219-232 | no candidates give []; otherwise min(top_k, len) (candidate, similarity) pairs drawn without repetition from the scored candidates, by non-increasing similarity, and no pair left out scores above the last one kept |
| Retrieval.FormatHits | src/services/vector_search.py:165-181 | store answers are paired index-wise in store order, each hit keeping its distance and scored from it; an empty id list gives [] and misaligned columns fail |
| Retrieval.AtLeast | src/services/vector_store/search_service.py:103-108 | comparing a score with a numeric threshold is `>=`; a string or null threshold raises TypeError as in Python |
| Retrieval.Recover | src/services/vector_store/search_service.py:125-130 | results pass through, a ConfigurationError is re-raised, and any other error becomes [] |
| Retrieval.SourceOf | src/services/vector_store/search_service.py:30-34 | indexing reads each intent's id, patterns, category and threshold |
| Retrieval.Outcomes | src/services/vector_store/search_service.py:37-40 | each pattern is preprocessed in order |
| Retrieval.Collect | src/services/vector_store/search_service.py:37-67 | at most one record per pattern |
| Retrieval.CollectedFrom | src/services/vector_store/search_service.py:37-67 | every record comes from a pattern whose preprocessing succeeded |
| Retrieval.CollectedOf | src/services/vector_store/search_service.py:37-67 | every pattern whose preprocessing succeeded gives a record |
| Retrieval.PatternRecordFrom | src/services/vector_store/search_service.py:37-67 | every record of an intent is built from one of its non-blank patterns |
| Retrieval.PatternRecordOf | src/services/vector_store/search_service.py:37-67 | every non-blank pattern of an intent yields its record, so failing patterns are the only ones skipped |
| Retrieval.IndexedFrom | src/services/vector_store/search_service.py:30-67 | every indexed record is built from some intent's non-blank pattern |
| Retrieval.IndexedOf | src/services/vector_store/search_service.py:30-67 | every non-blank pattern of every intent is indexed |
| ChromaStore.ScoreUnclamped | src/services/vector_store/chroma_store.py:107-110 | the score 1 − distance is negative exactly when the distance exceeds 1, and lies in [0, 1] for distances in [0, 1] |
| ChromaStore.EqualityClauses | src/services/vector_store/chroma_store.py:86-89 | every filter `{k: v}` becomes `{k: {"$eq": v}}`, with the same keys |
| ChromaStore.BuildWhere | src/services/vector_store/chroma_store.py:84-89 | absent or empty filters give no where clause; otherwise one equality clause per filter key |
| ChromaStore.Search | src/services/vector_store/chroma_store.py:73-118 | search succeeds iff the store answers with aligned columns; hits pair ids, documents, metadatas and distances index-wise with score 1 − distance; failures are "Failed to search Chroma" |
| ChromaStore.Surface | src/services/vector_store/chroma_store.py:70-71 | a store failure surfaces as a ConfigurationError with the operation's message |
| ChromaStore.AddVectors | src/services/vector_store/chroma_store.py:53-71 | add sends ids, vectors, metadatas and texts column-wise in order and fails with "Failed to add vectors to Chroma" iff the store does |
| ChromaStore.DeleteVectors | src/services/vector_store/chroma_store.py:120-132 | delete fails with "Failed to delete vectors from Chroma" iff the store does |
| ContextScoring.BuildSessionContext | src/services/chatbot_engine.py:153-189 | a missing session gives no snapshot; otherwise it holds the last min(5, n) messages, message_count = full history length, the context variables, and conversation_state defaulting to greeting |
| ContextScoring.SnapshotEndsWithNewest | src/services/chatbot_engine.py:161 | the snapshot's history ends with the newest message |
| ContextScoring.CategoryBoost | src/services/vector_store/search_service.py:188-200 | the boost is 0.2 exactly for a non-empty category equal to last_category, 0.1 exactly for a help or thanks intent after a greeting or farewell category, otherwise 0 |
| ContextScoring.FlowBoost | src/services/vector_store/search_service.py:202-214 | the flow boost is 0.15 exactly when the intent follows last_intent in the greeting/help/thanks table, otherwise 0 |
| ContextScoring.ContextScore | src/services/vector_search.py:438-472 | the context score is 0 without context and always within [0, 0.35] |
| ContextScoring.CapNeverBinds | src/services/vector_store/search_service.py:216 | with context the score is the plain sum of the two boosts: the 1.0 cap never binds |
| ContextScoring.MaximumScore | src/services/vector_store/search_service.py:178-216 | the score reaches 0.35 iff both the same-category and the flow boost apply |
| ContextScoring.FreshSessionScoresZero | src/services/vector_store/search_service.py:188-216 | a session without last_intent and last_category scores 0 |
| SearchService.UserMessages | src/services/vector_store/search_service.py:145-147 | the user messages are the messages of the user entries, one each and in history order |
| SearchService.HistoryLead | src/services/vector_store/search_service.py:142-150 | given the user messages among the last 3 entries, the history prefix is empty iff there are none; otherwise it is the last one, or the last two joined by a space, followed by a space |
| SearchService.VariableTail | src/services/vector_store/search_service.py:152-157 | the tail is empty when no variable is a string shorter than 50 characters, otherwise a space and those values joined by spaces, in variable order |
| SearchService.EnhanceQuery | src/services/vector_store/search_service.py:132-159 | without context the query is unchanged; with context it is the space-join of the last two user messages among the last 3 entries, the query, and the short string variables in order |
| SearchService.FirstTurnQuery | src/services/vector_store/search_service.py:132-159 | a context with one user message and one short string variable turns the query into "<message> <query> <value>" |
| SearchService.NoUserMessages | src/services/vector_store/search_service.py:145-147 | a history without user entries contributes no message |
| SearchService.BuildContextFilters | src/services/vector_store/search_service.py:161-176 | context filters are never built |
| SearchService.KeepAndScore | src/services/vector_store/search_service.py:101-118 | a comparison with a non-numeric threshold fails with TypeError; otherwise exactly the hits whose raw score reaches their threshold (default 0.5) are kept and scored |
| SearchService.KeepAndScoreSplit | src/services/vector_store/search_service.py:103-118 | the filtering loop walks the hits in store order: the kept hits of a concatenation are those of each part in turn, and the error is that of the first hit whose threshold does not compare |
| SearchService.KeepAndScoreOne | src/services/vector_store/search_service.py:103-118 | a single hit is kept with its final score iff its raw score reaches its threshold, and a non-comparable threshold fails |
| SearchService.ScoreHit | src/services/vector_store/search_service.py:112-117 | a kept hit gets the context score of its category and intent id, in [0, 0.35], and final = 0.7·score + 0.3·context; without a session context final = 0.7·score |
| SearchService.Passes | src/services/vector_store/search_service.py:104-111 | a hit passes iff its raw score reaches its metadata threshold, or 0.5 when the metadata has none; a string or null threshold makes the comparison fail |
| SearchService.SearchIntents | src/services/vector_store/search_service.py:76-130 | a store failure is re-raised; otherwise the result is the kept, blended hits stably sorted by non-increasing final score (a permutation of them), and a TypeError while filtering yields [] |
| SearchService.SearchIntentsStable | src/services/vector_store/search_service.py:114-123 | hits with equal final score keep the store's order, as Python's stable sort does |
| SearchService.SearchUsesNoFilter | src/services/vector_store/search_service.py:94-98 | the store is always queried without a where clause |
| SearchService.SearchResultsAreKeptHits | src/services/vector_store/search_service.py:101-121 | a result is returned iff it is a hit whose raw score reached its threshold, blended with its context score |
| SearchService.BlendBounds | src/services/vector_store/search_service.py:116 | the final score is 0.7·score plus at most 0.105 |
| SearchService.MakeRecord | src/services/vector_store/search_service.py:44-61 | a pattern record has id "<intent>_pattern_<i>", the raw pattern's vector and text, type "pattern", category defaulting to "general", threshold defaulting to 0.5 and the dumped responses |
| SearchService.IndexKnowledgeBase | src/services/vector_store/search_service.py:26-74 | the store is called, with every record, iff some pattern could be processed |
| SearchService.IndexedRecordShape | src/services/vector_store/search_service.py:37-63 | every indexed record is some intent's non-blank pattern j, with id "<intent>_pattern_<j>", that text and its embedding |
| SearchService.RecordAtShape | src/services/vector_store/search_service.py:44-61 | the record of a non-blank pattern has its id, text and embedding |
| SearchService.GetFallbackResponse | src/services/vector_store/search_service.py:218-241 | the fallback has intent "fallback", type "fallback", confidence 0.0, a non-empty reply from the fixed list and two suggestions |
| VectorSearch.CollectionMetadata | src/services/vector_search.py:73-81 | collection metadata has the description, and a language entry iff a non-empty language is given |
| VectorSearch.AddVectors | src/services/vector_search.py:100-138 | adding [] is a no-op; otherwise the store call succeeds or fails with "Failed to add vectors to Chroma collection '<name>'" |
| VectorSearch.Similarity | src/services/vector_search.py:168-169 | similarity max(0, 1 − d/2) is never negative, is 0 iff d ≥ 2, equals 1 − d/2 on [0, 2], and is at most 1 for d ≥ 0 |
| VectorSearch.WhereClause | src/services/vector_search.py:152-156 | no clause iff there are neither filters nor a language; a language adds a source_language equality and other keys come from the filters |
| VectorSearch.SearchCollection | src/services/vector_search.py:140-189 | search succeeds iff the store answers with aligned columns; hit i carries the i-th id, document text, metadata and distance and the similarity of that distance; failures name the collection |
| VectorSearch.DetermineCollection | src/services/vector_search.py:338-356 | the collection is "intent_" + a non-empty string preferred_language, and "intent_en" without context or without a truthy preference |
| VectorSearch.BuildContextFilters | src/services/vector_search.py:424-436 | context filters are never built |
| VectorSearch.Rank | src/services/vector_search.py:390-405 | each hit gets its context score from its category and intent id against the session context (in [0, 0.35]), final = 0.7·score + 0.3·context, its original score and its threshold (default 0.6) |
| VectorSearch.Retrieve | src/services/vector_search.py:367-388 | the explicit collection (else the one chosen from the context) is queried with the cleaned query's vector and no where clause; a failure is a search failure naming that collection, and the hits are the answer's ids in order with similarity scores |
| VectorSearch.RankAll | src/services/vector_search.py:390-405 | every hit is ranked before any filtering, in order |
| VectorSearch.KeepReaching | src/services/vector_search.py:409-414 | threshold filtering fails with TypeError iff some comparison is not numeric, and otherwise keeps exactly the results whose final score reaches their threshold, in order |
| VectorSearch.TargetCollection | src/services/vector_search.py:367-375 | an explicit non-empty collection name wins; otherwise the collection is determined from the context |
| VectorSearch.SearchIntents | src/services/vector_search.py:358-422 | a search failure is re-raised; if some ranked hit has a non-numeric threshold the result is [] (the TypeError is caught); otherwise it is the ranked hits sorted by non-increasing final score, filtered in that order to those reaching their threshold |
| VectorSearch.KeepRanked | src/services/vector_search.py:407-422 | never fails after recovery; a non-numeric threshold anywhere gives []; otherwise the result is the sorted list filtered, in order, to the results reaching their threshold |
| VectorSearch.KeptSorted | src/services/vector_search.py:407-416 | the filtered sorted list stays sorted and holds only, and when comparisons succeed all, reaching results |
| VectorSearch.SortedMembers | src/services/vector_search.py:407 | sorting keeps exactly the same members |
| VectorSearch.BlendingCanDropAStrongHit | src/services/vector_search.py:399-414 | a hit of raw score 0.8 with the default 0.6 threshold is dropped without context, because blending lowers it to 0.56 |
| VectorSearch.NoContextThreshold | src/services/vector_search.py:399-414 | without context a hit is kept iff 0.7·score reaches its threshold |
| VectorSearch.MakeRecord | src/services/vector_search.py:287-318 | a record has id "<collection>_<intent>_pattern_<j>", the threshold from the intent, else the knowledge base's search_config default, else 0.6, source language and collection, tags defaulting to [] and priority to 1 |
| VectorSearch.IndexKnowledgeBase | src/services/vector_search.py:264-336 | no records means no store call; otherwise every record is added with the source language |
| VectorSearch.IndexedRecordShape | src/services/vector_search.py:287-320 | every indexed record is some intent's non-blank pattern j with id "<collection>_<intent>_pattern_<j>", tagged with the collection and the source language (default "unknown") |
| VectorSearch.AfterLast | src/services/vector_search.py:255-257 | `split("_")[-1]` is the suffix after the last "_", and the whole name without one |
| VectorSearch.AppendLastKept | src/services/vector_search.py:255-257 | a "_"-free suffix of a name without its last character, extended by that character when it is not "_", is the "_"-free suffix of the whole name |
| VectorSearch.LanguageOf | src/services/vector_search.py:247-257 | a collection's language is its metadata language, else the text after "intent_", else the last "_" segment, and none iff there is neither metadata language nor "_" |
| VectorSearch.AvailableLanguages | src/services/vector_search.py:240-262 | the languages are exactly those some listed collection yields; a listing failure gives none |
| VectorSearch.LanguagesOf | src/services/vector_search.py:245-259 | the language set holds exactly the collections' languages, without duplicates |
| VectorSearch.CollectionsByLanguage | src/services/vector_search.py:221-238 | a listing failure gives []; otherwise the names are those of the collections matching the language by metadata or by the "_<lang>" suffix, one per collection, in listing order |
| VectorSearch.MatchingNames | src/services/vector_search.py:228-233 | the names are those of the matching collections, one per collection, in listing order |
| VectorSearch.MatchingNamesMembers | src/services/vector_search.py:228-233 | a name is listed iff it is the name of a collection matching the language |
| VectorSearch.ListedNameSource | src/services/vector_search.py:228-233 | every listed name is the name of some collection matching the language |
| VectorSearch.MatchingCollectionListed | src/services/vector_search.py:228-233 | the name of every collection matching the language is listed |
| VectorSearch.PreferredCollectionRoundTrip | src/services/vector_search.py:221-262 | the collection "intent_<lang>" is discovered with language lang and is found by that language |
| VectorSearch.DiscoveredLanguageMatches | src/services/vector_search.py:221-262 | every string language discovered for a collection finds it again |
| VectorSearch.PrefixedNameEndsWithLanguage | src/services/vector_search.py:251-253 | an "intent_" name ends with "_" and the text after the prefix |
| VectorSearch.SegmentEndsName | src/services/vector_search.py:254-257 | a name with "_" ends with "_" and its last segment |
| ChatbotEngine.MatchesOf | src/services/chatbot_engine.py:202-214 | results become matches one for one, and conversion fails iff some result lacks an intent_id |
| ChatbotEngine.ClassifyIntent | src/services/chatbot_engine.py:191-220 | matches come by non-increasing confidence; a failed search gives []; otherwise each match carries its result's intent id, final score as confidence, raw score and category (default "general"); the result is empty iff the search failed, found nothing or a result lacks an intent id |
| ChatbotEngine.FailingStoreFindsNothing | src/services/chatbot_engine.py:191-220 | when the store always fails, classification finds nothing |
| ChatbotEngine.PreferredAreAllowed | src/services/chatbot_engine.py:334-347 | every preferred intent of a state is also allowed in it |
| ChatbotEngine.IsFlowAppropriate | src/services/chatbot_engine.py:326-363 | a match with confidence at least 0.25 always fits the flow; one below 0.2 fits only if preferred in the state; in a state without rules only the full threshold counts |
| ChatbotEngine.FlowAppropriateMonotone | src/services/chatbot_engine.py:326-363 | a match that fits the flow keeps fitting with a higher confidence, in every state |
| ChatbotEngine.SelectAppropriateResponse | src/services/chatbot_engine.py:298-324 | the variant is a member of the list, "I understand." for an empty one; a first greeting prefers "help"/"assist" variants and a later greeting variants of at most 3 words; object responses in a greeting fail as `.lower()` does |
| ChatbotEngine.PrepareIntentResponse | src/services/chatbot_engine.py:270-296 | an intent reply carries the match's id, confidence and category, a variant of its responses, and the apology string when the stored responses cannot be parsed |
| ChatbotEngine.FallbackReplies | src/services/chatbot_engine.py:370-400 | some fallback list always applies, and none is empty |
| ChatbotEngine.GetFallbackResponse | src/services/chatbot_engine.py:365-408 | the fallback has intent "fallback", category "fallback", confidence 0.0 and a reply from the list that applies |
| ChatbotEngine.FallbackKeywords | src/services/chatbot_engine.py:376-400 | after the opening exchange the list is the thanks list if the lower-cased message contains "thank", else the farewell list if it contains "bye", else the generic list |
| ChatbotEngine.SelectResponse | src/services/chatbot_engine.py:222-268 | a reply is either the fallback or an intent reply for the first match |
| ChatbotEngine.AcceptanceRule | src/services/chatbot_engine.py:241-268 | the first match is used iff it reaches 0.25, or reaches 0.1 and is preferred in the state, or reaches 0.2 and is allowed in it; otherwise the fallback answers |
| ChatbotEngine.NoRulesNoMediumBand | src/services/chatbot_engine.py:347-363 | in a state without flow rules a first match below 0.25 is never used |
| ChatbotEngine.OnlyFirstMatchCounts | src/services/chatbot_engine.py:241-249 | matches after the first never change the reply |
| ChatbotEngine.ReplyConfidence | src/services/chatbot_engine.py:222-268 | a fallback reply has confidence 0 and an intent reply at least 0.1 |
| ChatbotEngine.NextState | src/services/chatbot_engine.py:418-425 | "greeting" moves to ongoing; otherwise "goodbye" or category "farewell" moves to closing; otherwise no state is written |
| ChatbotEngine.StateUpdate | src/services/chatbot_engine.py:427-435 | the update always writes last_intent, last_category and last_response_confidence, and conversation_state exactly when a new state applies |
| ChatbotEngine.GetConversationState | src/services/chatbot_engine.py:459-466 | a missing session has no state; otherwise the stored state, defaulting to greeting |
| ChatbotEngine.StateTransition | src/services/chatbot_engine.py:410-438 | after the update the state is the new one when one applies and unchanged otherwise, and last_intent is the reply's intent |
| ChatbotEngine.UpdateConversationState | src/services/chatbot_engine.py:410-438 | the state update changes nothing for a missing session, and otherwise writes only that session's key, keeping the history bound |
| ChatbotEngine.GenerateResponseText | src/services/chatbot_engine.py:440-457 | "{user_name}" is replaced by a truthy string user_name and the text is otherwise unchanged; a truthy non-string name fails as `replace` does |
| Strings.Replace | src/services/chatbot_engine.py:455 | `str.replace` leaves a text without the pattern unchanged, starts with the substitute when the text starts with the pattern, and introduces no character foreign to the text and the substitute |
| Strings.ReplaceSelf | src/services/chatbot_engine.py:455 | replacing a pattern by itself leaves every text unchanged |
| ChatbotEngine.ErrorResponse | src/services/chatbot_engine.py:126-135 | a failed turn answers with the fixed apology, intent "error" and confidence 0.0 |
| ChatbotEngine.GetOrCreateSession | src/services/chatbot_engine.py:137-151 | a given, stored session id is reused; otherwise a fresh session starts in the greeting state with empty history |
| ChatbotEngine.OpenTurn | src/services/chatbot_engine.py:67-77 | a turn opens by storing the user message in the session and snapshotting it |
| ChatbotEngine.Deliver | src/services/chatbot_engine.py:87-124 | a delivered reply carries the reply's intent and confidence, the session id and the pre-turn state; the session gets the state update and the bot message; otherwise the error reply is returned |
| ChatbotEngine.DeliverSucceeds | src/services/chatbot_engine.py:87-124 | a reply with confidence in [0, 1] and plain text that needs no templating is delivered successfully with exactly that text |
| ChatbotEngine.Validated | src/services/chatbot_engine.py:107-118 | the response validates iff its confidence lies in [0, 1] and leaves the store untouched |
| ChatbotEngine.FinishTurn | src/services/chatbot_engine.py:79-124 | a successful turn reports the selected reply's intent and confidence, the session id and the pre-turn state, and stores the state update and the templated bot message |
| ChatbotEngine.ProcessMessage | src/services/chatbot_engine.py:58-135 | every turn answers with a confidence in [0, 1] and an intent id, either successfully for the turn's session or with the error reply |
| ChatbotEngine.AddMessageKeepsContext | src/services/chatbot_engine.py:74 | adding a message keeps the session's context variables and bounded-appends the history |
| ChatbotEngine.OpenedSessionStored | src/services/chatbot_engine.py:67-77 | after opening, the session is stored, a snapshot exists, and it reports the state before the turn |
| ChatbotEngine.PreTurnStateReported | src/services/chatbot_engine.py:77-113 | the reported conversation_state is the state before the turn, not the updated one |
| ChatbotEngine.TurnAdvancesState | src/services/chatbot_engine.py:88-438 | after a successful "greeting" turn the session is ongoing, after a "goodbye" turn it is closing |
| ChatbotEngine.TurnKeepsWellFormed | src/services/chatbot_engine.py:58-135 | a turn only creates and updates sessions, so every record stays under its own id's key, which is what the turn lemmas ask of the store they start from |
| ChatbotEngine.DeliverKeepsWellFormed | src/services/chatbot_engine.py:88-104 | the state update and the bot message keep every record under its own id's key |
| ChatbotEngine.TurnRecordsBothMessages | src/services/chatbot_engine.py:72-104 | with room for two entries, a successful turn leaves the user message followed by the reply at the end of the history |
| ChatbotEngine.OpeningEndsWithUser | src/services/chatbot_engine.py:72-74 | after opening, the history ends with the user message |
| ChatbotEngine.FinishRecordsReply | src/services/chatbot_engine.py:87-104 | finishing a turn appends the reply right after the last stored message |
| ChatbotEngine.ReplyAfterStateUpdate | src/services/chatbot_engine.py:88-104 | the state update keeps history, so the bot reply follows the user message |
| ChatbotEngine.BotMessageFollows | src/services/chatbot_engine.py:104 | adding the bot message puts it right after the previous last message |
| ChatbotEngine.StateUpdateKeepsHistory | src/services/chatbot_engine.py:437-438 | the state update changes no history |
| ChatbotEngine.AppendKeepsPrevious | src/services/session_manager.py:77-84 | with a bound of at least 2, appending keeps the previous last message just before the new one |
| ChatbotEngine.FirstMessageWithoutMatchIsWelcomed | src/services/chatbot_engine.py:58-381 | a new session's first message with a failing store gets a welcome fallback |
| ChatbotEngine.FreshOpening | src/services/chatbot_engine.py:137-189 | a fresh session's snapshot is the opening exchange without a user_name |
| ChatbotEngine.FreshSessionStored | src/services/chatbot_engine.py:137-151 | a fresh session is stored under the fresh id in the greeting state, its history exactly [the user message] |
| ChatbotEngine.FreshTurnQuery | src/services/chatbot_engine.py:69-80 | on a fresh session the search query is "<message> <message> greeting": the message is already in the history and the state variable is appended |
| ChatbotEngine.FallbackFinish | src/services/chatbot_engine.py:376-381 | in the opening exchange with no user name, delivering the fallback succeeds with intent "fallback" and one of the welcome replies |

## Left out

- HTTP routes, middleware, the per-language engine cache of the chat route, the Redis client, the Pinecone backend, the backend factory and the re-export modules: transport and wiring, not decision logic.
- Redis TTL expiry, `extend_session_ttl` and `get_active_session_count`: they depend on the store's clock and key scans.
- File reads and writes: the knowledge-base file is an abstract disk value, and `save_knowledge_base` is a commit that either succeeds with a new mtime or fails (`WriteOutcome`).
- `load_json_file`, `save_json_file`, `backup_knowledge_base` and the data loader: file I/O and startup orchestration.
- The sentence-transformer embedding and cosine similarity are uninterpreted function parameters; scores are reals, so float rounding is not modelled.
- Clock readings and uuids are parameters; `created_at`, `last_active`, `indexed_at` and `processing_time` values are not modelled beyond being passed through.
- `random.choice` is a `choice: nat` index into the list; the lemmas show every member is reachable.
- Character classes and `lower()` cover ASCII only; non-ASCII letters, digits and whitespace are not modelled.
- Pydantic error reporting: a rejected value is an error variant, but the text and ordering of pydantic's messages, and the ": {e}" detail appended to wrapped exceptions, are not modelled.
- An `AttributeError` raised by calling a string method on a non-string is modelled as a `TypeError` variant; both end in the engine's error reply.
- Stored responses are either a decoded list or unparseable; the JSON text itself is not modelled.
- Python's `str` of a float, used when `preferred_language` is a number, is the parameter `numberText`; its output is not modelled.
- `get_stats` of the search services and the engine, `initialize`, client set-up and the `use_chroma` argument, which neither search service accepts.
- Response metadata fields `processing_time`, `context_used` and `response_type`, and the `keywords`, `lemmas` and `indexed_at` fields of indexed records.
- The nested query-list structure of the vector-store query results: one query is sent, so only its inner lists are modelled.
- `max_history == 0`: the slice `[-0:]` keeps the whole history; this is modelled as written, and the bound lemmas require a positive maximum.
- `_get_or_create_collection` infers a language from the collection name only inside `if language:` under the opposite test `not language`, so the inference can never run; the model follows the code as written and never infers a language.
- The cleaned form of the sample sentence "The quick brown fox jumps over the lazy dog." is not stated as a concrete lemma; the general `_clean_text` properties cover it.
- TextProcessor.KeywordCandidates: states membership in both directions (every qualifying word run is a candidate and every candidate qualifies), not that the candidates keep the order of the text.
- IntentDecoding: decodes each field by its exact JSON type and does not model pydantic's lax coercion, so a knowledge-base file the program accepts with a numeric string as `confidence_threshold` (`"0.7"`), a boolean as `priority` (`true` read as 1) or a string where pydantic would coerce one is rejected by the model.
- `ChatRequest.context` and `ChatResponse.response_id` (and `IntentMatch.response_id`) in `src/models/intent.py`: the engine never reads the request context and never sets a response id, so neither field is modelled.
- Common.Value: context variables and metadata hold scalars only (string, number, boolean, null). The session API accepts any JSON value there, and a list or object as `last_intent` makes the `flow_patterns.get` lookup raise `TypeError` (src/services/vector_store/search_service.py:212, src/services/vector_search.py:468), after which the search returns no results and the turn falls back; that path cannot arise in the model.
- IntentDecoding.DecodeTimestamp: accepts every JSON string as a `created_at`/`updated_at` value; pydantic's `datetime` parsing, which rejects a string such as "yesterday" and so makes loading the knowledge base fail with a `ConfigurationError`, is not modelled.
- SessionManager.UpdateSession: writes the updated record under the key of the requested id, where `_save_session` uses the key of the record's own `session_id`. The two agree in every store that keeps each record under its own id's key (`WellFormed`), which the empty store satisfies and every create, update, delete and engine turn preserves; a store holding a record under another id's key is not modelled. The re-save inside `get_session`, which only refreshes `last_active`, is not modelled either.
- TextProcessor.FindMostSimilar: states the kept pairs as a best-first sub-bag of the scored candidates; that ties keep the candidates' order follows from Sorting.SortDescStable but is not restated in its own contract.

=== FILE: chatbot_engine.dfy ===
/** One conversational turn (`ChatbotEngine` in `src/services/chatbot_engine.py`): the
    user message is stored, the session snapshot built, the message classified by the
    retrieval service, a reply chosen by confidence band and conversation flow (or a
    context-aware fallback), the conversation state advanced, the reply templated and
    stored, and a validated `ChatResponse` returned. Any failure on the way is answered
    with a fixed apology; the session changes made before the failure stay. */
module ChatbotEngine {
  import opened Common
  import opened Strings
  import opened Dicts
  import opened Sorting
  import opened IntentModel
  import opened SessionModel
  import opened SessionManager
  import opened SessionUtils
  import opened TextProcessor
  import opened ContextScoring
  import opened Retrieval
  import ChromaStore
  import SearchService

  /** `self.confidence_threshold`: a first match at or above it is always used. */
  const ConfidenceThreshold: real := 0.25

  /** `self.fallback_threshold`: below it a first match is never used. */
  const FallbackThreshold: real := 0.1

  /** How many hits a turn asks the retrieval service for. */
  const SearchTopK: int := 5

  // ---------------------------------------------------------------------------
  // Classification
  // ---------------------------------------------------------------------------

  /** A classified intent, as `_classify_intent` builds it from one search result. */
  datatype IntentMatch = IntentMatch(
    intentId: string,
    confidence: real,
    originalScore: real,
    contextScore: real,
    matchedPattern: string,
    responses: StoredResponses,
    category: string)

  /** The retrieval service the engine is wired to: the embedding model and the Chroma
      collection's query answers. */
  datatype Searcher = Searcher(model: EmbeddingModel, backend: ChromaStore.Request -> Result<QueryColumns>)

  function MatchOf(s: SearchService.Scored): IntentMatch
    requires s.hit.metadata.intentId.Some?
  {
    IntentMatch(s.hit.metadata.intentId.value, s.finalScore, s.hit.score, s.contextScore, s.hit.text,
      ParseResponses(s.hit.metadata), s.hit.metadata.category.GetOr("general"))
  }

  /** The loop over the results; a result whose metadata lacks `intent_id` raises
      `KeyError` (`None`). */
  function MatchesOf(results: seq<SearchService.Scored>): (r: Option<seq<IntentMatch>>)
    ensures r.None? <==> exists i :: 0 <= i < |results| && results[i].hit.metadata.intentId.None?
    ensures r.Some? ==> |r.value| == |results|
    ensures r.Some? ==> forall i :: 0 <= i < |results| ==> r.value[i] == MatchOf(results[i])
  {
    if results == [] then Some([])
    else if results[0].hit.metadata.intentId.None? then None
    else
      var rest := MatchesOf(results[1..]);
      assert forall i :: 1 <= i < |results| ==> results[i] == results[1..][i - 1];
      if rest.None? then None else Some([MatchOf(results[0])] + rest.value)
  }

  /** `_classify_intent`: the search results as matches, best first; any failure of the
      search or of the conversion gives no matches. */
  function ClassifyIntent(message: string, context: Option<SessionContext>, s: Searcher): (r: seq<IntentMatch>)
    ensures forall i, j :: 0 <= i < j < |r| ==> r[i].confidence >= r[j].confidence
    ensures var results := SearchService.SearchIntents(message, context, SearchTopK, s.model, s.backend);
      && (results.Err? ==> r == [])
      && (results.Ok? && r != [] ==> |r| == |results.value|)
      && (results.Ok? && r != [] ==> forall i :: 0 <= i < |r| ==>
            && Some(r[i].intentId) == results.value[i].hit.metadata.intentId
            && r[i].confidence == results.value[i].finalScore
            && r[i].originalScore == results.value[i].hit.score
            && r[i].category == results.value[i].hit.metadata.category.GetOr("general"))
    ensures var results := SearchService.SearchIntents(message, context, SearchTopK, s.model, s.backend);
      && (results.Ok? && MatchesOf(results.value).Some? ==> r == MatchesOf(results.value).value)
      && (r == [] <==> results.Err? || results.value == []
                       || exists i :: 0 <= i < |results.value| && results.value[i].hit.metadata.intentId.None?)
  {
    var results := SearchService.SearchIntents(message, context, SearchTopK, s.model, s.backend);
    if results.Err? then []
    else
      match MatchesOf(results.value)
      case None => []
      case Some(matches) =>
        assert forall i :: 0 <= i < |matches| ==> matches[i].confidence == SearchService.FinalScore(results.value[i]);
        matches
  }

  // ---------------------------------------------------------------------------
  // Conversation flow
  // ---------------------------------------------------------------------------

  /** `flow_rules[state]["allowed_intents"]`; a state without rules allows nothing. */
  function AllowedIntents(state: Value): seq<string> {
    if state == Greeting.AsValue() then ["greeting", "help", "thanks"]
    else if state == Ongoing.AsValue() then ["help", "thanks", "goodbye", "weather", "greeting"]
    else if state == Closing.AsValue() then ["goodbye", "thanks"]
    else []
  }

  /** `flow_rules[state]["preferred_intents"]`. */
  function PreferredIntents(state: Value): seq<string> {
    if state == Greeting.AsValue() then ["greeting", "help"]
    else if state == Ongoing.AsValue() then ["help", "thanks"]
    else if state == Closing.AsValue() then ["goodbye"]
    else []
  }

  /** Every preferred intent is also allowed. */
  lemma PreferredAreAllowed(state: Value, intentId: string)
    requires intentId in PreferredIntents(state)
    ensures intentId in AllowedIntents(state)
  {
  }

  /** `_is_flow_appropriate`: preferred intents always fit; allowed ones need 0.2; any
      other needs the full confidence threshold. */
  function IsFlowAppropriate(intentId: string, confidence: real, state: Value): (ok: bool)
    ensures confidence >= ConfidenceThreshold ==> ok
    ensures ok && confidence < FallbackThreshold + 0.1 ==> intentId in PreferredIntents(state)
    ensures AllowedIntents(state) == [] ==> (ok <==> confidence >= ConfidenceThreshold)
  {
    if intentId in PreferredIntents(state) then true
    else if intentId in AllowedIntents(state) then confidence >= FallbackThreshold + 0.1
    else confidence >= ConfidenceThreshold
  }

  /** Fitting the flow is monotone in the confidence: a match that fits keeps fitting
      with a higher confidence, in every state. */
  lemma FlowAppropriateMonotone(intentId: string, low: real, high: real, state: Value)
    requires low <= high && IsFlowAppropriate(intentId, low, state)
    ensures IsFlowAppropriate(intentId, high, state)
  {
  }

  /** The conversation state the snapshot reports; `None` without a snapshot. */
  function StateOfContext(context: Option<SessionContext>): Value {
    if context.Some? then context.value.conversationState else VNone
  }

  /** `session_context.get("message_count", 0)`. */
  function MessageCount(context: Option<SessionContext>): nat {
    if context.Some? then context.value.messageCount else 0
  }

  // ---------------------------------------------------------------------------
  // Replies
  // ---------------------------------------------------------------------------

  /** A reply as chosen from a response list: text, or an object-form response. */
  datatype Reply = Text(text: string) | Object(obj: ResponseObject)

  /** What `_select_response` returns. */
  datatype ResponseData = ResponseData(kind: string, intentId: string, confidence: real, response: Reply, category: string)

  const DefaultReply: string := "I understand."
  const ParseFailureReply: string := "I understand, but I'm having trouble with my response."

  /** The replies a response list offers. */
  function Options(responses: Responses): (r: seq<Reply>)
    ensures |r| == responses.Length()
  {
    match responses
    case Texts(ts) => seq(|ts|, i requires 0 <= i < |ts| => Text(ts[i]))
    case Objects(os) => seq(|os|, i requires 0 <= i < |os| => Object(os[i]))
  }

  /** A reply that offers help: mentions "help" or "assist" in any case. */
  predicate Welcoming(r: string) {
    Contains(Lower(r), "help") || Contains(Lower(r), "assist")
  }

  /** A reply of at most three words. */
  predicate Brief(r: string) {
    |Words(r)| <= 3
  }

  /** `_select_appropriate_response`: a greeting on a first exchange prefers welcoming
      replies, a later greeting prefers brief ones, otherwise any reply; "I understand."
      when there is none. Filtering object-form responses calls a string method on a
      dictionary, which raises. */
  function SelectAppropriateResponse(responses: Responses, context: Option<SessionContext>, category: string, choice: nat): (r: Result<Reply>)
    ensures r.Err? <==> category == "greeting" && responses.Objects? && responses.objects != []
    ensures r.Ok? && responses.Length() == 0 ==> r.value == Text(DefaultReply)
    ensures r.Ok? && responses.Length() > 0 ==> r.value in Options(responses)
    ensures category == "greeting" && MessageCount(context) <= 1 && responses.Texts? && Filter(responses.texts, Welcoming) != [] ==>
      r.Ok? && r.value.Text? && Welcoming(r.value.text)
    ensures category == "greeting" && MessageCount(context) > 1 && responses.Texts? && Filter(responses.texts, Brief) != [] ==>
      r.Ok? && r.value.Text? && Brief(r.value.text)
  {
    if category == "greeting" && responses.Objects? && responses.objects != [] then
      Err(TypeError("'dict' object has no attribute 'lower'"))
    else if category == "greeting" && responses.Texts? && MessageCount(context) <= 1 && Filter(responses.texts, Welcoming) != [] then
      var t := Pick(Filter(responses.texts, Welcoming), choice);
      assert Text(t) == Options(responses)[IndexOf(responses.texts, t)];
      Ok(Text(t))
    else if category == "greeting" && responses.Texts? && MessageCount(context) > 1 && Filter(responses.texts, Brief) != [] then
      var t := Pick(Filter(responses.texts, Brief), choice);
      assert Text(t) == Options(responses)[IndexOf(responses.texts, t)];
      Ok(Text(t))
    else if responses.Length() == 0 then Ok(Text(DefaultReply))
    else
      var options := Options(responses);
      Ok(Pick(options, choice))
  }

  /** A position of `x` in `s`. */
  function IndexOf(s: seq<string>, x: string): (i: nat)
    requires x in s
    ensures i < |s| && s[i] == x
  {
    if s[0] == x then 0 else 1 + IndexOf(s[1..], x)
  }

  /** `_prepare_intent_response`: the stored responses, or the apology when they do not
      parse, and the chosen reply labelled with the match. */
  function PrepareIntentResponse(m: IntentMatch, context: Option<SessionContext>, choice: nat): (r: Result<ResponseData>)
    ensures r.Ok? ==> r.value.kind == "intent_match" && r.value.intentId == m.intentId
    ensures r.Ok? ==> r.value.confidence == m.confidence && r.value.category == m.category
    ensures m.responses.Unparseable? ==> r == Ok(ResponseData("intent_match", m.intentId, m.confidence, Text(ParseFailureReply), m.category))
    ensures m.responses.Dumped? && m.responses.responses.Length() > 0 && r.Ok? ==> r.value.response in Options(m.responses.responses)
  {
    var responses := if m.responses.Dumped? then m.responses.responses else Texts([ParseFailureReply]);
    var reply := SelectAppropriateResponse(responses, context, m.category, choice);
    if reply.Err? then Err(reply.error)
    else
      assert m.responses.Unparseable? ==> reply.value == Text(ParseFailureReply) by {
        if m.responses.Unparseable? {
          assert Options(responses) == [Text(ParseFailureReply)];
        }
      }
      Ok(ResponseData("intent_match", m.intentId, m.confidence, reply.value, m.category))
  }

  const GreetingFallbacks: seq<string> := [
    "Hello! I'm Alfred, your AI assistant. How can I help you today?",
    "Hi there! I'm here to help. What would you like to know?",
    "Welcome! I'm Alfred. What can I assist you with?"]

  const ThanksFallbacks: seq<string> := [
    "You're welcome! Is there anything else I can help you with?",
    "My pleasure! Let me know if you need anything else.",
    "Happy to help! What else can I do for you?"]

  const FarewellFallbacks: seq<string> := [
    "Goodbye! Have a great day!",
    "Take care! Feel free to come back anytime.",
    "See you later! Have a wonderful day!"]

  const GenericFallbacks: seq<string> := [
    "I'm not sure I understand that completely. Could you rephrase it?",
    "I don't have specific information about that. Can you ask me something else?",
    "That's not something I'm familiar with yet. How else can I help you?",
    "I'm still learning about that topic. Is there something else I can assist with?"]

  /** Whether the fallback treats the session as just opened: the state is "greeting"
      (the default without a snapshot is "ongoing") and at most one message was seen. */
  predicate OpeningExchange(context: Option<SessionContext>) {
    context.Some? && context.value.conversationState == Greeting.AsValue() && context.value.messageCount <= 1
  }

  /** The fallback list for a message, checked in order: opening exchange, thanks,
      goodbye, anything else. */
  function FallbackReplies(message: string, context: Option<SessionContext>): (r: seq<string>)
    ensures r != []
  {
    var lower := Lower(message);
    if OpeningExchange(context) then GreetingFallbacks
    else if Contains(lower, "thank") || Contains(lower, "thanks") then ThanksFallbacks
    else if Contains(lower, "bye") || Contains(lower, "goodbye") then FarewellFallbacks
    else GenericFallbacks
  }

  /** `_get_fallback_response`. */
  function GetFallbackResponse(message: string, context: Option<SessionContext>, choice: nat): (r: ResponseData)
    ensures r.kind == "fallback" && r.intentId == "fallback" && r.category == "fallback" && r.confidence == 0.0
    ensures r.response.Text? && r.response.text in FallbackReplies(message, context)
  {
    ResponseData("fallback", "fallback", 0.0, Text(Pick(FallbackReplies(message, context), choice)), "fallback")
  }

  /** A longer needle implies the shorter one it starts with. */
  lemma {:induction false} ContainsPrefixOfNeedle(s: string, needle: string, shorter: string)
    requires IsPrefix(shorter, needle) && Contains(s, needle)
    ensures Contains(s, shorter)
    decreases |s|
  {
    if IsPrefix(needle, s) {
      assert s[..|shorter|] == needle[..|shorter|];
    } else {
      ContainsPrefixOfNeedle(s[1..], needle, shorter);
    }
  }

  lemma {:induction false} ContainsSuffixOfNeedle(s: string, needle: string, tail: string)
    requires IsSuffix(tail, needle) && Contains(s, needle)
    ensures Contains(s, tail)
    decreases |s|
  {
    if IsPrefix(needle, s) {
      var k := |needle| - |tail|;
      ContainsAt(s, tail, k);
    } else {
      ContainsSuffixOfNeedle(s[1..], needle, tail);
    }
  }

  lemma {:induction false} ContainsAt(s: string, sub: string, k: nat)
    requires k + |sub| <= |s| && s[k..k + |sub|] == sub
    ensures Contains(s, sub)
    decreases k
  {
    if k > 0 {
      assert s[1..][k - 1..k - 1 + |sub|] == sub;
      ContainsAt(s[1..], sub, k - 1);
    }
  }

  /** The second test of each fallback branch never decides anything: "thanks" contains
      "thank" and "goodbye" contains "bye". */
  lemma FallbackKeywords(message: string, context: Option<SessionContext>)
    requires !OpeningExchange(context)
    ensures FallbackReplies(message, context) ==
      if Contains(Lower(message), "thank") then ThanksFallbacks
      else if Contains(Lower(message), "bye") then FarewellFallbacks
      else GenericFallbacks
  {
    var lower := Lower(message);
    if Contains(lower, "thanks") {
      ContainsPrefixOfNeedle(lower, "thanks", "thank");
    }
    if Contains(lower, "goodbye") {
      ContainsSuffixOfNeedle(lower, "goodbye", "bye");
    }
  }

  // ---------------------------------------------------------------------------
  // _select_response
  // ---------------------------------------------------------------------------

  /** `_select_response`: only the first match is considered. At or above 0.25 it is
      used; from 0.1 it is used when it fits the conversation flow; otherwise the
      fallback answers. */
  function SelectResponse(matches: seq<IntentMatch>, context: Option<SessionContext>, message: string, choice: nat): (r: Result<ResponseData>)
    ensures r.Ok? ==> r.value.kind == "intent_match" || r.value == GetFallbackResponse(message, context, choice)
    ensures r.Ok? && r.value.kind == "intent_match" ==> matches != [] && r.value.intentId == matches[0].intentId
    ensures r.Err? ==> matches != []
  {
    if matches != [] && matches[0].confidence >= ConfidenceThreshold then
      PrepareIntentResponse(matches[0], context, choice)
    else if matches != [] && matches[0].confidence >= FallbackThreshold
         && IsFlowAppropriate(matches[0].intentId, matches[0].confidence, StateOfContext(context)) then
      PrepareIntentResponse(matches[0], context, choice)
    else Ok(GetFallbackResponse(message, context, choice))
  }

  /** Whether the first match is used. */
  predicate Accepted(matches: seq<IntentMatch>, context: Option<SessionContext>) {
    matches != [] && (
      || matches[0].confidence >= ConfidenceThreshold
      || (matches[0].confidence >= FallbackThreshold && matches[0].intentId in PreferredIntents(StateOfContext(context)))
      || (matches[0].confidence >= FallbackThreshold + 0.1 && matches[0].intentId in AllowedIntents(StateOfContext(context))))
  }

  /** The acceptance rule in closed form: a first match is used exactly when it reaches
      0.25, or reaches 0.1 and is preferred in the current state, or reaches 0.2 and is
      allowed in it. A used match that parses answers with its own id. */
  lemma AcceptanceRule(matches: seq<IntentMatch>, context: Option<SessionContext>, message: string, choice: nat)
    ensures Accepted(matches, context) ==> SelectResponse(matches, context, message, choice) == PrepareIntentResponse(matches[0], context, choice)
    ensures !Accepted(matches, context) ==> SelectResponse(matches, context, message, choice) == Ok(GetFallbackResponse(message, context, choice))
  {
    if matches != [] && matches[0].intentId in PreferredIntents(StateOfContext(context)) {
      PreferredAreAllowed(StateOfContext(context), matches[0].intentId);
    }
  }

  /** A state without flow rules (`ended`, a missing or unknown state) accepts nothing
      below the confidence threshold: the medium band falls back. */
  lemma NoRulesNoMediumBand(matches: seq<IntentMatch>, context: Option<SessionContext>, message: string, choice: nat)
    requires matches != [] && matches[0].confidence < ConfidenceThreshold
    requires StateOfContext(context) != Greeting.AsValue() && StateOfContext(context) != Ongoing.AsValue()
    requires StateOfContext(context) != Closing.AsValue()
    ensures SelectResponse(matches, context, message, choice) == Ok(GetFallbackResponse(message, context, choice))
  {
  }

  /** Matches after the first never influence the reply. */
  lemma OnlyFirstMatchCounts(matches: seq<IntentMatch>, context: Option<SessionContext>, message: string, choice: nat)
    requires matches != []
    ensures SelectResponse(matches, context, message, choice) == SelectResponse(matches[..1], context, message, choice)
  {
  }

  /** A reply's confidence is 0 for a fallback and at least 0.1 for a match. */
  lemma ReplyConfidence(matches: seq<IntentMatch>, context: Option<SessionContext>, message: string, choice: nat)
    requires SelectResponse(matches, context, message, choice).Ok?
    ensures var d := SelectResponse(matches, context, message, choice).value;
      (d.kind == "fallback" && d.confidence == 0.0) || (d.kind == "intent_match" && d.confidence >= FallbackThreshold)
  {
  }

  // ---------------------------------------------------------------------------
  // State update and templating
  // ---------------------------------------------------------------------------

  /** The state a reply moves the conversation to, if any. */
  function NextState(intentId: string, category: string): (r: Option<ConversationState>)
    ensures r == Some(Ongoing) <==> intentId == "greeting"
    ensures r == Some(Closing) <==> intentId != "greeting" && (intentId == "goodbye" || category == "farewell")
    ensures r.None? <==> intentId != "greeting" && intentId != "goodbye" && category != "farewell"
  {
    if intentId == "greeting" then Some(Ongoing)
    else if intentId == "goodbye" then Some(Closing)
    else if category == "farewell" then Some(Closing)
    else None
  }

  /** The context variables a reply writes. */
  function StateUpdate(data: ResponseData): (vars: Dict<Value>)
    ensures Distinct(vars)
    ensures Get(vars, "last_intent") == Some(VStr(data.intentId))
    ensures Get(vars, "last_category") == Some(VStr(data.category))
    ensures Get(vars, "last_response_confidence") == Some(VNum(data.confidence))
    ensures NextState(data.intentId, data.category).Some? ==> Get(vars, "conversation_state") == Some(NextState(data.intentId, data.category).value.AsValue())
    ensures NextState(data.intentId, data.category).None? ==> "conversation_state" !in Keys(vars)
  {
    var base := [("last_intent", VStr(data.intentId)), ("last_category", VStr(data.category)),
                 ("last_response_confidence", VNum(data.confidence))];
    GetFirst(base, 2, "last_response_confidence");
    match NextState(data.intentId, data.category)
    case Some(s) =>
      var vars := base + [("conversation_state", s.AsValue())];
      GetFirst(vars, 3, "conversation_state");
      GetFirst(vars, 2, "last_response_confidence");
      vars
    case None => base
  }

  /** `_update_conversation_state`. */
  function UpdateConversationState(st: Store, sessionId: string, data: ResponseData): (r: Store)
    ensures GetSession(st, sessionId).None? ==> r == st
    ensures GetSession(st, sessionId).Some? ==> SessionKey(sessionId) in r.redis && r.maxHistory == st.maxHistory
    ensures forall k :: k != SessionKey(sessionId) ==> (k in r.redis <==> k in st.redis) && (k in r.redis ==> r.redis[k] == st.redis[k])
  {
    UpdateSession(st, sessionId, SessionUpdate(None, Some(StateUpdate(data)), None)).1
  }

  /** `get_conversation_state`: the stored state, "greeting" when none is stored; `None`
      for a missing session. */
  function GetConversationState(st: Store, sessionId: string): (r: Option<Value>)
    ensures r.None? <==> GetSession(st, sessionId).None?
    ensures r.Some? ==> r.value == GetOr(GetSession(st, sessionId).value.contextVariables, "conversation_state", Greeting.AsValue())
  {
    match GetSession(st, sessionId)
    case None => None
    case Some(s) => Some(GetOr(s.contextVariables, "conversation_state", Greeting.AsValue()))
  }

  /** After a reply the state is "ongoing" for the greeting intent, "closing" for the
      goodbye intent or a farewell category, and unchanged otherwise; the last intent
      is the reply's. */
  lemma StateTransition(st: Store, sessionId: string, data: ResponseData)
    requires GetSession(st, sessionId).Some?
    ensures var after := UpdateConversationState(st, sessionId, data);
      && GetConversationState(after, sessionId) == Some(
           match NextState(data.intentId, data.category)
           case Some(s) => s.AsValue()
           case None => GetConversationState(st, sessionId).value)
      && Get(GetSession(after, sessionId).value.contextVariables, "last_intent") == Some(VStr(data.intentId))
  {
    var update := SessionUpdate(None, Some(StateUpdate(data)), None);
    UpdateThenGet(st, sessionId, update, sessionId + "'");
    UpdateSessionEffect(st, sessionId, update, "conversation_state");
    UpdateSessionEffect(st, sessionId, update, "last_intent");
  }

  /** The placeholder `_generate_response_text` fills in. */
  const UserNamePlaceholder: string := "{user_name}"

  /** `_generate_response_text`: a text reply containing the placeholder gets the
      session's `user_name` substituted when that is set; a name that is not a string
      makes `replace` raise. */
  function GenerateResponseText(data: ResponseData, context: Option<SessionContext>): (r: Result<Reply>)
    ensures !data.response.Text? || !Contains(data.response.text, UserNamePlaceholder) ==> r == Ok(data.response)
    ensures var name := if context.Some? then GetOr(context.value.contextVariables, "user_name", VNone) else VNone;
      && (!Truthy(name) ==> r == Ok(data.response))
      && (r.Err? <==> Truthy(name) && !name.VStr? && data.response.Text? && Contains(data.response.text, UserNamePlaceholder))
      && (name.VStr? && Truthy(name) && r.Ok? && data.response.Text? ==>
            r.value == Text(Replace(data.response.text, UserNamePlaceholder, name.s)))
  {
    var name := if context.Some? then GetOr(context.value.contextVariables, "user_name", VNone) else VNone;
    if Truthy(name) && data.response.Text? && Contains(data.response.text, UserNamePlaceholder) then
      if name.VStr? then Ok(Text(Replace(data.response.text, UserNamePlaceholder, name.s)))
      else Err(TypeError("replace() argument 2 must be str"))
    else Ok(data.response)
  }

  // ---------------------------------------------------------------------------
  // process_message
  // ---------------------------------------------------------------------------

  const ErrorReply: string := "I'm sorry, I encountered an error. Please try again."

  /** The answer to a failed turn. */
  function ErrorResponse(e: Error): (r: ChatResponse)
    ensures r.response == ErrorReply && r.intentId == Some("error") && r.confidence == 0.0
    ensures !Succeeded(r)
  {
    ChatResponse(ErrorReply, Some("error"), 0.0, [("error", VStr(e.message))])
  }

  /** `_get_or_create_session`: the named session when it exists, else a new one with
      id `freshId` that starts in the "greeting" state. */
  function GetOrCreateSession(st: Store, sessionId: Option<string>, userId: Option<string>, freshId: string): (r: (SessionData, Store))
    ensures sessionId.Some? && sessionId.value != [] && GetSession(st, sessionId.value).Some? ==>
      r == (GetSession(st, sessionId.value).value, st)
    ensures !(sessionId.Some? && sessionId.value != [] && GetSession(st, sessionId.value).Some?) ==>
      && r.0.sessionId == freshId && r.0.userId == userId && r.0.conversationHistory == []
      && r.0.contextVariables == [("conversation_state", Greeting.AsValue())]
  {
    if sessionId.Some? && sessionId.value != [] && GetSession(st, sessionId.value).Some? then
      (GetSession(st, sessionId.value).value, st)
    else
      CreateSession(st, SessionCreate(userId, Some([("conversation_state", Greeting.AsValue())])), freshId)
  }

  /** A session a turn can continue: stored under its own id. */
  predicate StoredUnderOwnId(st: Store, s: SessionData) {
    GetSession(st, s.sessionId) == Some(s)
  }

  /** The metadata stored with the bot's message. */
  function BotMetadata(data: ResponseData): Dict<Value> {
    [("intent_id", VStr(data.intentId)), ("confidence", VNum(data.confidence)), ("response_type", VStr(data.kind))]
  }

  /** The metadata of a successful `ChatResponse`; the processing timestamp is left out. */
  function ResponseMetadata(sessionId: string, context: Option<SessionContext>, data: ResponseData): Dict<Value> {
    [("session_id", VStr(sessionId)),
     ("conversation_state", StateOfContext(context)),
     ("context_used", VBool(context.Some? && context.value.history != [])),
     ("response_type", VStr(data.kind))]
  }

  /** The first half of a turn: the session, the store once the user's message is added,
      and the snapshot the rest of the turn reads. */
  datatype Opening = Opening(sessionId: string, store: Store, context: Option<SessionContext>)

  function OpenTurn(st: Store, message: string, sessionId: Option<string>, userId: Option<string>, freshId: string): (r: Opening)
    ensures var (session, st1) := GetOrCreateSession(st, sessionId, userId, freshId);
      && r.sessionId == session.sessionId
      && r.store == AddMessage(st1, session.sessionId, CreateUserMessage(message, None)).1
      && r.context == BuildSessionContext(r.store, r.sessionId)
  {
    var (session, st1) := GetOrCreateSession(st, sessionId, userId, freshId);
    var st2 := AddMessage(st1, session.sessionId, CreateUserMessage(message, None)).1;
    Opening(session.sessionId, st2, BuildSessionContext(st2, session.sessionId))
  }

  /** The reply a turn settles on, before templating. */
  function TurnData(o: Opening, message: string, s: Searcher, choice: nat): Result<ResponseData> {
    SelectResponse(ClassifyIntent(message, o.context, s), o.context, message, choice)
  }

  /** The end of a turn once a reply is chosen: state update, templating, the bot's
      message and the validated response. */
  function Deliver(o: Opening, data: ResponseData): (r: (ChatResponse, Store))
    ensures 0.0 <= r.0.confidence <= 1.0
    ensures r.0.intentId.Some?
    ensures Succeeded(r.0) || (r.0.response == ErrorReply && r.0.intentId == Some("error") && r.0.confidence == 0.0)
    ensures Succeeded(r.0) ==>
      && r.0.intentId == Some(data.intentId)
      && r.0.confidence == data.confidence
      && Get(r.0.metadata, "session_id") == Some(VStr(o.sessionId))
      && Get(r.0.metadata, "conversation_state") == Some(StateOfContext(o.context))
      && r.1 == AddMessage(UpdateConversationState(o.store, o.sessionId, data), o.sessionId,
                  CreateBotMessage(r.0.response, Some(BotMetadata(data)))).1
      && GenerateResponseText(data, o.context) == Ok(Text(r.0.response))
  {
    var st3 := UpdateConversationState(o.store, o.sessionId, data);
    var reply := GenerateResponseText(data, o.context);
    if reply.Err? then (ErrorResponse(reply.error), st3)
    else if reply.value.Object? then (ErrorResponse(ValidationError("message: Input should be a valid string")), st3)
    else
      var text := reply.value.text;
      var st4 := AddMessage(st3, o.sessionId, CreateBotMessage(text, Some(BotMetadata(data)))).1;
      var md := ResponseMetadata(o.sessionId, o.context, data);
      GetFirst(md, 0, "session_id");
      GetFirst(md, 1, "conversation_state");
      Validated(text, data, md, st4)
  }

  /** The closing `ChatResponse(...)`: a confidence outside [0, 1] fails pydantic's
      validation. */
  function Validated(text: string, data: ResponseData, md: Dict<Value>, st: Store): (r: (ChatResponse, Store))
    requires |md| >= 2 && md[0].0 == "session_id" && md[1].0 == "conversation_state"
    ensures r.1 == st
    ensures 0.0 <= r.0.confidence <= 1.0
    ensures r.0.intentId.Some?
    ensures Succeeded(r.0) || (r.0.response == ErrorReply && r.0.intentId == Some("error") && r.0.confidence == 0.0)
    ensures Succeeded(r.0) ==> r.0 == ChatResponse(text, Some(data.intentId), data.confidence, md)
    ensures Succeeded(r.0) <==> 0.0 <= data.confidence <= 1.0
  {
    var response := ValidateChatResponse(text, Some(data.intentId), data.confidence, md);
    if response.Err? then (ErrorResponse(response.error), st)
    else
      assert md[0].0 in Keys(md);
      (response.value, st)
  }

  /** The second half of a turn: the reply chosen from the matches, then delivered. */
  function FinishTurn(o: Opening, message: string, s: Searcher, choice: nat): (r: (ChatResponse, Store))
    ensures 0.0 <= r.0.confidence <= 1.0
    ensures r.0.intentId.Some?
    ensures Succeeded(r.0) || (r.0.response == ErrorReply && r.0.intentId == Some("error") && r.0.confidence == 0.0)
    ensures Succeeded(r.0) ==>
      var data := TurnData(o, message, s, choice);
      && data.Ok?
      && r.0.intentId == Some(data.value.intentId)
      && r.0.confidence == data.value.confidence
      && Get(r.0.metadata, "session_id") == Some(VStr(o.sessionId))
      && Get(r.0.metadata, "conversation_state") == Some(StateOfContext(o.context))
      && r.1 == AddMessage(UpdateConversationState(o.store, o.sessionId, data.value), o.sessionId,
                  CreateBotMessage(r.0.response, Some(BotMetadata(data.value)))).1
      && GenerateResponseText(data.value, o.context) == Ok(Text(r.0.response))
  {
    var data := TurnData(o, message, s, choice);
    if data.Err? then (ErrorResponse(data.error), o.store)
    else Deliver(o, data.value)
  }

  /** `process_message`. The response and the store after the turn; a failure at any
      stage is answered with `ErrorResponse`, keeping what the earlier stages stored. */
  function ProcessMessage(st: Store, message: string, sessionId: Option<string>, userId: Option<string>,
                          freshId: string, s: Searcher, choice: nat): (r: (ChatResponse, Store))
    ensures 0.0 <= r.0.confidence <= 1.0
    ensures r.0.intentId.Some?
    ensures Succeeded(r.0) || (r.0.response == ErrorReply && r.0.intentId == Some("error") && r.0.confidence == 0.0)
    ensures Succeeded(r.0) ==> Get(r.0.metadata, "session_id") == Some(VStr(OpenTurn(st, message, sessionId, userId, freshId).sessionId))
  {
    FinishTurn(OpenTurn(st, message, sessionId, userId, freshId), message, s, choice)
  }

  /** A turn only creates and updates sessions, so it keeps every record under the key
      of its own id; the own-id requirement of the turn lemmas below therefore holds on
      every store the engine produces (`WellFormedOwnId`). */
  lemma TurnKeepsWellFormed(st: Store, message: string, sessionId: Option<string>, userId: Option<string>,
                            freshId: string, s: Searcher, choice: nat)
    requires WellFormed(st)
    ensures WellFormed(ProcessMessage(st, message, sessionId, userId, freshId, s, choice).1)
  {
    var o := OpenTurn(st, message, sessionId, userId, freshId);
    OpenKeepsWellFormed(st, message, sessionId, userId, freshId);
    FinishKeepsWellFormed(o, message, s, choice);
  }

  lemma OpenKeepsWellFormed(st: Store, message: string, sessionId: Option<string>, userId: Option<string>, freshId: string)
    requires WellFormed(st)
    ensures WellFormed(OpenTurn(st, message, sessionId, userId, freshId).store)
  {
    var (session, st1) := GetOrCreateSession(st, sessionId, userId, freshId);
    if !(sessionId.Some? && sessionId.value != [] && GetSession(st, sessionId.value).Some?) {
      CreateKeepsWellFormed(st, SessionCreate(userId, Some([("conversation_state", Greeting.AsValue())])), freshId);
    }
    UpdateKeepsWellFormed(st1, session.sessionId, SessionUpdate(Some(CreateUserMessage(message, None)), None, None));
  }

  lemma FinishKeepsWellFormed(o: Opening, message: string, s: Searcher, choice: nat)
    requires WellFormed(o.store)
    ensures WellFormed(FinishTurn(o, message, s, choice).1)
  {
    var data := TurnData(o, message, s, choice);
    if data.Ok? {
      DeliverKeepsWellFormed(o, data.value);
    }
  }

  lemma DeliverKeepsWellFormed(o: Opening, data: ResponseData)
    requires WellFormed(o.store)
    ensures WellFormed(Deliver(o, data).1)
  {
    var st3 := UpdateConversationState(o.store, o.sessionId, data);
    UpdateKeepsWellFormed(o.store, o.sessionId, SessionUpdate(None, Some(StateUpdate(data)), None));
    var reply := GenerateResponseText(data, o.context);
    if reply.Ok? && reply.value.Text? {
      UpdateKeepsWellFormed(st3, o.sessionId,
        SessionUpdate(Some(CreateBotMessage(reply.value.text, Some(BotMetadata(data)))), None, None));
    }
  }

  /** Whether a response answers the turn rather than reporting a failure: only a
      successful turn's metadata names the session. */
  predicate Succeeded(r: ChatResponse) {
    "session_id" in Keys(r.metadata)
  }

  /** The state a turn starts from: the continued session's stored state, or "greeting"
      for a new session. */
  function PreTurnState(st: Store, sessionId: Option<string>): Value {
    if sessionId.Some? && sessionId.value != [] && GetSession(st, sessionId.value).Some? then
      GetOr(GetSession(st, sessionId.value).value.contextVariables, "conversation_state", Greeting.AsValue())
    else Greeting.AsValue()
  }

  /** Adding a message leaves a session's context variables alone. */
  lemma AddMessageKeepsContext(st: Store, sessionId: string, msg: ConversationMessage)
    requires GetSession(st, sessionId).Some?
    ensures var st' := AddMessage(st, sessionId, msg).1;
      && GetSession(st', sessionId).Some?
      && GetSession(st', sessionId).value.contextVariables == GetSession(st, sessionId).value.contextVariables
      && GetSession(st', sessionId).value.conversationHistory == AppendBounded(GetSession(st, sessionId).value.conversationHistory, msg, st.maxHistory)
      && st'.maxHistory == st.maxHistory
  {
    UpdateThenGet(st, sessionId, SessionUpdate(Some(msg), None, None), sessionId + "'");
  }

  /** The session a turn continues or creates is stored under the id the turn uses. */
  lemma OpenedSessionStored(st: Store, message: string, sessionId: Option<string>, userId: Option<string>, freshId: string)
    requires sessionId.Some? && sessionId.value != [] && GetSession(st, sessionId.value).Some? ==>
      GetSession(st, sessionId.value).value.sessionId == sessionId.value
    ensures var o := OpenTurn(st, message, sessionId, userId, freshId);
      && GetSession(o.store, o.sessionId).Some?
      && o.context.Some?
      && o.context.value.conversationState == PreTurnState(st, sessionId)
  {
    var (session, st1) := GetOrCreateSession(st, sessionId, userId, freshId);
    if !(sessionId.Some? && sessionId.value != [] && GetSession(st, sessionId.value).Some?) {
      CreateThenGet(st, SessionCreate(userId, Some([("conversation_state", Greeting.AsValue())])), freshId);
      assert GetOr(session.contextVariables, "conversation_state", Greeting.AsValue()) == Greeting.AsValue() by {
        GetFirst(session.contextVariables, 0, "conversation_state");
      }
    }
    AddMessageKeepsContext(st1, session.sessionId, CreateUserMessage(message, None));
  }

  /** The state a successful response reports is the one the turn started from, not the
      one the reply moves to. */
  lemma PreTurnStateReported(st: Store, message: string, sessionId: Option<string>, userId: Option<string>,
                             freshId: string, s: Searcher, choice: nat)
    requires sessionId.Some? && sessionId.value != [] && GetSession(st, sessionId.value).Some? ==>
      GetSession(st, sessionId.value).value.sessionId == sessionId.value
    requires Succeeded(ProcessMessage(st, message, sessionId, userId, freshId, s, choice).0)
    ensures Get(ProcessMessage(st, message, sessionId, userId, freshId, s, choice).0.metadata, "conversation_state") == Some(PreTurnState(st, sessionId))
  {
    OpenedSessionStored(st, message, sessionId, userId, freshId);
  }

  /** A successful greeting reply moves the session to "ongoing" and a goodbye reply to
      "closing". */
  lemma TurnAdvancesState(st: Store, message: string, sessionId: Option<string>, userId: Option<string>,
                          freshId: string, s: Searcher, choice: nat)
    requires sessionId.Some? && sessionId.value != [] && GetSession(st, sessionId.value).Some? ==>
      GetSession(st, sessionId.value).value.sessionId == sessionId.value
    requires Succeeded(ProcessMessage(st, message, sessionId, userId, freshId, s, choice).0)
    ensures var (r, st') := ProcessMessage(st, message, sessionId, userId, freshId, s, choice);
      var id := OpenTurn(st, message, sessionId, userId, freshId).sessionId;
      && (r.intentId == Some("greeting") ==> GetConversationState(st', id) == Some(Ongoing.AsValue()))
      && (r.intentId == Some("goodbye") ==> GetConversationState(st', id) == Some(Closing.AsValue()))
  {
    var o := OpenTurn(st, message, sessionId, userId, freshId);
    OpenedSessionStored(st, message, sessionId, userId, freshId);
    var r := FinishTurn(o, message, s, choice);
    var data := TurnData(o, message, s, choice).value;
    StateTransition(o.store, o.sessionId, data);
    var st3 := UpdateConversationState(o.store, o.sessionId, data);
    AddMessageKeepsContext(st3, o.sessionId, CreateBotMessage(r.0.response, Some(BotMetadata(data))));
  }

  /** A successful turn leaves the user's message and then the bot's reply at the end of
      the session history, when the history keeps at least two entries. */
  lemma TurnRecordsBothMessages(st: Store, message: string, sessionId: Option<string>, userId: Option<string>,
                                freshId: string, s: Searcher, choice: nat)
    requires sessionId.Some? && sessionId.value != [] && GetSession(st, sessionId.value).Some? ==>
      GetSession(st, sessionId.value).value.sessionId == sessionId.value
    requires st.maxHistory >= 2
    requires Succeeded(ProcessMessage(st, message, sessionId, userId, freshId, s, choice).0)
    ensures var r := ProcessMessage(st, message, sessionId, userId, freshId, s, choice);
      EndsWithExchange(r.1, OpenTurn(st, message, sessionId, userId, freshId).sessionId, CreateUserMessage(message, None), r.0.response)
  {
    OpeningEndsWithUser(st, message, sessionId, userId, freshId);
    FinishRecordsReply(OpenTurn(st, message, sessionId, userId, freshId), message, s, choice);
  }

  /** After the opening, the session's newest entry is the user's message. */
  lemma OpeningEndsWithUser(st: Store, message: string, sessionId: Option<string>, userId: Option<string>, freshId: string)
    requires sessionId.Some? && sessionId.value != [] && GetSession(st, sessionId.value).Some? ==>
      GetSession(st, sessionId.value).value.sessionId == sessionId.value
    requires st.maxHistory >= 1
    ensures var o := OpenTurn(st, message, sessionId, userId, freshId);
      && o.store.maxHistory == st.maxHistory
      && GetSession(o.store, o.sessionId).Some?
      && GetSession(o.store, o.sessionId).value.conversationHistory != []
      && Last(GetSession(o.store, o.sessionId).value.conversationHistory) == CreateUserMessage(message, None)
  {
    var started := GetOrCreateSession(st, sessionId, userId, freshId);
    if !(sessionId.Some? && sessionId.value != [] && GetSession(st, sessionId.value).Some?) {
      CreateThenGet(st, SessionCreate(userId, Some([("conversation_state", Greeting.AsValue())])), freshId);
    }
    AddMessageKeepsContext(started.1, started.0.sessionId, CreateUserMessage(message, None));
  }

  function Last<T>(s: seq<T>): T
    requires s != []
  {
    s[|s| - 1]
  }

  /** Whether a session's history ends with `user` followed by a bot message saying `reply`. */
  predicate EndsWithExchange(st: Store, sessionId: string, user: ConversationMessage, reply: string) {
    GetSession(st, sessionId).Some? && HistoryEndsWith(GetSession(st, sessionId).value.conversationHistory, user, reply)
  }

  predicate HistoryEndsWith(h: seq<ConversationMessage>, user: ConversationMessage, reply: string) {
    |h| >= 2 && h[|h| - 2] == user && h[|h| - 1].role == Bot && h[|h| - 1].message == reply
  }

  /** The second half of a successful turn appends the bot's reply right after the last
      entry the opening left. */
  lemma FinishRecordsReply(o: Opening, message: string, s: Searcher, choice: nat)
    requires GetSession(o.store, o.sessionId).Some? && GetSession(o.store, o.sessionId).value.conversationHistory != []
    requires o.store.maxHistory >= 2
    requires Succeeded(FinishTurn(o, message, s, choice).0)
    ensures EndsWithExchange(FinishTurn(o, message, s, choice).1, o.sessionId,
      Last(GetSession(o.store, o.sessionId).value.conversationHistory), FinishTurn(o, message, s, choice).0.response)
  {
    var r := FinishTurn(o, message, s, choice);
    var data := TurnData(o, message, s, choice).value;
    ReplyAfterStateUpdate(o.store, o.sessionId, data, CreateBotMessage(r.0.response, Some(BotMetadata(data))));
  }

  /** Updating the state and then adding the bot's message leaves the previous last
      entry just before that message. */
  lemma ReplyAfterStateUpdate(st: Store, sessionId: string, data: ResponseData, bot: ConversationMessage)
    requires GetSession(st, sessionId).Some? && GetSession(st, sessionId).value.conversationHistory != []
    requires st.maxHistory >= 2 && bot.role == Bot
    ensures EndsWithExchange(AddMessage(UpdateConversationState(st, sessionId, data), sessionId, bot).1, sessionId,
      Last(GetSession(st, sessionId).value.conversationHistory), bot.message)
  {
    StateUpdateKeepsHistory(st, sessionId, data);
    BotMessageFollows(UpdateConversationState(st, sessionId, data), sessionId, bot);
  }

  /** Adding the bot's message, with room for two entries, leaves the previous last
      entry just before it. */
  lemma BotMessageFollows(st: Store, sessionId: string, bot: ConversationMessage)
    requires GetSession(st, sessionId).Some? && GetSession(st, sessionId).value.conversationHistory != []
    requires st.maxHistory >= 2 && bot.role == Bot
    ensures EndsWithExchange(AddMessage(st, sessionId, bot).1, sessionId,
      Last(GetSession(st, sessionId).value.conversationHistory), bot.message)
  {
    var h1 := GetSession(st, sessionId).value.conversationHistory;
    AddMessageKeepsContext(st, sessionId, bot);
    AppendKeepsPrevious(h1, bot, st.maxHistory);
  }

  /** The state update touches neither the history nor the history bound. */
  lemma StateUpdateKeepsHistory(st: Store, sessionId: string, data: ResponseData)
    requires GetSession(st, sessionId).Some?
    ensures var st3 := UpdateConversationState(st, sessionId, data);
      && st3.maxHistory == st.maxHistory
      && GetSession(st3, sessionId).Some?
      && GetSession(st3, sessionId).value.conversationHistory == GetSession(st, sessionId).value.conversationHistory
  {
    var update := SessionUpdate(None, Some(StateUpdate(data)), None);
    UpdateSessionEffect(st, sessionId, update, "");
    UpdateThenGet(st, sessionId, update, sessionId + "'");
  }

  /** With room for two entries, appending keeps the previous last entry just before the
      new one. */
  lemma AppendKeepsPrevious(h: seq<ConversationMessage>, msg: ConversationMessage, maxHistory: int)
    requires h != [] && maxHistory >= 2 && msg.role == Bot
    ensures HistoryEndsWith(AppendBounded(h, msg, maxHistory), Last(h), msg.message)
  {
    AppendKeepsLast(h, msg, maxHistory);
  }


  /** A new session whose first message finds nothing in the store is welcomed: the reply
      is one of the greeting fallbacks, whatever the message says. */
  lemma FirstMessageWithoutMatchIsWelcomed(st: Store, message: string, userId: Option<string>,
                                           freshId: string, s: Searcher, choice: nat)
    requires st.maxHistory >= 1
    requires forall req :: s.backend(req).Err?
    ensures var r := ProcessMessage(st, message, None, userId, freshId, s, choice).0;
      Succeeded(r) && r.response in GreetingFallbacks && r.intentId == Some("fallback")
  {
    FreshOpening(st, message, userId, freshId);
    var o := OpenTurn(st, message, None, userId, freshId);
    FailingStoreFindsNothing(message, o.context, s);
    assert TurnData(o, message, s, choice) == Ok(GetFallbackResponse(message, o.context, choice));
    FallbackFinish(o, message, choice);
  }

  /** A store whose every query fails yields no matches. */
  lemma FailingStoreFindsNothing(message: string, context: Option<SessionContext>, s: Searcher)
    requires forall req :: s.backend(req).Err?
    ensures ClassifyIntent(message, context, s) == []
  {
    var v := SearchService.QueryVector(message, context, s.model);
    assert ChromaStore.Search(v, SearchTopK, SearchService.BuildContextFilters(context), s.backend).Err?;
  }

  /** The opening of a new session's first turn: a snapshot in the "greeting" state with
      one message and no user name. */
  lemma FreshOpening(st: Store, message: string, userId: Option<string>, freshId: string)
    requires st.maxHistory >= 1
    ensures var o := OpenTurn(st, message, None, userId, freshId);
      && o.context.Some? && OpeningExchange(o.context)
      && "user_name" !in Keys(o.context.value.contextVariables)
  {
    var st2 := FreshSessionStored(st, message, userId, freshId);
    var vars := [("conversation_state", Greeting.AsValue())];
    var ctx := BuildSessionContext(st2, freshId);
    assert ctx.value.contextVariables == vars;
    assert ctx.value.messageCount == 1;
    GetFirst(vars, 0, "conversation_state");
    assert ctx.value.conversationState == Greeting.AsValue();
  }

  /** The store after a new session's first message: the session holds that message and
      the "greeting" state. */
  lemma FreshSessionStored(st: Store, message: string, userId: Option<string>, freshId: string) returns (st2: Store)
    requires st.maxHistory >= 1
    ensures st2 == OpenTurn(st, message, None, userId, freshId).store
    ensures freshId == OpenTurn(st, message, None, userId, freshId).sessionId
    ensures GetSession(st2, freshId).Some?
    ensures GetSession(st2, freshId).value.contextVariables == [("conversation_state", Greeting.AsValue())]
    ensures GetSession(st2, freshId).value.conversationHistory == [CreateUserMessage(message, None)]
  {
    var req := SessionCreate(userId, Some([("conversation_state", Greeting.AsValue())]));
    var created := CreateSession(st, req, freshId);
    assert GetOrCreateSession(st, None, userId, freshId) == created;
    CreateThenGet(st, req, freshId);
    var msg := CreateUserMessage(message, None);
    AddMessageKeepsContext(created.1, freshId, msg);
    st2 := AddMessage(created.1, freshId, msg).1;
    assert GetSession(st2, freshId).value.conversationHistory == AppendBounded([], msg, st.maxHistory);
  }

  /** A new session's first turn searches for the message twice, followed by the
      "greeting" state: the snapshot holds only that message and the state variable. */
  lemma FreshTurnQuery(st: Store, message: string, userId: Option<string>, freshId: string)
    requires st.maxHistory >= 1
    ensures SearchService.EnhanceQuery(message, OpenTurn(st, message, None, userId, freshId).context)
         == message + " " + message + " greeting"
  {
    var st2 := FreshSessionStored(st, message, userId, freshId);
    var o := OpenTurn(st, message, None, userId, freshId);
    assert o.context == BuildSessionContext(st2, freshId);
    var m := CreateUserMessage(message, None);
    var session := GetSession(st2, freshId).value;
    assert session.conversationHistory == [m];
    var ctx := o.context.value;
    assert ctx.history == LastN([m], SnapshotHistory as int) == [m];
    assert ctx.contextVariables == [("conversation_state", VStr("greeting"))];
    assert m.role == User && m.message == message;
    var x := message + " " + message;
    calc {
      SearchService.EnhanceQuery(message, o.context);
      { SearchService.FirstTurnQuery(message, ctx, m, "conversation_state", "greeting"); }
      x + " " + "greeting";
      { assert " " + "greeting" == " greeting"; }
      x + " greeting";
    }
  }

  /** In an opening exchange with no user name, the fallback reply is delivered as one
      of the greeting fallbacks. */
  lemma FallbackFinish(o: Opening, message: string, choice: nat)
    requires o.context.Some? && OpeningExchange(o.context)
    requires "user_name" !in Keys(o.context.value.contextVariables)
    ensures var r := Deliver(o, GetFallbackResponse(message, o.context, choice)).0;
      Succeeded(r) && r.response in GreetingFallbacks && r.intentId == Some("fallback")
  {
    var fb := GetFallbackResponse(message, o.context, choice);
    assert GenerateResponseText(fb, o.context) == Ok(fb.response);
    DeliverSucceeds(o, fb);
    assert fb.response.text in GreetingFallbacks;
  }

  /** A reply with a valid confidence and plain text that needs no templating is
      delivered as it is. */
  lemma DeliverSucceeds(o: Opening, data: ResponseData)
    requires 0.0 <= data.confidence <= 1.0 && data.response.Text?
    requires GenerateResponseText(data, o.context) == Ok(data.response)
    ensures Succeeded(Deliver(o, data).0)
    ensures Deliver(o, data).0.response == data.response.text
  {
    var st4 := AddMessage(UpdateConversationState(o.store, o.sessionId, data), o.sessionId,
      CreateBotMessage(data.response.text, Some(BotMetadata(data)))).1;
    var md := ResponseMetadata(o.sessionId, o.context, data);
    GetFirst(md, 0, "session_id");
    GetFirst(md, 1, "conversation_state");
    assert Deliver(o, data) == Validated(data.response.text, data, md, st4);
  }
}

=== FILE: chroma_store.dfy ===
/** The Chroma adapter (`ChromaVectorStore` in
    `src/services/vector_store/chroma_store.py`): the `where` clause built from
    equality filters, the formatting of query results with similarity `1 - distance`,
    and the wrapping of backend failures in `ConfigurationError`. The Chroma
    collection is an external backend whose answers are parameters. */
module ChromaStore {
  import opened Common
  import opened Dicts
  import opened Retrieval

  /** A `where` clause: each key maps to the operator dictionary `{"$eq": value}`. */
  type Where = Dict<Dict<Value>>

  /** What the adapter asks the collection for. */
  datatype Request = Request(queryVector: seq<real>, nResults: int, where: Option<Where>)

  /** The similarity this adapter reports: `1 - distance`, not clamped. */
  function Score(distance: real): real {
    1.0 - distance
  }

  /** A distance above 1 gives a negative score. */
  lemma ScoreUnclamped(distance: real)
    ensures Score(distance) < 0.0 <==> distance > 1.0
    ensures 0.0 <= distance <= 1.0 ==> 0.0 <= Score(distance) <= 1.0
  {
  }

  function EqualTo(v: Value): Dict<Value> {
    [("$eq", v)]
  }

  /** The loop over `filters.items()`. */
  function EqualityClauses(filters: Dict<Value>): (w: Where)
    ensures Keys(w) == Keys(filters)
    ensures forall k :: Get(w, k) == (if Get(filters, k).Some? then Some(EqualTo(Get(filters, k).value)) else None)
  {
    if filters == [] then []
    else
      var rest := EqualityClauses(filters[1..]);
      [(filters[0].0, EqualTo(filters[0].1))] + rest
  }

  /** The `where` clause of `search`: `None` for absent or empty filters. */
  function BuildWhere(filters: Option<Dict<Value>>): (w: Option<Where>)
    ensures w.None? <==> filters.None? || filters.value == []
    ensures w.Some? ==> Keys(w.value) == Keys(filters.value)
    ensures w.Some? ==> forall k :: k in Keys(filters.value) ==> Get(w.value, k) == Some(EqualTo(Get(filters.value, k).value))
  {
    if filters.None? || filters.value == [] then None else Some(EqualityClauses(filters.value))
  }

  /** `search`: the collection is queried once; its rows come back as hits in the order
      returned, with score `1 - distance`. Any failure is a `ConfigurationError`. */
  function Search(queryVector: seq<real>, topK: int, filters: Option<Dict<Value>>, backend: Request -> Result<QueryColumns>): (r: Result<seq<Hit>>)
    ensures r.Err? ==> r.error == ConfigurationError("Failed to search Chroma")
    ensures var answer := backend(Request(queryVector, topK, BuildWhere(filters)));
      && (r.Ok? <==> answer.Ok? && (|answer.value.ids| == 0 || Aligned(answer.value)))
      && (r.Ok? ==> |r.value| == |answer.value.ids|)
      && (r.Ok? ==> forall i :: 0 <= i < |r.value| ==>
            && r.value[i].id == answer.value.ids[i]
            && r.value[i].text == answer.value.documents[i]
            && r.value[i].metadata == answer.value.metadatas[i]
            && r.value[i].distance == answer.value.distances[i]
            && r.value[i].score == 1.0 - answer.value.distances[i])
  {
    var answer := backend(Request(queryVector, topK, BuildWhere(filters)));
    if answer.Err? then Err(ConfigurationError("Failed to search Chroma"))
    else
      match FormatHits(answer.value, Score)
      case None => Err(ConfigurationError("Failed to search Chroma"))
      case Some(hits) => Ok(hits)
  }

  /** The `except` blocks of `add_vectors` and `delete_vectors`: the backend's failure
      resurfaces as a `ConfigurationError` carrying the operation's message. */
  function Surface(answer: Result<()>, message: string): (r: Result<()>)
    ensures r.Ok? <==> answer.Ok?
    ensures r.Err? ==> r.error == ConfigurationError(message)
  {
    if answer.Err? then Err(ConfigurationError(message)) else Ok(())
  }

  /** `add_vectors`: the collection receives the records' ids, vectors, metadata and
      texts, index-aligned. */
  function AddVectors(records: seq<Record>, backend: (seq<string>, seq<seq<real>>, seq<HitMetadata>, seq<string>) -> Result<()>): (r: Result<()>)
    ensures r.Err? ==> r.error == ConfigurationError("Failed to add vectors to Chroma")
    ensures r.Ok? <==> backend(
      seq(|records|, i requires 0 <= i < |records| => records[i].id),
      seq(|records|, i requires 0 <= i < |records| => records[i].vector),
      seq(|records|, i requires 0 <= i < |records| => records[i].metadata),
      seq(|records|, i requires 0 <= i < |records| => records[i].text)).Ok?
  {
    var ids := seq(|records|, i requires 0 <= i < |records| => records[i].id);
    var vectors := seq(|records|, i requires 0 <= i < |records| => records[i].vector);
    var metadatas := seq(|records|, i requires 0 <= i < |records| => records[i].metadata);
    var documents := seq(|records|, i requires 0 <= i < |records| => records[i].text);
    Surface(backend(ids, vectors, metadatas, documents), "Failed to add vectors to Chroma")
  }

  /** `delete_vectors`. */
  function DeleteVectors(ids: seq<string>, backend: seq<string> -> Result<()>): (r: Result<()>)
    ensures r.Ok? <==> backend(ids).Ok?
    ensures r.Err? ==> r.error == ConfigurationError("Failed to delete vectors from Chroma")
  {
    Surface(backend(ids), "Failed to delete vectors from Chroma")
  }
}

=== FILE: common.dfy ===
/** Shared wrapper types: optional values, results carrying the system's error
    classes, and the scalar values stored in context-variable dictionaries. */
module Common {

  datatype Option<+T> = None | Some(value: T) {
    function GetOr(default: T): T {
      match this
      case Some(v) => v
      case None => default
    }
  }

  /** The exception classes the system raises, by the name it gives them. */
  datatype Error =
    | ConfigurationError(message: string)
    | TextProcessingError(message: string)
    | ValueError(message: string)
    | ValidationError(message: string)
    | TypeError(message: string)

  datatype Result<+T> = Ok(value: T) | Err(error: Error)

  /** A scalar held in a context-variable or metadata dictionary (JSON-compatible). */
  datatype Value = VStr(s: string) | VNum(r: real) | VBool(b: bool) | VNone

  /** A decoded JSON document; object members keep their order. */
  datatype Json =
    | JNull
    | JBool(b: bool)
    | JNum(n: real)
    | JStr(s: string)
    | JArr(items: seq<Json>)
    | JObj(members: seq<(string, Json)>)

  /** Python truthiness of a stored value. */
  predicate Truthy(v: Value) {
    match v
    case VStr(s) => s != []
    case VNum(r) => r != 0.0
    case VBool(b) => b
    case VNone => false
  }

  /** `random.choice`: the nondeterministic pick is the parameter `choice`. */
  function Pick<T>(options: seq<T>, choice: nat): (r: T)
    requires |options| > 0
    ensures r in options
  {
    options[choice % |options|]
  }

  /** Applies a fallible conversion to every item and stops at the first failure. */
  function MapResult<A, B>(items: seq<A>, f: A -> Result<B>): (r: Result<seq<B>>)
    ensures r.Ok? <==> forall k :: 0 <= k < |items| ==> f(items[k]).Ok?
    ensures r.Ok? ==> |r.value| == |items| && forall k :: 0 <= k < |items| ==> Ok(r.value[k]) == f(items[k])
    ensures r.Err? ==> exists k :: 0 <= k < |items| && f(items[k]) == Err(r.error)
  {
    if items == [] then Ok([])
    else
      var first := f(items[0]);
      var rest := MapResult(items[1..], f);
      assert forall k :: 1 <= k < |items| ==> items[k] == items[1..][k - 1];
      if first.Err? then Err(first.error)
      else if rest.Err? then
        var k :| 0 <= k < |items[1..]| && f(items[1..][k]) == Err(rest.error);
        assert f(items[k + 1]) == Err(rest.error);
        Err(rest.error)
      else Ok([first.value] + rest.value)
  }

  /** When every item converts, the converted items come out in order. */
  lemma {:induction false} MapResultAllOk<A, B>(items: seq<A>, f: A -> Result<B>, outs: seq<B>)
    requires |outs| == |items| && forall k :: 0 <= k < |items| ==> f(items[k]) == Ok(outs[k])
    ensures MapResult(items, f) == Ok(outs)
  {
    if items != [] {
      assert forall k :: 0 <= k < |items[1..]| ==> items[1..][k] == items[k + 1] && outs[1..][k] == outs[k + 1];
      MapResultAllOk(items[1..], f, outs[1..]);
      assert outs == [outs[0]] + outs[1..];
    }
  }

  /** Every option can be picked by some choice, so `Pick` loses none of `random.choice`'s outcomes. */
  lemma PickReachesEvery<T>(options: seq<T>, i: nat)
    requires i < |options|
    ensures Pick(options, i) == options[i]
  {
  }
}

=== FILE: context_scoring.dfy ===
/** The per-turn session snapshot the chatbot engine builds (`_build_session_context`)
    and the additive context-score rule both search services apply to a retrieved
    pattern (`_calculate_context_score`, written out identically in
    `src/services/vector_store/search_service.py` and `src/services/vector_search.py`). */
module ContextScoring {
  import opened Common
  import opened Strings
  import opened Dicts
  import opened SessionModel
  import opened SessionManager

  /** How many history entries the snapshot keeps. */
  const SnapshotHistory: nat := 5

  /** The snapshot. A missing session gives Python's `{}`, modelled as `None`; a
      snapshot that exists is a non-empty dictionary and therefore truthy. */
  datatype SessionContext = SessionContext(
    sessionId: string,
    userId: Option<string>,
    history: seq<ConversationMessage>,
    contextVariables: Dict<Value>,
    conversationState: Value,
    lastIntent: Value,
    lastCategory: Value,
    messageCount: nat)

  /** `_build_session_context`: the last five history entries, a copy of the context
      variables, the conversation state defaulting to "greeting", and the length of the
      full history. */
  function BuildSessionContext(st: Store, sessionId: string): (r: Option<SessionContext>)
    ensures r.None? <==> GetSession(st, sessionId).None?
    ensures r.Some? ==>
      var s := GetSession(st, sessionId).value;
      && r.value.sessionId == sessionId && r.value.userId == s.userId
      && |r.value.history| == (if |s.conversationHistory| < SnapshotHistory then |s.conversationHistory| else SnapshotHistory)
      && IsSuffixOf(r.value.history, s.conversationHistory)
      && r.value.messageCount == |s.conversationHistory|
      && r.value.contextVariables == s.contextVariables
      && r.value.conversationState == GetOr(s.contextVariables, "conversation_state", ConversationState.Greeting.AsValue())
  {
    match GetSession(st, sessionId)
    case None => None
    case Some(s) =>
      var vars := s.contextVariables;
      Some(SessionContext(
        sessionId, s.userId, LastN(s.conversationHistory, SnapshotHistory as int), vars,
        GetOr(vars, "conversation_state", ConversationState.Greeting.AsValue()),
        GetOr(vars, "last_intent", VNone), GetOr(vars, "last_category", VNone),
        |s.conversationHistory|))
  }

  /** The newest history entry is always in the snapshot. */
  lemma SnapshotEndsWithNewest(st: Store, sessionId: string)
    requires GetSession(st, sessionId).Some? && GetSession(st, sessionId).value.conversationHistory != []
    ensures var h := GetSession(st, sessionId).value.conversationHistory;
      var snap := BuildSessionContext(st, sessionId).value.history;
      snap != [] && snap[|snap| - 1] == h[|h| - 1]
  {
    var h := GetSession(st, sessionId).value.conversationHistory;
    var snap := BuildSessionContext(st, sessionId).value.history;
    assert h[|h| - |snap|..] == snap;
    assert snap[|snap| - 1] == h[|h| - |snap|..][|snap| - 1];
  }

  // ---------------------------------------------------------------------------
  // The context score
  // ---------------------------------------------------------------------------

  function Min(a: real, b: real): real {
    if a <= b then a else b
  }

  /** The intents expected to follow `last_intent`. */
  function ExpectedNext(lastIntent: Value): seq<string> {
    if lastIntent == VStr("greeting") then ["help", "thanks"]
    else if lastIntent == VStr("help") then ["thanks", "goodbye"]
    else if lastIntent == VStr("thanks") then ["goodbye", "help"]
    else []
  }

  /** 0.2 for the same category as the last reply, else 0.1 when a greeting or a farewell
      is followed by help or thanks; nothing unless both categories are truthy. */
  function CategoryBoost(lastCategory: Value, category: Option<string>): (b: real)
    ensures b == 0.0 || b == 0.1 || b == 0.2
    ensures b == 0.2 <==> category.Some? && category.value != [] && lastCategory == VStr(category.value)
    ensures b == 0.1 <==> category.Some? && category.value in ["help", "thanks"] && lastCategory in [VStr("greeting"), VStr("farewell")]
  {
    if Truthy(lastCategory) && category.Some? && category.value != [] then
      if lastCategory == VStr(category.value) then 0.2
      else if lastCategory in [VStr("greeting"), VStr("farewell")] && category.value in ["help", "thanks"] then 0.1
      else 0.0
    else 0.0
  }

  /** 0.15 when the retrieved intent is expected to follow the last one. */
  function FlowBoost(lastIntent: Value, intentId: Option<string>): (b: real)
    ensures b == 0.0 || b == 0.15
    ensures b == 0.15 <==> intentId.Some? && intentId.value in ExpectedNext(lastIntent)
  {
    if Truthy(lastIntent) && intentId.Some? && intentId.value != [] then
      if intentId.value in ExpectedNext(lastIntent) then 0.15 else 0.0
    else 0.0
  }

  /** `_calculate_context_score` for a pattern of the given category and intent id,
      capped at 1.0. */
  function ContextScore(category: Option<string>, intentId: Option<string>, context: Option<SessionContext>): (s: real)
    ensures 0.0 <= s <= 0.35
    ensures context.None? ==> s == 0.0
  {
    if context.None? then 0.0
    else
      var vars := context.value.contextVariables;
      var raw := CategoryBoost(GetOr(vars, "last_category", VNone), category)
        + FlowBoost(GetOr(vars, "last_intent", VNone), intentId);
      Min(raw, 1.0)
  }

  /** The cap at 1.0 never binds: the score is exactly the sum of the two boosts. */
  lemma CapNeverBinds(category: Option<string>, intentId: Option<string>, context: SessionContext)
    ensures ContextScore(category, intentId, Some(context)) ==
      CategoryBoost(GetOr(context.contextVariables, "last_category", VNone), category)
        + FlowBoost(GetOr(context.contextVariables, "last_intent", VNone), intentId)
  {
  }

  /** The maximum 0.35 is reached exactly when the category repeats and the intent is
      an expected successor. */
  lemma MaximumScore(category: Option<string>, intentId: Option<string>, context: Option<SessionContext>)
    ensures ContextScore(category, intentId, context) == 0.35 <==>
      && context.Some?
      && category.Some? && category.value != []
      && GetOr(context.value.contextVariables, "last_category", VNone) == VStr(category.value)
      && intentId.Some? && intentId.value in ExpectedNext(GetOr(context.value.contextVariables, "last_intent", VNone))
  {
  }

  /** Without a last intent or last category in the session nothing is added. */
  lemma FreshSessionScoresZero(category: Option<string>, intentId: Option<string>, context: SessionContext)
    requires "last_intent" !in Keys(context.contextVariables) && "last_category" !in Keys(context.contextVariables)
    ensures ContextScore(category, intentId, Some(context)) == 0.0
  {
  }
}

=== FILE: data_utils.dfy ===
/** The structural check of a knowledge-base document (`validate_knowledge_base_structure`
    in `src/utils/data_utils.py`): a list of human-readable issues, empty when the
    document has the shape the loader expects. */
module DataUtils {
  import opened Common
  import opened Strings
  import opened Dicts
  import opened IntentModel
  import opened IntentDecoding
  import Sorting

  const RequiredFields: seq<string> := ["id", "patterns", "responses", "metadata"]

  /** Values Python's `in` accepts as its right operand here. Any other value makes the
      check raise `TypeError`. */
  predicate Iterable(j: Json) {
    j.JObj? || j.JArr? || j.JStr?
  }

  /** Python's `key in j`: key membership for an object, element membership for a list,
      substring for a string. */
  predicate In(j: Json, key: string)
    requires Iterable(j)
  {
    match j
    case JObj(members) => key in Keys(members)
    case JArr(items) => JStr(key) in items
    case JStr(s) => Contains(s, key)
  }

  /** `isinstance(v, list) and v`. */
  predicate NonEmptyList(j: Json) {
    j.JArr? && |j.items| > 0
  }

  function Prefix(i: nat): string {
    "Intent " + NatToString(i) + ": "
  }

  /** The issue reported for a required field the intent lacks. */
  function MissingIssue(prefix: string, field: string): string {
    prefix + "Missing required field '" + field + "'"
  }

  /** Whether `field not in intent` holds (for an intent `in` can search). */
  function MissingFrom(intent: Json): string -> bool {
    field => Iterable(intent) && !In(intent, field)
  }

  /** The issues for the required fields the intent lacks. */
  function MissingFieldIssues(prefix: string, intent: Json, fields: seq<string>): (r: seq<string>)
    requires Iterable(intent)
    ensures r == [] <==> forall k :: 0 <= k < |fields| ==> In(intent, fields[k])
    ensures forall k :: 0 <= k < |r| ==> IsPrefix(prefix, r[k])
  {
    if fields == [] then []
    else
      var rest := MissingFieldIssues(prefix, intent, fields[1..]);
      assert forall k :: 1 <= k < |fields| ==> fields[k] == fields[1..][k - 1];
      if In(intent, fields[0]) then rest
      else
        var issue := MissingIssue(prefix, fields[0]);
        assert IsPrefix(prefix, issue) by { PrefixOfConcat(prefix, "Missing required field '" + fields[0] + "'"); }
        [issue] + rest
  }

  /** The issue for each of the given field names, in order. */
  function IssuesFor(prefix: string, names: seq<string>): (r: seq<string>)
    ensures |r| == |names|
    ensures forall k :: 0 <= k < |r| ==> r[k] == MissingIssue(prefix, names[k])
  {
    if names == [] then [] else [MissingIssue(prefix, names[0])] + IssuesFor(prefix, names[1..])
  }

  /** Exactly one issue per missing field, naming that field, in the order the fields
      are listed. */
  lemma {:induction false} MissingFieldIssuesListed(prefix: string, intent: Json, fields: seq<string>)
    requires Iterable(intent)
    ensures MissingFieldIssues(prefix, intent, fields) == IssuesFor(prefix, Sorting.Filter(fields, MissingFrom(intent)))
    ensures |MissingFieldIssues(prefix, intent, fields)| == |Sorting.Filter(fields, MissingFrom(intent))|
    ensures forall k :: 0 <= k < |MissingFieldIssues(prefix, intent, fields)| ==>
      MissingFieldIssues(prefix, intent, fields)[k] == MissingIssue(prefix, Sorting.Filter(fields, MissingFrom(intent))[k])
  {
    if fields != [] {
      calc {
        MissingFieldIssues(prefix, intent, fields);
        (if In(intent, fields[0]) then [] else [MissingIssue(prefix, fields[0])]) + MissingFieldIssues(prefix, intent, fields[1..]);
        { MissingFieldIssuesListed(prefix, intent, fields[1..]); }
        (if In(intent, fields[0]) then [] else [MissingIssue(prefix, fields[0])]) + IssuesFor(prefix, Sorting.Filter(fields[1..], MissingFrom(intent)));
        IssuesFor(prefix, (if In(intent, fields[0]) then [] else [fields[0]]) + Sorting.Filter(fields[1..], MissingFrom(intent)));
        { assert Sorting.Filter(fields, MissingFrom(intent)) ==
            (if In(intent, fields[0]) then [] else [fields[0]]) + Sorting.Filter(fields[1..], MissingFrom(intent)); }
        IssuesFor(prefix, Sorting.Filter(fields, MissingFrom(intent)));
      }
    }
  }

  lemma PrefixOfConcat(p: string, s: string)
    ensures IsPrefix(p, p + s)
  {
    assert (p + s)[..|p|] == p;
  }

  /** The issue a present field adds when its value is wrong, `[]` when it is right;
      a field looked up in a list or a string raises `TypeError`. */
  function FieldIssue(intent: Json, key: string, ok: Json -> bool, issue: string): (r: Result<seq<string>>)
    requires Iterable(intent)
    ensures r.Err? <==> In(intent, key) && !intent.JObj?
    ensures r.Ok? && In(intent, key) ==> (r.value == [] <==> ok(Get(intent.members, key).value))
    ensures r.Ok? && !In(intent, key) ==> r.value == []
    ensures r.Ok? ==> r.value == [] || r.value == [issue]
  {
    if !In(intent, key) then Ok([])
    else if !intent.JObj? then Err(TypeError("string indices must be integers"))
    else if ok(Get(intent.members, key).value) then Ok([])
    else Ok([issue])
  }

  /** Whether `"category" in metadata` holds; `None` when the test itself raises. */
  function HasCategory(metadata: Json): Option<bool> {
    if Iterable(metadata) then Some(In(metadata, "category")) else None
  }

  /** The issues of the intent at position `i`, in the order they are appended:
      missing fields, then patterns, responses and the metadata category. */
  function IntentIssues(i: nat, intent: Json): (r: Result<seq<string>>)
    ensures r.Ok? ==> forall k :: 0 <= k < |r.value| ==> IsPrefix(Prefix(i), r.value[k])
    ensures r == Ok([]) <==> WellFormedIntent(intent)
    ensures !Iterable(intent) ==> r.Err?
  {
    if !Iterable(intent) then Err(TypeError("argument of type is not iterable"))
    else
      var prefix := Prefix(i);
      var missing := MissingFieldIssues(prefix, intent, RequiredFields);
      assert RequiredFields[0] == "id" && RequiredFields[1] == "patterns";
      assert RequiredFields[2] == "responses" && RequiredFields[3] == "metadata";
      var patterns := FieldIssue(intent, "patterns", NonEmptyList, prefix + "Patterns must be a non-empty list");
      var responses := FieldIssue(intent, "responses", NonEmptyList, prefix + "Responses must be a non-empty list");
      if patterns.Err? then Err(patterns.error)
      else if responses.Err? then Err(responses.error)
      else
        assert IsPrefix(prefix, prefix + "Patterns must be a non-empty list") by { PrefixOfConcat(prefix, "Patterns must be a non-empty list"); }
        assert IsPrefix(prefix, prefix + "Responses must be a non-empty list") by { PrefixOfConcat(prefix, "Responses must be a non-empty list"); }
        assert IsPrefix(prefix, prefix + "Missing category in metadata") by { PrefixOfConcat(prefix, "Missing category in metadata"); }
        if !In(intent, "metadata") then Ok(missing + patterns.value + responses.value)
        else if !intent.JObj? then Err(TypeError("string indices must be integers"))
        else
          match HasCategory(Get(intent.members, "metadata").value)
          case None => Err(TypeError("argument of type is not iterable"))
          case Some(has) =>
            Ok(missing + patterns.value + responses.value + (if has then [] else [prefix + "Missing category in metadata"]))
  }

  /** An independent description of an intent the check has nothing to say about. */
  predicate WellFormedIntent(intent: Json) {
    && intent.JObj?
    && "id" in Keys(intent.members) && "patterns" in Keys(intent.members)
    && "responses" in Keys(intent.members) && "metadata" in Keys(intent.members)
    && NonEmptyList(Get(intent.members, "patterns").value)
    && NonEmptyList(Get(intent.members, "responses").value)
    && HasCategory(Get(intent.members, "metadata").value) == Some(true)
  }

  /** The loop over `enumerate(data["intents"])`, numbering from `start`. */
  function IntentsIssues(items: seq<Json>, start: nat): (r: Result<seq<string>>)
    ensures r == Ok([]) <==> forall k :: 0 <= k < |items| ==> WellFormedIntent(items[k])
    ensures r.Ok? ==> forall k :: 0 <= k < |r.value| ==> IsPrefix("Intent ", r.value[k])
    decreases |items|
  {
    if items == [] then Ok([])
    else
      var first := IntentIssues(start, items[0]);
      if first.Err? then Err(first.error)
      else
        var rest := IntentsIssues(items[1..], start + 1);
        assert forall k :: 1 <= k < |items| ==> items[k] == items[1..][k - 1];
        IssuesNamed(start, first.value);
        if rest.Err? then Err(rest.error) else Ok(first.value + rest.value)
  }

  /** Every issue of intent `i` begins with "Intent ". */
  lemma IssuesNamed(i: nat, issues: seq<string>)
    requires forall k :: 0 <= k < |issues| ==> IsPrefix(Prefix(i), issues[k])
    ensures forall k :: 0 <= k < |issues| ==> IsPrefix("Intent ", issues[k])
  {
    forall k | 0 <= k < |issues| ensures IsPrefix("Intent ", issues[k]) {
      IntentPrefix(i);
      PrefixTransitive("Intent ", Prefix(i), issues[k]);
    }
  }

  lemma PrefixTransitive(p: string, q: string, s: string)
    requires IsPrefix(p, q) && IsPrefix(q, s)
    ensures IsPrefix(p, s)
  {
    assert s[..|p|] == q[..|p|];
  }

  lemma IntentPrefix(i: nat)
    ensures IsPrefix("Intent ", Prefix(i))
  {
    assert Prefix(i)[..7] == "Intent ";
  }

  /** `validate_knowledge_base_structure`: a missing `intents` key and a non-list
      `intents` are each reported alone; otherwise every intent's issues, in order.
      `Err` stands for the `TypeError` the check raises on an intent of the wrong kind. */
  function ValidateKnowledgeBaseStructure(data: Dict<Json>): (r: Result<seq<string>>)
    ensures "intents" !in Keys(data) ==> r == Ok(["Missing 'intents' key"])
    ensures Get(data, "intents").Some? && !Get(data, "intents").value.JArr? ==> r == Ok(["'intents' must be a list"])
    ensures r == Ok([]) <==> WellFormedDocument(data)
  {
    match Get(data, "intents")
    case None => Ok(["Missing 'intents' key"])
    case Some(intents) =>
      if !intents.JArr? then Ok(["'intents' must be a list"]) else IntentsIssues(intents.items, 0)
  }

  /** A document the check passes without remark. */
  predicate WellFormedDocument(data: Dict<Json>) {
    && Get(data, "intents").Some? && Get(data, "intents").value.JArr?
    && forall k :: 0 <= k < |Get(data, "intents").value.items| ==> WellFormedIntent(Get(data, "intents").value.items[k])
  }

  /** Every intent the model holds is written in a shape the check passes. */
  lemma EncodedIntentWellFormed(i: Intent)
    requires CanonicalIntent(i)
    ensures WellFormedIntent(EncodeIntent(i))
  {
    var j := EncodeIntent(i);
    IntentDecoding.EncodedIntentFields(i);
    CanonicalResponsesNonEmpty(i);
    EncodedMetadataHasCategory(i.metadata);
    WellFormedFromFields(j, EncodeStrings(i.patterns), EncodeResponses(i.responses), EncodeMetadata(i.metadata));
  }

  lemma EncodedMetadataHasCategory(m: IntentMetadata)
    ensures HasCategory(EncodeMetadata(m)) == Some(true)
  {
    GetFirst(EncodeMetadata(m).members, 0, "category");
  }

  /** An object whose fields pass one by one passes as a whole. */
  lemma WellFormedFromFields(j: Json, patterns: Json, responses: Json, metadata: Json)
    requires j.JObj? && "id" in Keys(j.members)
    requires Get(j.members, "patterns") == Some(patterns) && NonEmptyList(patterns)
    requires Get(j.members, "responses") == Some(responses) && NonEmptyList(responses)
    requires Get(j.members, "metadata") == Some(metadata) && HasCategory(metadata) == Some(true)
    ensures WellFormedIntent(j)
  {
  }

  /** What the knowledge manager saves passes the structural check. */
  lemma EncodedKnowledgeBaseWellFormed(kb: KnowledgeBase)
    requires forall k :: 0 <= k < |kb.intents| ==> CanonicalIntent(kb.intents[k])
    ensures ValidateKnowledgeBaseStructure(EncodeKnowledgeBase(kb).members) == Ok([])
  {
    var j := EncodeKnowledgeBase(kb);
    assert Get(j.members, "intents") == Some(JArr(EncodeIntents(kb.intents))) by { GetFirst(j.members, 0, "intents"); }
    forall k | 0 <= k < |kb.intents| ensures WellFormedIntent(EncodeIntents(kb.intents)[k]) {
      EncodedIntentWellFormed(kb.intents[k]);
    }
  }

  lemma CanonicalResponsesNonEmpty(i: Intent)
    requires CanonicalIntent(i)
    ensures NonEmptyList(EncodeResponses(i.responses))
  {
    assert CanonicalResponses(i.responses);
  }
}

=== FILE: dicts.dfy ===
/** Python dictionaries whose iteration order is observable: key/value pairs kept
    in insertion order. Assigning an existing key keeps its position; a new key
    goes to the end. */
module Dicts {
  import opened Common

  type Dict<V> = seq<(string, V)>

  function Keys<V>(d: Dict<V>): (ks: seq<string>)
    ensures |ks| == |d|
  {
    if d == [] then [] else [d[0].0] + Keys(d[1..])
  }

  /** The i-th key is the key of the i-th entry. */
  lemma {:induction false} KeysIndexed<V>(d: Dict<V>)
    ensures forall i :: 0 <= i < |d| ==> Keys(d)[i] == d[i].0
  {
    if d != [] {
      KeysIndexed(d[1..]);
    }
  }

  /** `d.get(k)`. */
  function Get<V>(d: Dict<V>, k: string): (r: Option<V>)
    ensures r.None? <==> k !in Keys(d)
  {
    if d == [] then None else if d[0].0 == k then Some(d[0].1) else Get(d[1..], k)
  }

  /** The entry found for a key is its first occurrence. */
  lemma {:induction false} GetFirst<V>(d: Dict<V>, i: nat, k: string)
    requires i < |d| && d[i].0 == k
    requires forall j :: 0 <= j < i ==> d[j].0 != k
    ensures Get(d, k) == Some(d[i].1)
  {
    if i > 0 {
      GetFirst(d[1..], i - 1, k);
    }
  }

  /** `d.get(k, default)`. */
  function GetOr<V>(d: Dict<V>, k: string, default: V): V {
    Get(d, k).GetOr(default)
  }

  /** `d[k] = v`. */
  function Set<V>(d: Dict<V>, k: string, v: V): (r: Dict<V>)
    ensures Get(r, k) == Some(v)
    ensures forall k' :: k' != k ==> Get(r, k') == Get(d, k')
    ensures Keys(r) == if k in Keys(d) then Keys(d) else Keys(d) + [k]
  {
    if d == [] then [(k, v)]
    else if d[0].0 == k then
      var r := [(k, v)] + d[1..];
      assert r[1..] == d[1..];
      r
    else
      var t := Set(d[1..], k, v);
      var r := [d[0]] + t;
      assert r[1..] == t;
      r
  }

  /** Assigning a key the value it already has changes nothing. */
  lemma {:induction false} SetSameValue<V>(d: Dict<V>, k: string, v: V)
    requires Get(d, k) == Some(v)
    ensures Set(d, k, v) == d
  {
    if d != [] && d[0].0 != k {
      SetSameValue(d[1..], k, v);
      assert d == [d[0]] + d[1..];
    }
  }

  /** No key occurs twice, as in every dictionary the program builds. */
  ghost predicate Distinct<V>(d: Dict<V>) {
    forall i, j :: 0 <= i < j < |d| ==> d[i].0 != d[j].0
  }

  /** `d.update(e)`: assigns the entries of `e` in order. */
  function Update<V>(d: Dict<V>, e: Dict<V>): (r: Dict<V>)
    ensures forall k :: k in Keys(r) <==> k in Keys(d) || k in Keys(e)
    decreases |e|
  {
    if e == [] then d else Update(Set(d, e[0].0, e[0].1), e[1..])
  }

  /** A key listed by `Keys` belongs to some entry. */
  lemma {:induction false} KeyHasEntry<V>(d: Dict<V>, k: string) returns (i: nat)
    requires k in Keys(d)
    ensures i < |d| && d[i].0 == k
  {
    if d[0].0 != k {
      var j := KeyHasEntry(d[1..], k);
      i := j + 1;
    } else {
      i := 0;
    }
  }

  /** After a merge, the supplied keys carry the supplied values and every other
      key keeps its old value. */
  lemma {:induction false} UpdateGet<V>(d: Dict<V>, e: Dict<V>, k: string)
    requires Distinct(e)
    ensures Get(Update(d, e), k) == if k in Keys(e) then Get(e, k) else Get(d, k)
    decreases |e|
  {
    if e != [] {
      var d' := Set(d, e[0].0, e[0].1);
      var rest := e[1..];
      assert Distinct(rest) by {
        forall i, j | 0 <= i < j < |rest| ensures rest[i].0 != rest[j].0 {
          assert rest[i] == e[i + 1] && rest[j] == e[j + 1];
        }
      }
      UpdateGet(d', rest, k);
      if k == e[0].0 && k in Keys(rest) {
        var i := KeyHasEntry(rest, k);
        assert false;
      }
    }
  }
}

=== FILE: intent_decoding.dfy ===
/** Building the knowledge-base records from parsed JSON (`KnowledgeBase(**data)` in
    `src/models/intent.py`) and writing them back (`model_dump`). Only the exact JSON
    types are accepted: a string where a string is declared, a number where a number is
    declared, an integral number for `priority`. Unknown keys are ignored. */
module IntentDecoding {
  import opened Common
  import opened Strings
  import opened Dicts
  import opened IntentModel

  function Invalid<T>(field: string): (r: Result<T>)
    ensures r.Err? && r.error.ValidationError?
  {
    Err(ValidationError(field + ": invalid value"))
  }

  function DecodeString(j: Json, field: string): (r: Result<string>)
    ensures r.Ok? <==> j.JStr?
    ensures r.Ok? ==> r.value == j.s
  {
    if j.JStr? then Ok(j.s) else Invalid(field)
  }

  /** A JSON array of strings. */
  function DecodeStrings(j: Json, field: string): (r: Result<seq<string>>)
    ensures r.Ok? <==> j.JArr? && forall k :: 0 <= k < |j.items| ==> j.items[k].JStr?
    ensures r.Ok? ==> |r.value| == |j.items| && forall k :: 0 <= k < |j.items| ==> r.value[k] == j.items[k].s
  {
    if j.JArr? && forall k :: 0 <= k < |j.items| ==> j.items[k].JStr? then
      Ok(seq(|j.items|, k requires 0 <= k < |j.items| => j.items[k].s))
    else Invalid(field)
  }

  /** `Optional[datetime]`: absent or `null` is `None`. */
  function DecodeTimestamp(j: Option<Json>, field: string): (r: Result<Option<Timestamp>>)
    ensures j.None? || j.value.JNull? ==> r == Ok(None)
    ensures j.Some? && j.value.JStr? ==> r == Ok(Some(j.value.s))
    ensures r.Ok? <==> j.None? || j.value.JNull? || j.value.JStr?
  {
    match j
    case None => Ok(None)
    case Some(JNull) => Ok(None)
    case Some(JStr(s)) => Ok(Some(s))
    case Some(_) => Invalid(field)
  }

  predicate IsIntegral(n: real) {
    n == n.Floor as real
  }

  /** The fields of `IntentMetadata`, before range checks. */
  function DecodeRawMetadata(j: Json): (r: Result<RawMetadata>)
    ensures r.Ok? ==> j.JObj?
    ensures r.Ok? ==> var fields := j.members;
      && (r.value.category.Some? <==> Get(fields, "category").Some?)
      && (r.value.category.Some? ==> Get(fields, "category") == Some(JStr(r.value.category.value)))
      && (r.value.confidenceThreshold.Some? ==> Get(fields, "confidence_threshold") == Some(JNum(r.value.confidenceThreshold.value)))
      && (r.value.priority.Some? ==> Get(fields, "priority") == Some(JNum(r.value.priority.value as real)))
  {
    if !j.JObj? then Invalid("metadata")
    else
      var fields := j.members;
      DecodeMetadataFields(Get(fields, "category"), Get(fields, "confidence_threshold"), Get(fields, "priority"),
        Get(fields, "tags"), Get(fields, "created_at"), Get(fields, "updated_at"))
  }

  function DecodeMetadataFields(category: Option<Json>, threshold: Option<Json>, priority: Option<Json>,
                                tags: Option<Json>, createdAt: Option<Json>, updatedAt: Option<Json>): (r: Result<RawMetadata>)
    ensures r.Ok? ==>
      && (r.value.category.Some? <==> category.Some?)
      && (r.value.category.Some? ==> category == Some(JStr(r.value.category.value)))
      && (r.value.confidenceThreshold.Some? ==> threshold == Some(JNum(r.value.confidenceThreshold.value)))
      && (r.value.priority.Some? ==> priority == Some(JNum(r.value.priority.value as real)))
  {
    if category.Some? && !category.value.JStr? then Invalid("category")
    else if threshold.Some? && !threshold.value.JNum? then Invalid("confidence_threshold")
    else if priority.Some? && !(priority.value.JNum? && IsIntegral(priority.value.n)) then Invalid("priority")
    else
      var tagList := if tags.Some? then DecodeStrings(tags.value, "tags") else Ok([]);
      var created := DecodeTimestamp(createdAt, "created_at");
      var updated := DecodeTimestamp(updatedAt, "updated_at");
      if tagList.Err? then Err(tagList.error)
      else if created.Err? then Err(created.error)
      else if updated.Err? then Err(updated.error)
      else Ok(RawMetadata(
        if category.Some? then Some(category.value.s) else None,
        if threshold.Some? then Some(threshold.value.n) else None,
        if priority.Some? then Some(priority.value.n.Floor) else None,
        tagList.value, created.value, updated.value))
  }

  /** One response object `{"id": …, "text": …}`. */
  function DecodeResponseObject(j: Json): (r: Result<ResponseObject>)
    ensures r.Ok? ==> j.JObj? && Get(j.members, "id") == Some(JStr(r.value.id)) && Get(j.members, "text") == Some(JStr(r.value.text))
  {
    if !j.JObj? then Invalid("responses")
    else
      var id := Get(j.members, "id");
      var text := Get(j.members, "text");
      if id.Some? && id.value.JStr? && text.Some? && text.value.JStr? then Ok(ResponseObject(id.value.s, text.value.s))
      else Invalid("responses")
  }

  /** `Union[List[str], List[Response]]`: an all-string array (the empty one included) is
      the string form, an all-object array the object form. */
  function DecodeResponses(j: Json): (r: Result<Responses>)
    ensures r.Ok? ==> j.JArr? && r.value.Length() == |j.items|
    ensures r.Ok? && r.value.Texts? ==> forall k :: 0 <= k < |j.items| ==> j.items[k] == JStr(r.value.texts[k])
  {
    if !j.JArr? then Invalid("responses")
    else if forall k :: 0 <= k < |j.items| ==> j.items[k].JStr? then
      Ok(Texts(seq(|j.items|, k requires 0 <= k < |j.items| => j.items[k].s)))
    else if forall k :: 0 <= k < |j.items| ==> DecodeResponseObject(j.items[k]).Ok? then
      Ok(Objects(seq(|j.items|, k requires 0 <= k < |j.items| => DecodeResponseObject(j.items[k]).value)))
    else Invalid("responses")
  }

  /** One intent: its four required fields decoded, then the validators of `Intent` run. */
  function DecodeIntent(j: Json): (r: Result<Intent>)
    ensures r.Ok? ==> j.JObj? && Get(j.members, "id").Some?
    ensures r.Ok? ==> CanonicalIntent(r.value)
  {
    if !j.JObj? then Invalid("intents")
    else
      var id := Get(j.members, "id");
      var patterns := Get(j.members, "patterns");
      var responses := Get(j.members, "responses");
      var metadata := Get(j.members, "metadata");
      if id.Some? && patterns.Some? && responses.Some? && metadata.Some? then
        DecodeIntentFields(id.value, patterns.value, responses.value, metadata.value)
      else Err(ValidationError("intent: Field required"))
  }

  function DecodeIntentFields(id: Json, patterns: Json, responses: Json, metadata: Json): (r: Result<Intent>)
    ensures r.Ok? ==> CanonicalIntent(r.value)
  {
    var raw := (DecodeString(id, "id"), DecodeStrings(patterns, "patterns"), DecodeResponses(responses), DecodeRawMetadata(metadata));
    if raw.0.Err? then Err(raw.0.error)
    else if raw.1.Err? then Err(raw.1.error)
    else if raw.2.Err? then Err(raw.2.error)
    else if raw.3.Err? then Err(raw.3.error)
    else
      var intent := RawIntent(raw.0.value, raw.1.value, raw.2.value, raw.3.value);
      var r := ValidateIntent(intent);
      assert r.Ok? ==> CanonicalIntent(r.value) by {
        if r.Ok? { ValidatedIntentIsCanonical(intent); }
      }
      r
  }

  function DecodeIntents(items: seq<Json>): (r: Result<seq<Intent>>)
    ensures r.Ok? <==> forall k :: 0 <= k < |items| ==> DecodeIntent(items[k]).Ok?
    ensures r.Ok? ==> |r.value| == |items| && forall k :: 0 <= k < |items| ==> Ok(r.value[k]) == DecodeIntent(items[k])
  {
    MapResult(items, DecodeIntent)
  }

  /** `KnowledgeBase(**data)`: `intents` is required, `metadata` defaults to `{}` and
      `version` to "1.0.0"; the ids must be unique once normalised. */
  function DecodeKnowledgeBase(j: Json): (r: Result<KnowledgeBase>)
    ensures r.Ok? ==> j.JObj? && Get(j.members, "intents").Some?
    ensures r.Ok? ==> UniqueIds(r.value.intents) && forall k :: 0 <= k < |r.value.intents| ==> CanonicalIntent(r.value.intents[k])
    ensures r.Ok? ==> Get(j.members, "version").None? ==> r.value.version == DefaultVersion
  {
    if !j.JObj? then Invalid("knowledge base")
    else DecodeKnowledgeBaseFields(Get(j.members, "intents"), Get(j.members, "metadata"), Get(j.members, "version"))
  }

  function DecodeKnowledgeBaseFields(intents: Option<Json>, metadata: Option<Json>, version: Option<Json>): (r: Result<KnowledgeBase>)
    ensures r.Ok? ==> intents.Some?
    ensures r.Ok? ==> UniqueIds(r.value.intents) && forall k :: 0 <= k < |r.value.intents| ==> CanonicalIntent(r.value.intents[k])
    ensures r.Ok? ==> version.None? ==> r.value.version == DefaultVersion
  {
    if intents.None? then Err(ValidationError("intents: Field required"))
    else if !intents.value.JArr? then Invalid("intents")
    else if metadata.Some? && !metadata.value.JObj? then Invalid("metadata")
    else if version.Some? && !version.value.JStr? then Invalid("version")
    else
      var decoded := DecodeIntents(intents.value.items);
      if decoded.Err? then Err(decoded.error)
      else
        var r := ValidateKnowledgeBase(decoded.value,
          if metadata.Some? then metadata.value.members else [],
          if version.Some? then Some(version.value.s) else None);
        SetSizeMeansUnique(decoded.value);
        r
  }

  // ---------------------------------------------------------------------------
  // model_dump
  // ---------------------------------------------------------------------------

  function EncodeTimestamp(t: Option<Timestamp>): Json {
    if t.Some? then JStr(t.value) else JNull
  }

  function EncodeStrings(s: seq<string>): (j: Json)
    ensures j.JArr? && |j.items| == |s| && forall k :: 0 <= k < |s| ==> j.items[k] == JStr(s[k])
  {
    JArr(seq(|s|, k requires 0 <= k < |s| => JStr(s[k])))
  }

  function EncodeMetadata(m: IntentMetadata): (j: Json)
    ensures j.JObj? && Keys(j.members) == ["category", "confidence_threshold", "priority", "tags", "created_at", "updated_at"]
  {
    var members := [
      ("category", JStr(m.category)),
      ("confidence_threshold", JNum(m.confidenceThreshold)),
      ("priority", JNum(m.priority as real)),
      ("tags", EncodeStrings(m.tags)),
      ("created_at", EncodeTimestamp(m.createdAt)),
      ("updated_at", EncodeTimestamp(m.updatedAt))];
    KeysIndexed(members);
    JObj(members)
  }

  function EncodeResponseObject(o: ResponseObject): Json {
    JObj([("id", JStr(o.id)), ("text", JStr(o.text))])
  }

  function EncodeResponses(r: Responses): (j: Json)
    ensures j.JArr? && |j.items| == r.Length()
    ensures r.Texts? ==> forall k :: 0 <= k < |j.items| ==> j.items[k] == JStr(r.texts[k])
    ensures r.Objects? ==> forall k :: 0 <= k < |j.items| ==> j.items[k] == JObj([("id", JStr(r.objects[k].id)), ("text", JStr(r.objects[k].text))])
  {
    match r
    case Texts(texts) => EncodeStrings(texts)
    case Objects(objects) => JArr(seq(|objects|, k requires 0 <= k < |objects| => EncodeResponseObject(objects[k])))
  }

  function EncodeIntent(i: Intent): (j: Json)
    ensures j.JObj? && Keys(j.members) == ["id", "patterns", "responses", "metadata"]
  {
    var members := [
      ("id", JStr(i.id)),
      ("patterns", EncodeStrings(i.patterns)),
      ("responses", EncodeResponses(i.responses)),
      ("metadata", EncodeMetadata(i.metadata))];
    KeysIndexed(members);
    JObj(members)
  }

  function EncodeIntents(intents: seq<Intent>): (items: seq<Json>)
    ensures |items| == |intents| && forall k :: 0 <= k < |intents| ==> items[k] == EncodeIntent(intents[k])
  {
    seq(|intents|, k requires 0 <= k < |intents| => EncodeIntent(intents[k]))
  }

  function EncodeKnowledgeBase(kb: KnowledgeBase): (j: Json)
    ensures j.JObj? && Keys(j.members) == ["intents", "metadata", "version"]
    ensures j.members[0].1.JArr? && |j.members[0].1.items| == |kb.intents|
  {
    var members := [
      ("intents", JArr(EncodeIntents(kb.intents))),
      ("metadata", JObj(kb.metadata)),
      ("version", JStr(kb.version))];
    KeysIndexed(members);
    JObj(members)
  }

  // ---------------------------------------------------------------------------
  // Round trip
  // ---------------------------------------------------------------------------

  lemma StringsRoundTrip(s: seq<string>, field: string)
    ensures DecodeStrings(EncodeStrings(s), field) == Ok(s)
  {
    var r := DecodeStrings(EncodeStrings(s), field);
    assert r.value == s;
  }

  lemma MetadataRoundTrip(m: IntentMetadata)
    ensures DecodeRawMetadata(EncodeMetadata(m)) == Ok(RawMetadataOf(m))
  {
    EncodedMetadataFields(m);
    MetadataFieldsRoundTrip(m);
  }

  /** Each field of dumped metadata is found under its key. */
  lemma EncodedMetadataFields(m: IntentMetadata)
    ensures var fields := EncodeMetadata(m).members;
      && Get(fields, "category") == Some(JStr(m.category))
      && Get(fields, "confidence_threshold") == Some(JNum(m.confidenceThreshold))
      && Get(fields, "priority") == Some(JNum(m.priority as real))
      && Get(fields, "tags") == Some(EncodeStrings(m.tags))
      && Get(fields, "created_at") == Some(EncodeTimestamp(m.createdAt))
      && Get(fields, "updated_at") == Some(EncodeTimestamp(m.updatedAt))
  {
    var fields := EncodeMetadata(m).members;
    GetFirst(fields, 0, "category");
    GetFirst(fields, 1, "confidence_threshold");
    GetFirst(fields, 2, "priority");
    EncodedMetadataTimes(m);
  }

  lemma EncodedMetadataTimes(m: IntentMetadata)
    ensures var fields := EncodeMetadata(m).members;
      && Get(fields, "tags") == Some(EncodeStrings(m.tags))
      && Get(fields, "created_at") == Some(EncodeTimestamp(m.createdAt))
      && Get(fields, "updated_at") == Some(EncodeTimestamp(m.updatedAt))
  {
    var fields := EncodeMetadata(m).members;
    assert Keys(fields)[..6] == ["category", "confidence_threshold", "priority", "tags", "created_at", "updated_at"];
    GetFirst(fields, 3, "tags");
    GetFirst(fields, 4, "created_at");
    GetFirst(fields, 5, "updated_at");
  }

  lemma MetadataFieldsRoundTrip(m: IntentMetadata)
    ensures DecodeMetadataFields(Some(JStr(m.category)), Some(JNum(m.confidenceThreshold)), Some(JNum(m.priority as real)),
      Some(EncodeStrings(m.tags)), Some(EncodeTimestamp(m.createdAt)), Some(EncodeTimestamp(m.updatedAt)))
      == Ok(RawMetadataOf(m))
  {
    assert (m.priority as real).Floor == m.priority;
    StringsRoundTrip(m.tags, "tags");
  }

  lemma ResponseObjectRoundTrip(o: ResponseObject)
    ensures DecodeResponseObject(EncodeResponseObject(o)) == Ok(o)
  {
    var fields := EncodeResponseObject(o).members;
    GetFirst(fields, 0, "id");
    GetFirst(fields, 1, "text");
  }

  lemma ResponsesRoundTrip(r: Responses)
    requires r.Length() > 0
    ensures DecodeResponses(EncodeResponses(r)) == Ok(r)
  {
    var j := EncodeResponses(r);
    match r
    case Texts(texts) =>
      assert DecodeResponses(j).value.texts == texts;
    case Objects(objects) =>
      assert !j.items[0].JStr?;
      forall k | 0 <= k < |objects| ensures DecodeResponseObject(j.items[k]) == Ok(objects[k]) {
        ResponseObjectRoundTrip(objects[k]);
      }
      assert DecodeResponses(j).value.objects == objects;
  }

  /** A canonical intent written out and read back is the same intent. */
  lemma IntentRoundTrip(i: Intent)
    requires CanonicalIntent(i)
    ensures DecodeIntent(EncodeIntent(i)) == Ok(i)
  {
    EncodedIntentFields(i);
    DecodeFromFields(EncodeIntent(i), JStr(i.id), EncodeStrings(i.patterns), EncodeResponses(i.responses), EncodeMetadata(i.metadata));
    IntentFieldsRoundTrip(i);
  }

  /** An object holding the four required fields decodes as those fields do. */
  lemma DecodeFromFields(j: Json, id: Json, patterns: Json, responses: Json, metadata: Json)
    requires j.JObj?
    requires Get(j.members, "id") == Some(id) && Get(j.members, "patterns") == Some(patterns)
    requires Get(j.members, "responses") == Some(responses) && Get(j.members, "metadata") == Some(metadata)
    ensures DecodeIntent(j) == DecodeIntentFields(id, patterns, responses, metadata)
  {
  }

  /** The four required fields read back from a written intent. */
  lemma EncodedIntentFields(i: Intent)
    ensures var fields := EncodeIntent(i).members;
      && Get(fields, "id") == Some(JStr(i.id))
      && Get(fields, "patterns") == Some(EncodeStrings(i.patterns))
      && Get(fields, "responses") == Some(EncodeResponses(i.responses))
      && Get(fields, "metadata") == Some(EncodeMetadata(i.metadata))
  {
    var fields := EncodeIntent(i).members;
    GetFirst(fields, 0, "id");
    GetFirst(fields, 1, "patterns");
    GetFirst(fields, 2, "responses");
    GetFirst(fields, 3, "metadata");
  }

  lemma IntentFieldsRoundTrip(i: Intent)
    requires CanonicalIntent(i)
    ensures DecodeIntentFields(JStr(i.id), EncodeStrings(i.patterns), EncodeResponses(i.responses), EncodeMetadata(i.metadata)) == Ok(i)
  {
    CanonicalHasResponses(i);
    IntentFieldsDecode(i);
    CanonicalIntentRevalidates(i);
  }

  lemma CanonicalHasResponses(i: Intent)
    requires CanonicalIntent(i)
    ensures i.responses.Length() > 0
  {
  }

  /** Decoding the written fields of any intent with responses hands the validators
      exactly the intent's own fields. */
  lemma IntentFieldsDecode(i: Intent)
    requires i.responses.Length() > 0
    ensures DecodeIntentFields(JStr(i.id), EncodeStrings(i.patterns), EncodeResponses(i.responses), EncodeMetadata(i.metadata))
      == ValidateIntent(RawOf(i))
  {
    MetadataRoundTrip(i.metadata);
    ResponsesRoundTrip(i.responses);
    StringsRoundTrip(i.patterns, "patterns");
  }

  /** Writing a knowledge base with `model_dump` and building it again from the JSON gives
      back the same knowledge base, for every knowledge base that validation can produce. */
  lemma KnowledgeBaseRoundTrip(kb: KnowledgeBase)
    requires UniqueIds(kb.intents)
    requires forall k :: 0 <= k < |kb.intents| ==> CanonicalIntent(kb.intents[k])
    ensures DecodeKnowledgeBase(EncodeKnowledgeBase(kb)) == Ok(kb)
  {
    var j := EncodeKnowledgeBase(kb);
    var items := JArr(EncodeIntents(kb.intents));
    assert Get(j.members, "intents") == Some(items) by { GetFirst(j.members, 0, "intents"); }
    assert Get(j.members, "metadata") == Some(JObj(kb.metadata)) by { GetFirst(j.members, 1, "metadata"); }
    assert Get(j.members, "version") == Some(JStr(kb.version)) by { GetFirst(j.members, 2, "version"); }
    KnowledgeBaseFieldsRoundTrip(kb);
  }

  lemma KnowledgeBaseFieldsRoundTrip(kb: KnowledgeBase)
    requires UniqueIds(kb.intents)
    requires forall k :: 0 <= k < |kb.intents| ==> CanonicalIntent(kb.intents[k])
    ensures DecodeKnowledgeBaseFields(Some(JArr(EncodeIntents(kb.intents))), Some(JObj(kb.metadata)), Some(JStr(kb.version))) == Ok(kb)
  {
    IntentsRoundTrip(kb.intents);
    SetSizeMeansUnique(kb.intents);
    DecodeFromIntents(EncodeIntents(kb.intents), kb.intents, kb.metadata, kb.version);
  }

  /** Fields whose intents decode without a repeated id give the knowledge base of those
      intents. */
  lemma DecodeFromIntents(items: seq<Json>, intents: seq<Intent>, metadata: seq<(string, Json)>, version: string)
    requires DecodeIntents(items) == Ok(intents)
    requires |IdSet(intents)| == |intents|
    ensures DecodeKnowledgeBaseFields(Some(JArr(items)), Some(JObj(metadata)), Some(JStr(version)))
      == Ok(KnowledgeBase(intents, metadata, version))
  {
    FieldsValidateDecoded(items, intents, metadata, version);
  }

  lemma FieldsValidateDecoded(items: seq<Json>, intents: seq<Intent>, metadata: seq<(string, Json)>, version: string)
    requires DecodeIntents(items) == Ok(intents)
    ensures DecodeKnowledgeBaseFields(Some(JArr(items)), Some(JObj(metadata)), Some(JStr(version)))
      == ValidateKnowledgeBase(intents, metadata, Some(version))
  {
  }

  lemma IntentsRoundTrip(intents: seq<Intent>)
    requires forall k :: 0 <= k < |intents| ==> CanonicalIntent(intents[k])
    ensures DecodeIntents(EncodeIntents(intents)) == Ok(intents)
  {
    var items := EncodeIntents(intents);
    forall k | 0 <= k < |items| ensures DecodeIntent(items[k]) == Ok(intents[k]) {
      IntentRoundTrip(intents[k]);
    }
    MapResultAllOk(items, DecodeIntent, intents);
  }
}

=== FILE: intent_model.dfy ===
/** Validation of knowledge-base records and chat messages (`src/models/intent.py`).
    Each pydantic model is a validated datatype plus a `Validate…` function from the
    raw field values to `Result`; a validation failure is `Err(ValidationError(…))`
    carrying the message of the first failing field in declaration order. */
module IntentModel {
  import opened Common
  import opened Strings

  /** A point in time as its ISO text; the format itself is not checked. */
  type Timestamp = string

  const DefaultConfidenceThreshold: real := 0.7
  const DefaultPriority: int := 1

  // ---------------------------------------------------------------------------
  // IntentMetadata
  // ---------------------------------------------------------------------------

  datatype IntentMetadata = IntentMetadata(
    category: string,
    confidenceThreshold: real,
    priority: int,
    tags: seq<string>,
    createdAt: Option<Timestamp>,
    updatedAt: Option<Timestamp>)

  /** The fields as supplied; `None` means the field was left out. */
  datatype RawMetadata = RawMetadata(
    category: Option<string>,
    confidenceThreshold: Option<real>,
    priority: Option<int>,
    tags: seq<string>,
    createdAt: Option<Timestamp>,
    updatedAt: Option<Timestamp>)

  ghost predicate ValidMetadata(m: IntentMetadata) {
    0.0 <= m.confidenceThreshold <= 1.0 && 1 <= m.priority <= 10
  }

  /** `IntentMetadata(...)`: category is required, the threshold defaults to 0.7 and
      must lie in [0, 1], the priority defaults to 1 and must lie in [1, 10]. */
  function ValidateMetadata(raw: RawMetadata): (r: Result<IntentMetadata>)
    ensures r.Ok? <==>
      && raw.category.Some?
      && 0.0 <= raw.confidenceThreshold.GetOr(DefaultConfidenceThreshold) <= 1.0
      && 1 <= raw.priority.GetOr(DefaultPriority) <= 10
    ensures r.Ok? ==> ValidMetadata(r.value)
    ensures r.Ok? ==>
      && r.value.category == raw.category.value
      && r.value.confidenceThreshold == raw.confidenceThreshold.GetOr(DefaultConfidenceThreshold)
      && r.value.priority == raw.priority.GetOr(DefaultPriority)
      && r.value.tags == raw.tags && r.value.createdAt == raw.createdAt && r.value.updatedAt == raw.updatedAt
    ensures r.Err? ==> r.error.ValidationError?
  {
    var threshold := raw.confidenceThreshold.GetOr(DefaultConfidenceThreshold);
    var priority := raw.priority.GetOr(DefaultPriority);
    if raw.category.None? then Err(ValidationError("category: Field required"))
    else if !(0.0 <= threshold <= 1.0) then Err(ValidationError("confidence_threshold: out of range [0, 1]"))
    else if !(1 <= priority <= 10) then Err(ValidationError("priority: out of range [1, 10]"))
    else Ok(IntentMetadata(raw.category.value, threshold, priority, raw.tags, raw.createdAt, raw.updatedAt))
  }

  /** Metadata with only a category takes the documented defaults. */
  lemma MetadataDefaults(category: string)
    ensures var r := ValidateMetadata(RawMetadata(Some(category), None, None, [], None, None));
      r == Ok(IntentMetadata(category, 0.7, 1, [], None, None))
  {
  }

  // ---------------------------------------------------------------------------
  // Response
  // ---------------------------------------------------------------------------

  /** A response in the object form. */
  datatype ResponseObject = ResponseObject(id: string, text: string)

  /** `Response(...)`: id and text are stripped and must not be blank. */
  function ValidateResponseObject(raw: ResponseObject): (r: Result<ResponseObject>)
    ensures r.Ok? <==> !IsBlank(raw.id) && !IsBlank(raw.text)
    ensures r.Ok? ==> r.value == ResponseObject(Trim(raw.id), Trim(raw.text))
    ensures r.Ok? ==> r.value.id != [] && r.value.text != []
  {
    if IsBlank(raw.id) then Err(ValidationError("Response ID cannot be empty"))
    else if IsBlank(raw.text) then Err(ValidationError("Response text cannot be empty"))
    else Ok(ResponseObject(Trim(raw.id), Trim(raw.text)))
  }

  /** The two accepted shapes of an intent's `responses` list. */
  datatype Responses = Texts(texts: seq<string>) | Objects(objects: seq<ResponseObject>) {
    /** `len(responses)`. */
    function Length(): nat {
      match this
      case Texts(texts) => |texts|
      case Objects(objects) => |objects|
    }
  }

  // ---------------------------------------------------------------------------
  // Intent
  // ---------------------------------------------------------------------------

  /** `[s.strip() for s in v if s.strip()]`. */
  function StripNonBlank(v: seq<string>): (r: seq<string>)
    ensures |r| <= |v|
    ensures r == [] <==> forall i :: 0 <= i < |v| ==> IsBlank(v[i])
  {
    if v == [] then []
    else
      var rest := StripNonBlank(v[1..]);
      if IsBlank(v[0]) then
        assert forall i :: 1 <= i < |v| ==> v[i] == v[1..][i - 1];
        rest
      else [Trim(v[0])] + rest
  }

  /** The comprehension works entry by entry: a concatenation is filtered piecewise,
      so the kept entries keep their order and their number. */
  lemma {:induction false} StripNonBlankSplit(a: seq<string>, b: seq<string>)
    ensures StripNonBlank(a + b) == StripNonBlank(a) + StripNonBlank(b)
  {
    if a != [] {
      assert (a + b)[1..] == a[1..] + b;
      StripNonBlankSplit(a[1..], b);
    } else {
      assert a + b == b;
    }
  }

  /** One entry is kept, stripped, iff it is not blank. */
  lemma StripNonBlankOne(p: string)
    ensures StripNonBlank([p]) == (if IsBlank(p) then [] else [Trim(p)])
  {
  }

  /** A string with no whitespace at either end is its own `strip()`. */
  lemma TrimNoEdgeSpaces(s: string)
    requires s == [] || (!IsSpace(s[0]) && !IsSpace(s[|s| - 1]))
    ensures Trim(s) == s
  {
    if s != [] {
      assert TrimLeft(s) == s;
      assert TrimRight(s) == s;
    }
  }

  lemma TrimIdempotent(s: string)
    ensures Trim(Trim(s)) == Trim(s)
  {
    TrimNoEdgeSpaces(Trim(s));
  }

  /** Every kept pattern is non-empty and already stripped. */
  lemma {:induction false} StripNonBlankStripped(v: seq<string>)
    ensures forall i :: 0 <= i < |StripNonBlank(v)| ==> StripNonBlank(v)[i] != [] && Trim(StripNonBlank(v)[i]) == StripNonBlank(v)[i]
  {
    if v != [] {
      var rest := StripNonBlank(v[1..]);
      StripNonBlankStripped(v[1..]);
      if !IsBlank(v[0]) {
        TrimIdempotent(v[0]);
        var r := StripNonBlank(v);
        assert r == [Trim(v[0])] + rest;
        forall i | 0 <= i < |r| ensures r[i] != [] && Trim(r[i]) == r[i] {
          if i > 0 {
            assert r[i] == rest[i - 1];
          }
        }
      }
    }
  }

  /** Stripping keeps every non-blank entry, in order. */
  lemma {:induction false} StripNonBlankKeeps(v: seq<string>, i: nat)
    requires i < |v| && !IsBlank(v[i])
    ensures Trim(v[i]) in StripNonBlank(v)
  {
    var rest := StripNonBlank(v[1..]);
    assert StripNonBlank(v) == (if IsBlank(v[0]) then [] else [Trim(v[0])]) + rest;
    if i > 0 {
      assert v[1..][i - 1] == v[i];
      StripNonBlankKeeps(v[1..], i - 1);
    }
  }

  /** `Intent.validate_id`: strip, lower-case, then each space becomes an underscore. */
  function NormalizeId(v: string): (id: string)
    ensures |id| == |Trim(v)|
    ensures forall i :: 0 <= i < |id| ==> id[i] != ' ' && !IsUpper(id[i])
    ensures forall i :: 0 <= i < |id| ==> id[i] == (if Trim(v)[i] == ' ' then '_' else LowerChar(Trim(v)[i]))
  {
    var lowered := Lower(Trim(v));
    ReplaceChar(lowered, ' ', '_');
    Replace(lowered, " ", "_")
  }

  /** `str.replace` with a one-character pattern and replacement maps characters one for one. */
  lemma {:induction false} ReplaceChar(s: string, a: char, b: char)
    ensures |Replace(s, [a], [b])| == |s|
    ensures forall i :: 0 <= i < |s| ==> Replace(s, [a], [b])[i] == if s[i] == a then b else s[i]
  {
    if s != [] {
      ReplaceChar(s[1..], a, b);
      if IsPrefix([a], s) {
        assert s[|[a]|..] == s[1..];
      }
    }
  }

  /** A run of `n` interior spaces becomes `n` underscores; runs are not merged, so
      "Multiple   Spaces" normalises to "multiple___spaces". */
  lemma SpaceRunKept(v: string, lo: nat, n: nat)
    requires lo + n <= |Trim(v)| && forall i :: lo <= i < lo + n ==> Trim(v)[i] == ' '
    ensures |NormalizeId(v)| == |Trim(v)|
    ensures NormalizeId(v)[lo..lo + n] == seq(n, _ => '_')
  {
  }

  /** A normalised id neither starts nor ends with whitespace. */
  lemma NormalizedIdTrimmed(v: string)
    ensures var id := NormalizeId(v); id == [] || (!IsSpace(id[0]) && !IsSpace(id[|id| - 1]))
  {
    var t, id := Trim(v), NormalizeId(v);
    if id != [] {
      var k := |id| - 1;
      assert id[0] == (if t[0] == ' ' then '_' else LowerChar(t[0]));
      assert id[k] == (if t[k] == ' ' then '_' else LowerChar(t[k]));
    }
  }

  /** Normalising a normalised id changes nothing. */
  lemma NormalizeIdIdempotent(v: string)
    ensures NormalizeId(NormalizeId(v)) == NormalizeId(v)
  {
    NormalizedIdTrimmed(v);
    NormalizedIdFixed(NormalizeId(v));
  }

  /** An id that is stripped, lower-case and free of spaces is already normalised. */
  lemma NormalizedIdFixed(id: string)
    requires id == [] || (!IsSpace(id[0]) && !IsSpace(id[|id| - 1]))
    requires forall i :: 0 <= i < |id| ==> id[i] != ' ' && !IsUpper(id[i])
    ensures NormalizeId(id) == id
  {
    var id2 := NormalizeId(id);
    assert id2 == id by {
      TrimNoEdgeSpaces(id);
      forall i | 0 <= i < |id| ensures id2[i] == id[i] {
        assert id2[i] == (if Trim(id)[i] == ' ' then '_' else LowerChar(Trim(id)[i]));
      }
    }
  }

  datatype Intent = Intent(id: string, patterns: seq<string>, responses: Responses, metadata: IntentMetadata)

  datatype RawIntent = RawIntent(id: string, patterns: seq<string>, responses: Responses, metadata: RawMetadata)

  /** `validate_responses`: an empty list is refused; strings are stripped with blanks
      dropped and at least one must remain; objects are validated one by one. */
  function ValidateResponses(v: Responses): (r: Result<Responses>)
    ensures r.Ok? ==> r.value.Texts? == v.Texts?
    ensures v.Texts? ==> (r.Ok? <==> exists i :: 0 <= i < |v.texts| && !IsBlank(v.texts[i]))
    ensures v.Texts? && r.Ok? ==> r.value.texts == StripNonBlank(v.texts)
    ensures v.Objects? ==> (r.Ok? <==>
      v.objects != [] && forall i :: 0 <= i < |v.objects| ==> ValidateResponseObject(v.objects[i]).Ok?)
    ensures r.Ok? && r.value.Objects? ==> |r.value.objects| == |v.objects|
    ensures r.Ok? && r.value.Objects? ==>
      forall i :: 0 <= i < |v.objects| ==> Ok(r.value.objects[i]) == ValidateResponseObject(v.objects[i])
  {
    if v.Length() == 0 then Err(ValidationError("At least one response is required"))
    else match v
      case Texts(texts) => ValidateTexts(texts)
      case Objects(objects) => ValidateObjects(objects)
  }

  /** The string form: stripped, blanks dropped, at least one kept. */
  function ValidateTexts(texts: seq<string>): (r: Result<Responses>)
    ensures r.Ok? <==> exists i :: 0 <= i < |texts| && !IsBlank(texts[i])
    ensures r.Ok? ==> r.value == Texts(StripNonBlank(texts))
  {
    var kept := StripNonBlank(texts);
    if kept == [] then Err(ValidationError("At least one non-empty response is required"))
    else Ok(Texts(kept))
  }

  /** The object form: every response validated on its own. */
  function ValidateObjects(objects: seq<ResponseObject>): (r: Result<Responses>)
    ensures r.Ok? <==> forall i :: 0 <= i < |objects| ==> ValidateResponseObject(objects[i]).Ok?
    ensures r.Ok? ==> r.value.Objects? && |r.value.objects| == |objects|
    ensures r.Ok? ==>
      forall i :: 0 <= i < |objects| ==> Ok(r.value.objects[i]) == ValidateResponseObject(objects[i])
  {
    if forall i :: 0 <= i < |objects| ==> ValidateResponseObject(objects[i]).Ok? then
      var validated := seq(|objects|, i requires 0 <= i < |objects| => ValidateResponseObject(objects[i]).value);
      Ok(Objects(validated))
    else Err(ValidationError("Response ID or text cannot be empty"))
  }

  /** `Intent(...)`: all four fields must validate. */
  function ValidateIntent(raw: RawIntent): (r: Result<Intent>)
    ensures r.Ok? <==>
      && !IsBlank(raw.id)
      && StripNonBlank(raw.patterns) != []
      && ValidateResponses(raw.responses).Ok?
      && ValidateMetadata(raw.metadata).Ok?
    ensures r.Ok? ==>
      && r.value.id == NormalizeId(raw.id)
      && r.value.patterns == StripNonBlank(raw.patterns)
      && r.value.responses == ValidateResponses(raw.responses).value
      && r.value.metadata == ValidateMetadata(raw.metadata).value
    ensures r.Ok? ==> r.value.id != [] && r.value.patterns != []
  {
    if IsBlank(raw.id) then Err(ValidationError("Intent ID cannot be empty"))
    else
      var patterns := StripNonBlank(raw.patterns);
      if patterns == [] then Err(ValidationError("At least one non-empty pattern is required"))
      else match (ValidateResponses(raw.responses), ValidateMetadata(raw.metadata))
        case (Err(e), _) => Err(e)
        case (_, Err(e)) => Err(e)
        case (Ok(responses), Ok(metadata)) => Ok(Intent(NormalizeId(raw.id), patterns, responses, metadata))
  }

  /** What validation leaves behind: a normalised id, stripped non-blank patterns and
      responses, and metadata within its ranges. */
  ghost predicate CanonicalIntent(i: Intent) {
    && !IsBlank(i.id) && NormalizeId(i.id) == i.id
    && i.patterns != [] && (forall k :: 0 <= k < |i.patterns| ==> Stripped(i.patterns[k]))
    && CanonicalResponses(i.responses)
    && ValidMetadata(i.metadata)
  }

  ghost predicate Stripped(s: string) {
    s != [] && Trim(s) == s
  }

  ghost predicate CanonicalResponses(r: Responses) {
    match r
    case Texts(texts) => texts != [] && forall k :: 0 <= k < |texts| ==> Stripped(texts[k])
    case Objects(objects) =>
      objects != [] && forall k :: 0 <= k < |objects| ==> Stripped(objects[k].id) && Stripped(objects[k].text)
  }

  /** The raw fields an intent would be rebuilt from (what `model_dump` writes). */
  function RawOf(i: Intent): RawIntent {
    RawIntent(i.id, i.patterns, i.responses, RawMetadataOf(i.metadata))
  }

  function RawMetadataOf(m: IntentMetadata): RawMetadata {
    RawMetadata(Some(m.category), Some(m.confidenceThreshold), Some(m.priority), m.tags, m.createdAt, m.updatedAt)
  }

  lemma {:induction false} StripNonBlankOfStripped(v: seq<string>)
    requires forall k :: 0 <= k < |v| ==> Stripped(v[k])
    ensures StripNonBlank(v) == v
  {
    if v != [] {
      StripNonBlankOfStripped(v[1..]);
      assert !IsBlank(v[0]);
    }
  }

  /** Every intent that passes validation is in canonical form. */
  lemma ValidatedIntentIsCanonical(raw: RawIntent)
    requires ValidateIntent(raw).Ok?
    ensures CanonicalIntent(ValidateIntent(raw).value)
  {
    var i := ValidateIntent(raw).value;
    NormalizeIdIdempotent(raw.id);
    NormalizedIdTrimmed(raw.id);
    StripNonBlankStripped(raw.patterns);
    var r := ValidateResponses(raw.responses).value;
    match raw.responses
    case Texts(texts) =>
      StripNonBlankStripped(texts);
    case Objects(objects) =>
      forall k | 0 <= k < |r.objects| ensures Stripped(r.objects[k].id) && Stripped(r.objects[k].text) {
        assert Ok(r.objects[k]) == ValidateResponseObject(objects[k]);
        TrimIdempotent(objects[k].id);
        TrimIdempotent(objects[k].text);
      }
  }

  /** Validating a canonical intent's own fields gives the same intent back: validation
      is idempotent. */
  lemma CanonicalIntentRevalidates(i: Intent)
    requires CanonicalIntent(i)
    ensures ValidateIntent(RawOf(i)) == Ok(i)
  {
    StripNonBlankOfStripped(i.patterns);
    CanonicalResponsesRevalidate(i.responses);
    var m := i.metadata;
    assert ValidateMetadata(RawOf(i).metadata) == Ok(m);
  }

  lemma CanonicalResponsesRevalidate(r: Responses)
    requires CanonicalResponses(r)
    ensures ValidateResponses(r) == Ok(r)
  {
    match r
    case Texts(texts) =>
      StripNonBlankOfStripped(texts);
      assert !IsBlank(texts[0]);
    case Objects(objects) =>
      var v := ValidateObjects(objects);
      forall k | 0 <= k < |objects| ensures ValidateResponseObject(objects[k]) == Ok(objects[k]) {
      }
      assert v.Ok?;
      assert v.value.objects == objects;
  }

  // ---------------------------------------------------------------------------
  // KnowledgeBase
  // ---------------------------------------------------------------------------

  const DefaultVersion: string := "1.0.0"

  datatype KnowledgeBase = KnowledgeBase(intents: seq<Intent>, metadata: seq<(string, Json)>, version: string)

  function Ids(intents: seq<Intent>): (ids: seq<string>)
    ensures |ids| == |intents| && forall i :: 0 <= i < |intents| ==> ids[i] == intents[i].id
  {
    seq(|intents|, i requires 0 <= i < |intents| => intents[i].id)
  }

  predicate UniqueIds(intents: seq<Intent>) {
    forall i, j :: 0 <= i < j < |intents| ==> intents[i].id != intents[j].id
  }

  /** `set(ids)`. */
  function IdSet(intents: seq<Intent>): set<string> {
    set i | 0 <= i < |intents| :: intents[i].id
  }

  /** `validate_unique_ids`: `len(ids) == len(set(ids))`. */
  function ValidateKnowledgeBase(intents: seq<Intent>, metadata: seq<(string, Json)>, version: Option<string>): (r: Result<KnowledgeBase>)
    ensures r.Ok? <==> |IdSet(intents)| == |intents|
    ensures r.Ok? ==> r.value == KnowledgeBase(intents, metadata, version.GetOr(DefaultVersion))
  {
    if |IdSet(intents)| != |intents| then Err(ValidationError("All intent IDs must be unique"))
    else Ok(KnowledgeBase(intents, metadata, version.GetOr(DefaultVersion)))
  }

  /** The ids of a non-empty list: the first one and those of the rest. */
  lemma IdSetSplit(intents: seq<Intent>)
    requires intents != []
    ensures IdSet(intents) == {intents[0].id} + IdSet(intents[1..])
  {
    var rest := intents[1..];
    forall x | x in IdSet(intents) ensures x in {intents[0].id} + IdSet(rest) {
      var i :| 0 <= i < |intents| && intents[i].id == x;
      if i > 0 { assert rest[i - 1].id == x; }
    }
    forall x | x in IdSet(rest) ensures x in IdSet(intents) {
      var i :| 0 <= i < |rest| && rest[i].id == x;
      assert intents[i + 1].id == x;
    }
  }

  /** A list without repeated ids has a tail without repeated ids. */
  lemma UniqueTail(intents: seq<Intent>)
    requires intents != [] && UniqueIds(intents)
    ensures UniqueIds(intents[1..]) && intents[0].id !in IdSet(intents[1..])
  {
    var rest := intents[1..];
    forall i, j | 0 <= i < j < |rest| ensures rest[i].id != rest[j].id {
      assert rest[i] == intents[i + 1] && rest[j] == intents[j + 1];
    }
    forall k | 0 <= k < |rest| ensures rest[k].id != intents[0].id {
      assert rest[k] == intents[k + 1];
    }
  }

  /** A repeated id in a non-empty list is either the first id again or a repeat in the tail. */
  lemma RepeatInTail(intents: seq<Intent>)
    requires intents != [] && !UniqueIds(intents)
    ensures intents[0].id in IdSet(intents[1..]) || !UniqueIds(intents[1..])
  {
    var rest := intents[1..];
    var i, j :| 0 <= i < j < |intents| && intents[i].id == intents[j].id;
    if i == 0 {
      assert rest[j - 1].id == intents[0].id;
    } else {
      assert rest[i - 1].id == rest[j - 1].id;
    }
  }

  /** The set-size test of the source accepts exactly the lists without a repeated id. */
  lemma {:induction false} SetSizeMeansUnique(intents: seq<Intent>)
    ensures |IdSet(intents)| == |intents| <==> UniqueIds(intents)
  {
    if intents != [] {
      var rest := intents[1..];
      SetSizeMeansUnique(rest);
      SetOfIdsBound(rest);
      IdSetSplit(intents);
      if UniqueIds(intents) {
        UniqueTail(intents);
      } else {
        RepeatInTail(intents);
      }
    }
  }

  lemma {:induction false} SetOfIdsBound(intents: seq<Intent>)
    ensures |IdSet(intents)| <= |intents|
  {
    if intents != [] {
      SetOfIdsBound(intents[1..]);
      IdSetSplit(intents);
    }
  }

  // ---------------------------------------------------------------------------
  // ChatRequest / ChatResponse
  // ---------------------------------------------------------------------------

  datatype ChatRequest = ChatRequest(message: string, sessionId: Option<string>, userId: Option<string>)

  /** `ChatRequest(...)`: the message is stripped and must not be blank. */
  function ValidateChatRequest(message: string, sessionId: Option<string>, userId: Option<string>): (r: Result<ChatRequest>)
    ensures r.Ok? <==> !IsBlank(message)
    ensures r.Ok? ==> r.value.message == Trim(message) && r.value.message != []
    ensures r.Ok? ==> r.value.sessionId == sessionId && r.value.userId == userId
  {
    if IsBlank(message) then Err(ValidationError("Message cannot be empty or contain only whitespace"))
    else Ok(ChatRequest(Trim(message), sessionId, userId))
  }

  datatype ChatResponse = ChatResponse(response: string, intentId: Option<string>, confidence: real, metadata: seq<(string, Value)>)

  /** `ChatResponse(...)`: the confidence must lie in [0, 1]. */
  function ValidateChatResponse(response: string, intentId: Option<string>, confidence: real, metadata: seq<(string, Value)>): (r: Result<ChatResponse>)
    ensures r.Ok? <==> 0.0 <= confidence <= 1.0
    ensures r.Ok? ==> r.value == ChatResponse(response, intentId, confidence, metadata)
  {
    if 0.0 <= confidence <= 1.0 then Ok(ChatResponse(response, intentId, confidence, metadata))
    else Err(ValidationError("confidence: must be between 0 and 1"))
  }
}

=== FILE: knowledge_manager.dfy ===
/** The knowledge-base manager (`src/services/knowledge_manager.py`): a cached copy of the
    knowledge base, refreshed when the file's modification time moves past the one
    recorded at the last load, and create/read/update/delete operations on intents.
    The file is the `Disk` parameter; each operation returns the new manager state and
    the new disk. The clock is the `now` parameter. */
module KnowledgeManager {
  import opened Common
  import opened Strings
  import opened Dicts
  import opened Sorting
  import opened IntentModel
  import opened IntentDecoding

  const DefaultKnowledgeFile: string := "data/knowledge/knowledge-base.json"
  const DefaultCategory: string := "general"

  /** What reading the file yields: a JSON value, or text that is not JSON. */
  datatype Document = Parsed(data: Json) | Malformed

  /** The knowledge file: absent, or present with a modification time (which may be
      unreadable) and contents. */
  datatype Disk = Missing | Present(mtime: Option<real>, document: Document)

  datatype Manager = Manager(knowledgeFile: string, cached: Option<KnowledgeBase>, lastModified: Option<real>)

  /** The result of writing the file: its new modification time, or a failure. */
  datatype WriteOutcome = Written(mtime: real) | WriteFailed

  /** An operation's result together with the manager and the disk after it. */
  datatype Outcome<T> = Outcome(result: Result<T>, manager: Manager, disk: Disk)

  /** `os.path.getmtime`: `None` when it raises. */
  function FileTime(disk: Disk): Option<real> {
    if disk.Present? then disk.mtime else None
  }

  /** `_is_cache_valid`. */
  function IsCacheValid(m: Manager, disk: Disk): (ok: bool)
    ensures ok ==> m.cached.Some?
    ensures disk.Missing? || FileTime(disk).None? ==> !ok
    ensures m.cached.Some? && m.lastModified.Some? && FileTime(disk).Some? ==> (ok <==> FileTime(disk).value <= m.lastModified.value)
  {
    && m.cached.Some? && m.lastModified.Some?
    && FileTime(disk).Some? && FileTime(disk).value <= m.lastModified.value
  }

  /** `invalidate_cache`. */
  function InvalidateCache(m: Manager): (r: Manager)
    ensures forall disk :: !IsCacheValid(r, disk)
    ensures r.knowledgeFile == m.knowledgeFile
  {
    m.(cached := None, lastModified := None)
  }

  // ---------------------------------------------------------------------------
  // Loading
  // ---------------------------------------------------------------------------

  /** The metadata defaults `load_knowledge_base` adds: a missing category becomes
      "general", missing timestamps become `now`; present values are kept. */
  function FillMetadataDefaults(meta: Dict<Json>, now: Timestamp): (r: Dict<Json>)
    ensures forall k :: k in Keys(meta) ==> Get(r, k) == Get(meta, k)
    ensures forall k :: k != "category" && k != "created_at" && k != "updated_at" ==> Get(r, k) == Get(meta, k)
    ensures Get(r, "category") == if "category" in Keys(meta) then Get(meta, "category") else Some(JStr(DefaultCategory))
    ensures Get(r, "created_at") == if "created_at" in Keys(meta) then Get(meta, "created_at") else Some(JStr(now))
    ensures Get(r, "updated_at") == if "updated_at" in Keys(meta) then Get(meta, "updated_at") else Some(JStr(now))
  {
    SetDefault(SetDefault(SetDefault(meta, "category", JStr(DefaultCategory)), "created_at", JStr(now)), "updated_at", JStr(now))
  }

  /** `if k not in d: d[k] = v`: a present key keeps its value. */
  function SetDefault(d: Dict<Json>, k: string, v: Json): (r: Dict<Json>)
    ensures Get(r, k) == if k in Keys(d) then Get(d, k) else Some(v)
    ensures forall k' :: k' in Keys(d) || k' != k ==> Get(r, k') == Get(d, k')
  {
    if k in Keys(d) then d else Set(d, k, v)
  }

  /** Filling defaults twice is filling them once, whatever the clock says the second time. */
  lemma FillMetadataDefaultsIdempotent(meta: Dict<Json>, now: Timestamp, later: Timestamp)
    ensures FillMetadataDefaults(FillMetadataDefaults(meta, now), later) == FillMetadataDefaults(meta, now)
  {
    var once := FillMetadataDefaults(meta, now);
    assert Get(once, "category").Some? && Get(once, "created_at").Some? && Get(once, "updated_at").Some?;
  }

  /** The per-intent step: a missing `metadata` becomes `{}` before its defaults are
      filled; metadata that is not an object makes the load fail. */
  function FillIntentDefaults(item: Json, now: Timestamp): (r: Result<Json>)
    ensures r.Ok? <==> item.JObj? && (Get(item.members, "metadata").None? || Get(item.members, "metadata").value.JObj?)
    ensures r.Ok? ==> r.value.JObj?
    ensures r.Ok? ==> Get(r.value.members, "metadata") == Some(JObj(FillMetadataDefaults(
      if Get(item.members, "metadata").Some? then Get(item.members, "metadata").value.members else [], now)))
    ensures r.Ok? ==> forall k :: k != "metadata" ==> Get(r.value.members, k) == Get(item.members, k)
  {
    if !item.JObj? then Err(TypeError("intent is not an object"))
    else
      var meta := Get(item.members, "metadata");
      if meta.None? then Ok(JObj(Set(item.members, "metadata", JObj(FillMetadataDefaults([], now)))))
      else if meta.value.JObj? then Ok(JObj(Set(item.members, "metadata", JObj(FillMetadataDefaults(meta.value.members, now)))))
      else Err(TypeError("metadata is not an object"))
  }

  /** The loop over `data.get("intents", [])`. A document that is not an object fails;
      an `intents` value that is not a list is passed on unchanged for the decoder to
      reject, which ends in the same error. */
  function FillDefaults(data: Json, now: Timestamp): (r: Result<Json>)
    ensures r.Ok? ==> data.JObj? && r.value.JObj?
    ensures r.Ok? ==> forall k :: k != "intents" ==> Get(r.value.members, k) == Get(data.members, k)
    ensures r.Ok? && Get(data.members, "intents").Some? && Get(data.members, "intents").value.JArr? ==>
      var items := Get(data.members, "intents").value.items;
      && Get(r.value.members, "intents").Some? && Get(r.value.members, "intents").value.JArr?
      && var filled := Get(r.value.members, "intents").value.items;
      && |filled| == |items|
      && forall k :: 0 <= k < |items| ==> Ok(filled[k]) == FillIntentDefaults(items[k], now)
  {
    if !data.JObj? then Err(TypeError("knowledge base is not an object"))
    else
      var intents := Get(data.members, "intents");
      if intents.Some? && intents.value.JArr? then
        var filled := MapResult(intents.value.items, item => FillIntentDefaults(item, now));
        if filled.Err? then Err(filled.error)
        else Ok(JObj(Set(data.members, "intents", JArr(filled.value))))
      else Ok(data)
  }

  /** The part of `load_knowledge_base` after the cache check. */
  function LoadFromDisk(m: Manager, disk: Disk, now: Timestamp): (r: Outcome<KnowledgeBase>)
    ensures r.disk == disk
    ensures r.result.Err? ==> r.manager == m && r.result.error.ConfigurationError?
    ensures disk.Missing? ==> r.result == Err(ConfigurationError("Knowledge base file not found: " + m.knowledgeFile))
    ensures disk.Present? && disk.mtime.Some? && disk.document.Malformed? ==>
      r.result == Err(ConfigurationError("Invalid JSON in knowledge base"))
    ensures r.result.Ok? ==>
      && disk.Present? && disk.document.Parsed?
      && r.manager == m.(cached := Some(r.result.value), lastModified := FileTime(disk))
      && FillDefaults(disk.document.data, now).Ok?
      && DecodeKnowledgeBase(FillDefaults(disk.document.data, now).value) == r.result
  {
    match disk
    case Missing => Outcome(Err(ConfigurationError("Knowledge base file not found: " + m.knowledgeFile)), m, disk)
    case Present(mtime, document) =>
      if mtime.None? then Outcome(Err(ConfigurationError("Error loading knowledge base")), m, disk)
      else match document
        case Malformed => Outcome(Err(ConfigurationError("Invalid JSON in knowledge base")), m, disk)
        case Parsed(data) =>
          var filled := FillDefaults(data, now);
          if filled.Err? then Outcome(Err(ConfigurationError("Error loading knowledge base")), m, disk)
          else match DecodeKnowledgeBase(filled.value)
            case Err(_) => Outcome(Err(ConfigurationError("Error loading knowledge base")), m, disk)
            case Ok(kb) => Outcome(Ok(kb), m.(cached := Some(kb), lastModified := mtime), disk)
  }

  /** `load_knowledge_base`: the cached copy while it is valid, otherwise a fresh read. */
  function Load(m: Manager, disk: Disk, now: Timestamp): (r: Outcome<KnowledgeBase>)
    ensures r.disk == disk
    ensures IsCacheValid(m, disk) ==> r == Outcome(Ok(m.cached.value), m, disk)
    ensures !IsCacheValid(m, disk) ==> r == LoadFromDisk(m, disk, now)
  {
    if IsCacheValid(m, disk) then Outcome(Ok(m.cached.value), m, disk) else LoadFromDisk(m, disk, now)
  }

  /** After a successful load the cache is valid for the same file, so the next load
      answers from the cache without reading. */
  lemma LoadThenCached(m: Manager, disk: Disk, now: Timestamp, later: Timestamp)
    requires Load(m, disk, now).result.Ok?
    ensures var r := Load(m, disk, now);
      && IsCacheValid(r.manager, disk)
      && Load(r.manager, disk, later) == Outcome(r.result, r.manager, disk)
  {
  }

  /** A file modified after the recorded time is read again. */
  lemma NewerFileIsReread(m: Manager, disk: Disk, now: Timestamp)
    requires m.lastModified.Some? && FileTime(disk).Some? && FileTime(disk).value > m.lastModified.value
    ensures Load(m, disk, now) == LoadFromDisk(m, disk, now)
  {
  }

  /** The load the other operations perform when nothing is cached (`if not self.knowledge_base`). */
  function Ensure(m: Manager, disk: Disk, now: Timestamp): (r: Outcome<KnowledgeBase>)
    ensures r.disk == disk
    ensures m.cached.Some? ==> r == Outcome(Ok(m.cached.value), m, disk)
    ensures m.cached.None? ==> r == LoadFromDisk(m, disk, now)
    ensures r.result.Ok? ==> r.manager.cached == Some(r.result.value)
  {
    if m.cached.Some? then Outcome(Ok(m.cached.value), m, disk) else Load(m, disk, now)
  }

  // ---------------------------------------------------------------------------
  // Saving
  // ---------------------------------------------------------------------------

  /** Every intent's `updated_at` set to `now`, as `save_knowledge_base` does first. */
  function StampUpdated(kb: KnowledgeBase, now: Timestamp): (r: KnowledgeBase)
    ensures |r.intents| == |kb.intents| && r.metadata == kb.metadata && r.version == kb.version
    ensures forall k :: 0 <= k < |kb.intents| ==>
      r.intents[k] == kb.intents[k].(metadata := kb.intents[k].metadata.(updatedAt := Some(now)))
  {
    kb.(intents := seq(|kb.intents|, k requires 0 <= k < |kb.intents| =>
      kb.intents[k].(metadata := kb.intents[k].metadata.(updatedAt := Some(now)))))
  }

  /** `save_knowledge_base` applied to the cached copy: the timestamps are stamped on the
      cached copy itself, so a failed write leaves the change in the cache while the
      recorded modification time stays as it was. */
  function Commit(m: Manager, disk: Disk, kb: KnowledgeBase, now: Timestamp, write: WriteOutcome): (r: Outcome<()>)
    ensures r.manager.cached == Some(StampUpdated(kb, now))
    ensures r.manager.knowledgeFile == m.knowledgeFile
    ensures write.WriteFailed? ==>
      r.result == Err(ConfigurationError("Error saving knowledge base")) && r.disk == disk && r.manager.lastModified == m.lastModified
    ensures write.Written? ==>
      && r.result == Ok(())
      && r.manager.lastModified == Some(write.mtime)
      && r.disk == Present(Some(write.mtime), Parsed(EncodeKnowledgeBase(StampUpdated(kb, now))))
  {
    var stamped := StampUpdated(kb, now);
    match write
    case WriteFailed => Outcome(Err(ConfigurationError("Error saving knowledge base")), m.(cached := Some(stamped)), disk)
    case Written(t) =>
      Outcome(Ok(()), m.(cached := Some(stamped), lastModified := Some(t)), Present(Some(t), Parsed(EncodeKnowledgeBase(stamped))))
  }

  /** What a save writes is read back as the same knowledge base, even with the cache
      dropped: the written metadata already holds every key the loader would fill. */
  lemma SaveThenReload(m: Manager, disk: Disk, kb: KnowledgeBase, now: Timestamp, t: real, later: Timestamp)
    requires UniqueIds(kb.intents)
    requires forall k :: 0 <= k < |kb.intents| ==> CanonicalIntent(kb.intents[k])
    ensures var r := Commit(m, disk, kb, now, Written(t));
      Load(InvalidateCache(r.manager), r.disk, later).result == Ok(StampUpdated(kb, now))
  {
    var stamped := StampUpdated(kb, now);
    var r := Commit(m, disk, kb, now, Written(t));
    EncodedNeedsNoDefaults(stamped, later);
    StampKeepsValid(kb, now);
    KnowledgeBaseRoundTrip(stamped);
    ReadBackParsed(InvalidateCache(r.manager), t, EncodeKnowledgeBase(stamped), stamped, later);
  }

  /** A parsed document that needs no defaults and decodes is what a load without a
      valid cache returns. */
  lemma ReadBackParsed(m: Manager, t: real, j: Json, kb: KnowledgeBase, now: Timestamp)
    requires !IsCacheValid(m, Present(Some(t), Parsed(j)))
    requires FillDefaults(j, now) == Ok(j) && DecodeKnowledgeBase(j) == Ok(kb)
    ensures Load(m, Present(Some(t), Parsed(j)), now).result == Ok(kb)
  {
  }

  /** Stamping keeps every intent canonical and the ids unique. */
  lemma StampKeepsValid(kb: KnowledgeBase, now: Timestamp)
    requires UniqueIds(kb.intents)
    requires forall k :: 0 <= k < |kb.intents| ==> CanonicalIntent(kb.intents[k])
    ensures UniqueIds(StampUpdated(kb, now).intents)
    ensures forall k :: 0 <= k < |kb.intents| ==> CanonicalIntent(StampUpdated(kb, now).intents[k])
  {
    var stamped := StampUpdated(kb, now);
    forall i, j | 0 <= i < j < |stamped.intents| ensures stamped.intents[i].id != stamped.intents[j].id {
      assert stamped.intents[i].id == kb.intents[i].id;
    }
    forall k | 0 <= k < |stamped.intents| ensures CanonicalIntent(stamped.intents[k]) {
      StampKeepsCanonical(kb.intents[k], now);
    }
  }

  lemma StampKeepsCanonical(i: Intent, now: Timestamp)
    requires CanonicalIntent(i)
    ensures CanonicalIntent(i.(metadata := i.metadata.(updatedAt := Some(now))))
  {
  }

  /** Every written intent already carries `metadata` with its three defaulted keys. */
  lemma EncodedNeedsNoDefaults(kb: KnowledgeBase, now: Timestamp)
    ensures FillDefaults(EncodeKnowledgeBase(kb), now) == Ok(EncodeKnowledgeBase(kb))
  {
    var j := EncodeKnowledgeBase(kb);
    var items := EncodeIntents(kb.intents);
    assert Get(j.members, "intents") == Some(JArr(items)) by { GetFirst(j.members, 0, "intents"); }
    forall k | 0 <= k < |items| ensures FillIntentDefaults(items[k], now) == Ok(items[k]) {
      EncodedIntentNeedsNoDefaults(kb.intents[k], now);
    }
    MapResultAllOk(items, item => FillIntentDefaults(item, now), items);
    SetSameValue(j.members, "intents", JArr(items));
  }

  lemma EncodedIntentNeedsNoDefaults(i: Intent, now: Timestamp)
    ensures FillIntentDefaults(EncodeIntent(i), now) == Ok(EncodeIntent(i))
  {
    var fields := EncodeIntent(i).members;
    var meta := EncodeMetadata(i.metadata).members;
    assert Get(fields, "metadata") == Some(JObj(meta)) by { GetFirst(fields, 3, "metadata"); }
    assert "category" in Keys(meta) by { GetFirst(meta, 0, "category"); }
    assert "created_at" in Keys(meta) by { GetFirst(meta, 4, "created_at"); }
    assert "updated_at" in Keys(meta) by { GetFirst(meta, 5, "updated_at"); }
    SetSameValue(fields, "metadata", JObj(meta));
  }

  // ---------------------------------------------------------------------------
  // Intents
  // ---------------------------------------------------------------------------

  /** Position of the first intent with the given id. */
  function FirstIndex(intents: seq<Intent>, id: string): (r: Option<nat>)
    ensures r.None? <==> forall k :: 0 <= k < |intents| ==> intents[k].id != id
    ensures r.Some? ==> r.value < |intents| && intents[r.value].id == id
    ensures r.Some? ==> forall k :: 0 <= k < r.value ==> intents[k].id != id
  {
    if intents == [] then None
    else if intents[0].id == id then Some(0)
    else
      var rest := FirstIndex(intents[1..], id);
      assert forall k :: 1 <= k < |intents| ==> intents[k] == intents[1..][k - 1];
      if rest.None? then None else Some(rest.value + 1)
  }

  /** The lookup of `get_intent`: the first intent with the id. */
  function FindIntent(intents: seq<Intent>, id: string): (r: Option<Intent>)
    ensures r.None? <==> forall k :: 0 <= k < |intents| ==> intents[k].id != id
    ensures r.Some? ==> r.value.id == id
    ensures r.Some? ==> exists i :: 0 <= i < |intents| && intents[i] == r.value && (forall k :: 0 <= k < i ==> intents[k].id != id)
  {
    var i := FirstIndex(intents, id);
    if i.None? then None else Some(intents[i.value])
  }

  /** The intent as stored: everything as given, with the two timestamps set. */
  function WithTimes(intent: Intent, created: Option<Timestamp>, now: Timestamp): Intent {
    intent.(metadata := intent.metadata.(createdAt := created, updatedAt := Some(now)))
  }

  /** `add_intent` on the knowledge base itself: an id already present is refused;
      otherwise the intent, with `now` as its creation and update time, goes last. */
  function InsertIntent(kb: KnowledgeBase, intent: Intent, now: Timestamp): (r: Result<KnowledgeBase>)
    ensures r.Err? <==> exists k :: 0 <= k < |kb.intents| && kb.intents[k].id == intent.id
    ensures r.Err? ==> r.error == ValueError("Intent with ID '" + intent.id + "' already exists")
    ensures r.Ok? ==>
      && |r.value.intents| == |kb.intents| + 1
      && r.value.intents[..|kb.intents|] == kb.intents
      && r.value.intents[|kb.intents|].id == intent.id
      && r.value.intents[|kb.intents|].patterns == intent.patterns
      && r.value.intents[|kb.intents|].responses == intent.responses
      && r.value.intents[|kb.intents|].metadata.createdAt == Some(now)
      && r.value.intents[|kb.intents|].metadata.updatedAt == Some(now)
      && r.value.metadata == kb.metadata && r.value.version == kb.version
    ensures r.Ok? ==> r.value.intents[|kb.intents|] == WithTimes(intent, Some(now), now)
  {
    if FirstIndex(kb.intents, intent.id).Some? then
      Err(ValueError("Intent with ID '" + intent.id + "' already exists"))
    else
      var stamped := WithTimes(intent, Some(now), now);
      assert (kb.intents + [stamped])[..|kb.intents|] == kb.intents;
      Ok(kb.(intents := kb.intents + [stamped]))
  }

  /** `update_intent` on the knowledge base itself: the first intent with the id is
      replaced in place by the update, which keeps the old creation time when there was
      one and takes `now` as its update time; an unknown id is refused. */
  function ReplaceIntent(kb: KnowledgeBase, intentId: string, updated: Intent, now: Timestamp): (r: Result<KnowledgeBase>)
    ensures r.Err? <==> forall k :: 0 <= k < |kb.intents| ==> kb.intents[k].id != intentId
    ensures r.Err? ==> r.error == ValueError("Intent with ID '" + intentId + "' not found")
    ensures r.Ok? ==>
      var i := FirstIndex(kb.intents, intentId).value;
      var after := r.value.intents;
      && |after| == |kb.intents|
      && after[i].id == updated.id && after[i].patterns == updated.patterns && after[i].responses == updated.responses
      && after[i].metadata.category == updated.metadata.category
      && after[i].metadata.createdAt == (if kb.intents[i].metadata.createdAt.Some? then kb.intents[i].metadata.createdAt else updated.metadata.createdAt)
      && after[i].metadata.updatedAt == Some(now)
      && (forall k :: 0 <= k < |after| && k != i ==> after[k] == kb.intents[k])
      && r.value.metadata == kb.metadata && r.value.version == kb.version
    ensures r.Ok? ==>
      var previous := kb.intents[FirstIndex(kb.intents, intentId).value];
      r.value.intents[FirstIndex(kb.intents, intentId).value]
        == WithTimes(updated, if previous.metadata.createdAt.Some? then previous.metadata.createdAt else updated.metadata.createdAt, now)
  {
    match FirstIndex(kb.intents, intentId)
    case None => Err(ValueError("Intent with ID '" + intentId + "' not found"))
    case Some(i) =>
      var previous := kb.intents[i];
      var created := if previous.metadata.createdAt.Some? then previous.metadata.createdAt else updated.metadata.createdAt;
      Ok(kb.(intents := kb.intents[i := WithTimes(updated, created, now)]))
  }

  predicate HasOtherId(intent: Intent, id: string) {
    intent.id != id
  }

  /** The filter `delete_intent` applies. */
  function OtherThan(id: string): Intent -> bool {
    intent => HasOtherId(intent, id)
  }

  /** `delete_intent` on the knowledge base itself: every intent with the id goes, the
      others stay in order; refused when no intent has the id. */
  function RemoveIntent(kb: KnowledgeBase, intentId: string): (r: Result<KnowledgeBase>)
    ensures r.Err? <==> forall k :: 0 <= k < |kb.intents| ==> kb.intents[k].id != intentId
    ensures r.Err? ==> r.error == ValueError("Intent with ID '" + intentId + "' not found")
    ensures r.Ok? ==>
      && |r.value.intents| < |kb.intents|
      && (forall k :: 0 <= k < |r.value.intents| ==> r.value.intents[k].id != intentId && r.value.intents[k] in kb.intents)
      && (forall k :: 0 <= k < |kb.intents| && kb.intents[k].id != intentId ==> kb.intents[k] in r.value.intents)
      && r.value.metadata == kb.metadata && r.value.version == kb.version
    ensures r.Ok? ==> r.value.intents == Filter(kb.intents, OtherThan(intentId))
  {
    var remaining := Filter(kb.intents, OtherThan(intentId));
    FilterKeepsAll(kb.intents, OtherThan(intentId));
    if |remaining| == |kb.intents| then Err(ValueError("Intent with ID '" + intentId + "' not found"))
    else Ok(kb.(intents := remaining))
  }

  /** Stamping update times changes no id. */
  lemma StampKeepsIds(kb: KnowledgeBase, now: Timestamp)
    ensures Ids(StampUpdated(kb, now).intents) == Ids(kb.intents)
  {
  }

  /** Adding keeps the ids unique. */
  lemma InsertKeepsUnique(kb: KnowledgeBase, intent: Intent, now: Timestamp)
    requires UniqueIds(kb.intents)
    requires InsertIntent(kb, intent, now).Ok?
    ensures UniqueIds(InsertIntent(kb, intent, now).value.intents)
  {
    var after := InsertIntent(kb, intent, now).value.intents;
    forall i, j | 0 <= i < j < |after| ensures after[i].id != after[j].id {
      assert after[i] == kb.intents[i];
      if j < |kb.intents| {
        assert after[j] == kb.intents[j];
      }
    }
  }

  /** Deleting keeps the ids unique: what remains is a subsequence. */
  lemma RemoveKeepsUnique(kb: KnowledgeBase, intentId: string)
    requires UniqueIds(kb.intents)
    requires RemoveIntent(kb, intentId).Ok?
    ensures UniqueIds(RemoveIntent(kb, intentId).value.intents)
  {
    FilterKeepsUnique(kb.intents, OtherThan(intentId));
  }

  lemma {:induction false} FilterKeepsUnique(s: seq<Intent>, p: Intent -> bool)
    requires UniqueIds(s)
    ensures UniqueIds(Filter(s, p))
  {
    if s != [] {
      FilterKeepsUnique(s[1..], p);
      var t := Filter(s[1..], p);
      forall x | x in t ensures x.id != s[0].id {
        var k :| 0 <= k < |s[1..]| && s[1..][k] == x;
        assert s[k + 1] == x;
      }
    }
  }

  /** An added intent is found again under its id, with what was given. */
  lemma InsertThenFind(kb: KnowledgeBase, intent: Intent, now: Timestamp)
    requires InsertIntent(kb, intent, now).Ok?
    ensures var found := FindIntent(InsertIntent(kb, intent, now).value.intents, intent.id);
      && found.Some? && found.value.patterns == intent.patterns && found.value.responses == intent.responses
      && found.value.metadata.createdAt == Some(now)
    ensures FindIntent(InsertIntent(kb, intent, now).value.intents, intent.id) == Some(WithTimes(intent, Some(now), now))
  {
    var after := InsertIntent(kb, intent, now).value.intents;
    assert forall k :: 0 <= k < |kb.intents| ==> after[k] == kb.intents[k];
    assert FirstIndex(after, intent.id) == Some(|kb.intents|);
  }

  /** An intent updated under its own id is found again as the update, stamped with
      `now` and keeping the creation time of the intent it replaced when that had one. */
  lemma UpdateThenFind(kb: KnowledgeBase, intentId: string, updated: Intent, now: Timestamp)
    requires ReplaceIntent(kb, intentId, updated, now).Ok? && updated.id == intentId
    ensures FindIntent(kb.intents, intentId).Some?
    ensures var previous := FindIntent(kb.intents, intentId).value;
      FindIntent(ReplaceIntent(kb, intentId, updated, now).value.intents, intentId)
        == Some(WithTimes(updated, if previous.metadata.createdAt.Some? then previous.metadata.createdAt else updated.metadata.createdAt, now))
  {
    var i := FirstIndex(kb.intents, intentId).value;
    var after := ReplaceIntent(kb, intentId, updated, now).value.intents;
    assert forall k :: 0 <= k < i ==> after[k] == kb.intents[k];
    assert FirstIndex(after, intentId) == Some(i);
  }

  /** A deleted id is no longer found. */
  lemma RemoveThenFind(kb: KnowledgeBase, intentId: string)
    requires RemoveIntent(kb, intentId).Ok?
    ensures FindIntent(RemoveIntent(kb, intentId).value.intents, intentId).None?
  {
  }

  /** Removing an id just added gives back the knowledge base as it was. */
  lemma InsertThenRemove(kb: KnowledgeBase, intent: Intent, now: Timestamp)
    requires InsertIntent(kb, intent, now).Ok?
    ensures RemoveIntent(InsertIntent(kb, intent, now).value, intent.id) == Ok(kb)
  {
    var after := InsertIntent(kb, intent, now).value.intents;
    var p := OtherThan(intent.id);
    FilterKeepsAll(kb.intents, p);
    FilterAppendOne(kb.intents, after[|kb.intents|], p);
    assert after == kb.intents + [after[|kb.intents|]];
    assert Filter(after, p) == kb.intents;
  }

  // ---------------------------------------------------------------------------
  // The manager's operations
  // ---------------------------------------------------------------------------

  /** A change to the cached copy, saved when it is allowed; a refused change leaves
      manager and disk alone. */
  function Apply(m: Manager, disk: Disk, change: Result<KnowledgeBase>, now: Timestamp, write: WriteOutcome): (r: Outcome<()>)
    ensures change.Err? ==> r == Outcome(Err(change.error), m, disk)
    ensures change.Ok? ==> r.manager.cached == Some(StampUpdated(change.value, now))
    ensures change.Ok? && write.Written? ==> r.result.Ok? && IsCacheValid(r.manager, r.disk)
  {
    if change.Err? then Outcome(Err(change.error), m, disk) else Commit(m, disk, change.value, now, write)
  }

  /** `add_intent`. */
  function AddIntent(m: Manager, disk: Disk, intent: Intent, now: Timestamp, write: WriteOutcome): (r: Outcome<()>)
    ensures Ensure(m, disk, now).result.Err? ==> r.result.Err? && r.disk == disk
    ensures Ensure(m, disk, now).result.Ok? ==>
      r == Apply(Ensure(m, disk, now).manager, disk, InsertIntent(Ensure(m, disk, now).result.value, intent, now), now, write)
  {
    var e := Ensure(m, disk, now);
    if e.result.Err? then Outcome(Err(e.result.error), e.manager, disk)
    else Apply(e.manager, disk, InsertIntent(e.result.value, intent, now), now, write)
  }

  /** `update_intent`. */
  function UpdateIntent(m: Manager, disk: Disk, intentId: string, updated: Intent, now: Timestamp, write: WriteOutcome): (r: Outcome<()>)
    ensures Ensure(m, disk, now).result.Err? ==> r.result.Err? && r.disk == disk
    ensures Ensure(m, disk, now).result.Ok? ==>
      r == Apply(Ensure(m, disk, now).manager, disk, ReplaceIntent(Ensure(m, disk, now).result.value, intentId, updated, now), now, write)
  {
    var e := Ensure(m, disk, now);
    if e.result.Err? then Outcome(Err(e.result.error), e.manager, disk)
    else Apply(e.manager, disk, ReplaceIntent(e.result.value, intentId, updated, now), now, write)
  }

  /** `delete_intent`. */
  function DeleteIntent(m: Manager, disk: Disk, intentId: string, now: Timestamp, write: WriteOutcome): (r: Outcome<()>)
    ensures Ensure(m, disk, now).result.Err? ==> r.result.Err? && r.disk == disk
    ensures Ensure(m, disk, now).result.Ok? ==>
      r == Apply(Ensure(m, disk, now).manager, disk, RemoveIntent(Ensure(m, disk, now).result.value, intentId), now, write)
  {
    var e := Ensure(m, disk, now);
    if e.result.Err? then Outcome(Err(e.result.error), e.manager, disk)
    else Apply(e.manager, disk, RemoveIntent(e.result.value, intentId), now, write)
  }

  /** `get_intent`. */
  function GetIntent(m: Manager, disk: Disk, intentId: string, now: Timestamp): (r: Outcome<Option<Intent>>)
    ensures r.manager == Ensure(m, disk, now).manager && r.disk == disk
    ensures Ensure(m, disk, now).result.Ok? ==> r.result == Ok(FindIntent(Ensure(m, disk, now).result.value.intents, intentId))
  {
    var e := Ensure(m, disk, now);
    if e.result.Err? then Outcome(Err(e.result.error), e.manager, disk)
    else Outcome(Ok(FindIntent(e.result.value.intents, intentId)), e.manager, disk)
  }

  /** Through the manager: once an add has been saved, the intent is served from the
      cache under its id. */
  lemma AddThenGet(m: Manager, disk: Disk, intent: Intent, now: Timestamp, t: real, later: Timestamp)
    requires Ensure(m, disk, now).result.Ok?
    requires InsertIntent(Ensure(m, disk, now).result.value, intent, now).Ok?
    ensures var r := AddIntent(m, disk, intent, now, Written(t));
      var found := GetIntent(r.manager, r.disk, intent.id, later).result;
      && r.result.Ok?
      && found.Ok? && found.value.Some? && found.value.value.patterns == intent.patterns
      && found.value.value.metadata.createdAt == Some(now)
    ensures var r := AddIntent(m, disk, intent, now, Written(t));
      GetIntent(r.manager, r.disk, intent.id, later).result == Ok(Some(WithTimes(intent, Some(now), now)))
  {
    var kb := Ensure(m, disk, now).result.value;
    SavedInsertFound(kb, intent, now);
    var r := AddIntent(m, disk, intent, now, Written(t));
    assert r.manager.cached == Some(StampUpdated(InsertIntent(kb, intent, now).value, now));
  }

  /** The saved copy of a base with an intent just added still finds that intent, as
      added: saving stamps `updated_at` with the same `now`. */
  lemma SavedInsertFound(kb: KnowledgeBase, intent: Intent, now: Timestamp)
    requires InsertIntent(kb, intent, now).Ok?
    ensures FindIntent(StampUpdated(InsertIntent(kb, intent, now).value, now).intents, intent.id)
         == Some(WithTimes(intent, Some(now), now))
  {
    var added := InsertIntent(kb, intent, now).value;
    var stamped := StampUpdated(added, now);
    assert FirstIndex(added.intents, intent.id) == Some(|kb.intents|) by {
      assert forall k :: 0 <= k < |kb.intents| ==> added.intents[k] == kb.intents[k];
    }
    assert FirstIndex(stamped.intents, intent.id) == Some(|kb.intents|) by {
      StampKeepsIds(added, now);
      FirstIndexOnIds(stamped.intents, added.intents, intent.id);
    }
    assert stamped.intents[|kb.intents|] == WithTimes(intent, Some(now), now);
  }

  lemma {:induction false} FirstIndexOnIds(a: seq<Intent>, b: seq<Intent>, id: string)
    requires Ids(a) == Ids(b)
    ensures FirstIndex(a, id) == FirstIndex(b, id)
  {
    if a != [] {
      assert Ids(a[1..]) == Ids(b[1..]) by {
        assert forall k :: 0 <= k < |a| - 1 ==> Ids(a[1..])[k] == Ids(a)[k + 1];
      }
      FirstIndexOnIds(a[1..], b[1..], id);
    }
  }

  /** `get_all_intents`. */
  function GetAllIntents(m: Manager, disk: Disk, now: Timestamp): (r: Outcome<seq<Intent>>)
    ensures r.manager == Ensure(m, disk, now).manager && r.disk == disk
    ensures r.result.Ok? <==> Ensure(m, disk, now).result.Ok?
    ensures r.result.Ok? ==> r.result.value == Ensure(m, disk, now).result.value.intents
  {
    var e := Ensure(m, disk, now);
    if e.result.Err? then Outcome(Err(e.result.error), e.manager, disk)
    else Outcome(Ok(e.result.value.intents), e.manager, disk)
  }

  predicate SameCategory(intent: Intent, category: string) {
    Lower(intent.metadata.category) == Lower(category)
  }

  /** The test `get_intents_by_category` filters with. */
  function OfCategory(category: string): Intent -> bool {
    intent => SameCategory(intent, category)
  }

  /** The selection of `get_intents_by_category`: the intents whose category equals the
      argument up to letter case, in knowledge-base order. */
  function InCategory(intents: seq<Intent>, category: string): (r: seq<Intent>)
    ensures forall k :: 0 <= k < |r| ==> r[k] in intents && SameCategory(r[k], category)
    ensures forall k :: 0 <= k < |intents| && SameCategory(intents[k], category) ==> intents[k] in r
    ensures r == Filter(intents, OfCategory(category))
  {
    if intents == [] then []
    else
      var rest := InCategory(intents[1..], category);
      assert forall x :: x in intents[1..] ==> x in intents;
      assert OfCategory(category)(intents[0]) == SameCategory(intents[0], category);
      assert Filter(intents, OfCategory(category))
          == (if SameCategory(intents[0], category) then [intents[0]] else []) + Filter(intents[1..], OfCategory(category));
      if SameCategory(intents[0], category) then [intents[0]] + rest else rest
  }

  /** Lower-casing the argument first changes nothing. */
  lemma {:induction false} InCategoryIgnoresCase(intents: seq<Intent>, category: string)
    ensures InCategory(intents, category) == InCategory(intents, Lower(category))
  {
    LowerIdempotent(category);
    if intents != [] {
      InCategoryIgnoresCase(intents[1..], category);
    }
  }

  lemma LowerIdempotent(s: string)
    ensures Lower(Lower(s)) == Lower(s)
  {
    LowerIsLower(s);
    LowerIsLower(Lower(s));
  }

  /** `get_intents_by_category`. */
  function GetIntentsByCategory(m: Manager, disk: Disk, category: string, now: Timestamp): (r: Outcome<seq<Intent>>)
    ensures r.manager == Ensure(m, disk, now).manager && r.disk == disk
    ensures Ensure(m, disk, now).result.Ok? ==>
      r.result == Ok(InCategory(Ensure(m, disk, now).result.value.intents, category))
  {
    var e := Ensure(m, disk, now);
    if e.result.Err? then Outcome(Err(e.result.error), e.manager, disk)
    else Outcome(Ok(InCategory(e.result.value.intents, category)), e.manager, disk)
  }

  // ---------------------------------------------------------------------------
  // Statistics
  // ---------------------------------------------------------------------------

  datatype CacheStatus = CacheStatus(
    isCached: bool,
    cacheValid: bool,
    fileExists: bool,
    cachedFileTime: Option<real>,
    currentFileTime: Option<real>,
    cacheOutdated: bool)

  /** `get_cache_status`. */
  function GetCacheStatus(m: Manager, disk: Disk): (s: CacheStatus)
    ensures s.cacheValid <==> s.isCached && s.cachedFileTime.Some? && s.currentFileTime.Some? && !s.cacheOutdated
    ensures s.cacheOutdated ==> s.fileExists && !s.cacheValid
    ensures s.currentFileTime.Some? ==> s.fileExists
    ensures s.isCached <==> m.cached.Some?
    ensures s.fileExists <==> disk.Present?
    ensures s.cachedFileTime == m.lastModified
    ensures s.currentFileTime == (if disk.Present? then disk.mtime else None)
    ensures s.cacheValid <==> IsCacheValid(m, disk)
    ensures s.cacheOutdated <==> m.lastModified.Some? && disk.Present? && disk.mtime.Some? && disk.mtime.value > m.lastModified.value
  {
    var current := FileTime(disk);
    CacheStatus(m.cached.Some?, IsCacheValid(m, disk), disk.Present?, m.lastModified, current,
      current.Some? && m.lastModified.Some? && current.value > m.lastModified.value)
  }

  /** After a successful load the status reports a valid, current cache of an existing file. */
  lemma StatusAfterLoad(m: Manager, disk: Disk, now: Timestamp)
    requires Load(m, disk, now).result.Ok?
    ensures var s := GetCacheStatus(Load(m, disk, now).manager, disk);
      s.isCached && s.cacheValid && s.fileExists && !s.cacheOutdated
  {
    LoadThenCached(m, disk, now, now);
  }

  /** After `invalidate_cache` nothing is reported cached or valid. */
  lemma StatusAfterInvalidate(m: Manager, disk: Disk)
    ensures var s := GetCacheStatus(InvalidateCache(m), disk);
      !s.isCached && !s.cacheValid && s.cachedFileTime.None? && !s.cacheOutdated
  {
  }

  /** Number of intents with the given category. */
  function CountCategory(intents: seq<Intent>, category: string): (n: nat)
    ensures n <= |intents|
    ensures n == 0 <==> forall i :: 0 <= i < |intents| ==> intents[i].metadata.category != category
    ensures n == |intents| <==> forall i :: 0 <= i < |intents| ==> intents[i].metadata.category == category
  {
    if intents == [] then 0
    else CountCategory(intents[..|intents| - 1], category) + (if intents[|intents| - 1].metadata.category == category then 1 else 0)
  }

  function SumValues(d: Dict<int>): int {
    if d == [] then 0 else d[0].1 + SumValues(d[1..])
  }

  /** The `categories` dictionary of `get_stats`, built in knowledge-base order. */
  function CountCategories(intents: seq<Intent>): (counts: Dict<int>)
    ensures forall c :: GetOr(counts, c, 0) == CountCategory(intents, c)
    ensures SumValues(counts) == |intents|
  {
    if intents == [] then []
    else
      var prefix := intents[..|intents| - 1];
      var d := CountCategories(prefix);
      var c := intents[|intents| - 1].metadata.category;
      SumAfterSet(d, c, GetOr(d, c, 0) + 1);
      Set(d, c, GetOr(d, c, 0) + 1)
  }

  lemma {:induction false} SumAfterSet(d: Dict<int>, k: string, v: int)
    ensures SumValues(Set(d, k, v)) + GetOr(d, k, 0) == SumValues(d) + v
  {
    if d != [] && d[0].0 != k {
      SumAfterSet(d[1..], k, v);
      assert Set(d, k, v)[1..] == Set(d[1..], k, v);
    } else if d != [] {
      assert Set(d, k, v)[1..] == d[1..];
    }
  }

  function TotalPatterns(intents: seq<Intent>): (n: nat)
    ensures forall i :: 0 <= i < |intents| ==> |intents[i].patterns| <= n
    ensures n == 0 <==> forall i :: 0 <= i < |intents| ==> intents[i].patterns == []
  {
    if intents == [] then 0 else |intents[0].patterns| + TotalPatterns(intents[1..])
  }

  function TotalResponses(intents: seq<Intent>): (n: nat)
    ensures forall i :: 0 <= i < |intents| ==> intents[i].responses.Length() <= n
    ensures n == 0 <==> forall i :: 0 <= i < |intents| ==> intents[i].responses.Length() == 0
  {
    if intents == [] then 0 else intents[0].responses.Length() + TotalResponses(intents[1..])
  }

  /** The sums of `get_stats` add up over a split of the knowledge base. */
  lemma {:induction false} TotalsSplit(a: seq<Intent>, b: seq<Intent>)
    ensures TotalPatterns(a + b) == TotalPatterns(a) + TotalPatterns(b)
    ensures TotalResponses(a + b) == TotalResponses(a) + TotalResponses(b)
  {
    if a != [] {
      assert (a + b)[0] == a[0];
      assert (a + b)[1..] == a[1..] + b;
      TotalsSplit(a[1..], b);
    } else {
      assert a + b == b;
    }
  }

  /** The dictionary key of `get_stats`: the category exactly as stored, with no case
      folding (unlike `get_intents_by_category`). */
  function HasCategory(category: string): Intent -> bool {
    (intent: Intent) => intent.metadata.category == category
  }

  /** A category's count is the number of intents carrying exactly that category. */
  lemma {:induction false} CountCategoryIsFiltered(intents: seq<Intent>, category: string)
    ensures CountCategory(intents, category) == |Filter(intents, HasCategory(category))|
  {
    if intents != [] {
      var init := intents[..|intents| - 1];
      var last := intents[|intents| - 1];
      assert intents == init + [last];
      CountCategoryIsFiltered(init, category);
      FilterAppendOne(init, last, HasCategory(category));
    }
  }

  datatype Stats = Stats(
    totalIntents: nat,
    totalPatterns: nat,
    totalResponses: nat,
    categories: Dict<int>,
    version: string,
    cacheStatus: CacheStatus)

  /** `get_stats`: totals over the intents, the per-category counts and the cache status. */
  function GetStats(m: Manager, disk: Disk, now: Timestamp): (r: Outcome<Stats>)
    ensures var e := Ensure(m, disk, now);
      && r.manager == e.manager && r.disk == disk
      && (e.result.Err? ==> r.result == Err(e.result.error))
      && (e.result.Ok? ==> r.result.Ok?)
      && (e.result.Ok? ==>
            var s := r.result.value;
            var intents := e.result.value.intents;
            && s.totalIntents == |intents|
            && SumValues(s.categories) == s.totalIntents
            && (forall c :: GetOr(s.categories, c, 0) == CountCategory(intents, c))
            && s.totalPatterns == TotalPatterns(intents) && s.totalResponses == TotalResponses(intents)
            && s.version == e.result.value.version
            && s.cacheStatus == GetCacheStatus(e.manager, disk))
  {
    var e := Ensure(m, disk, now);
    if e.result.Err? then Outcome(Err(e.result.error), e.manager, disk)
    else
      var kb := e.result.value;
      Outcome(Ok(Stats(|kb.intents|, TotalPatterns(kb.intents), TotalResponses(kb.intents),
        CountCategories(kb.intents), kb.version, GetCacheStatus(e.manager, disk))), e.manager, disk)
  }

  /** Adding an intent to a stored knowledge base that has room adds one to its
      category's count and leaves every other count alone. */
  lemma CountCategoryAppend(intents: seq<Intent>, x: Intent, c: string)
    ensures CountCategory(intents + [x], c) == CountCategory(intents, c) + (if x.metadata.category == c then 1 else 0)
  {
    assert (intents + [x])[..|intents|] == intents;
  }
}

=== FILE: retrieval.dfy ===
/** What the vector store holds and returns, shared by the Chroma adapter
    (`src/services/vector_store/chroma_store.py`) and both search services: the
    metadata stored with each indexed pattern, a query's raw columns, and their
    formatting into hits. The embedding store itself is an external backend: its
    answers are parameters. */
module Retrieval {
  import opened Common
  import opened Strings
  import opened IntentModel
  import opened TextProcessor

  /** The `responses` metadata entry: `json.dumps` of an intent's response list, or
      text that does not parse as one. */
  datatype StoredResponses = Dumped(responses: Responses) | Unparseable

  /** The metadata stored with one pattern; `None` is an absent key. */
  datatype HitMetadata = HitMetadata(
    intentId: Option<string>,
    kind: Option<string>,
    category: Option<string>,
    confidenceThreshold: Option<Value>,
    responses: Option<StoredResponses>,
    originalText: Option<string>,
    processedText: Option<string>,
    keywords: Option<seq<string>>,
    sourceLanguage: Option<string>,
    sourceCollection: Option<string>,
    intentTags: Option<seq<string>>,
    intentPriority: Option<int>)

  /** A record handed to the store's `add`. */
  datatype Record = Record(id: string, vector: seq<real>, text: string, metadata: HitMetadata)

  /** One formatted search result. */
  datatype Hit = Hit(id: string, text: string, metadata: HitMetadata, score: real, distance: real)

  /** The columns a query returns for its single query vector. */
  datatype QueryColumns = QueryColumns(ids: seq<string>, documents: seq<string>, metadatas: seq<HitMetadata>, distances: seq<real>)

  /** Whether every column has an entry for every id. */
  predicate Aligned(c: QueryColumns) {
    |c.documents| >= |c.ids| && |c.metadatas| >= |c.ids| && |c.distances| >= |c.ids|
  }

  /** The formatting loop over `results["ids"][0]`: entry `i` pairs the i-th id,
      document, metadata and distance, with the score the caller derives from the
      distance. No ids give no hits; a column shorter than the ids is the `IndexError`
      the caller turns into its own error (`None`). */
  function FormatHits(c: QueryColumns, similarity: real -> real): (r: Option<seq<Hit>>)
    ensures r.None? <==> |c.ids| > 0 && !Aligned(c)
    ensures r.Some? ==> |r.value| == |c.ids|
    ensures r.Some? ==> forall i :: 0 <= i < |c.ids| ==>
      r.value[i] == Hit(c.ids[i], c.documents[i], c.metadatas[i], similarity(c.distances[i]), c.distances[i])
  {
    if |c.ids| == 0 then Some([])
    else if !Aligned(c) then None
    else Some(seq(|c.ids|, i requires 0 <= i < |c.ids| =>
      Hit(c.ids[i], c.documents[i], c.metadatas[i], similarity(c.distances[i]), c.distances[i])))
  }

  /** Python's `x >= t` for a threshold read from metadata: numbers and booleans
      compare, anything else raises `TypeError`. */
  function AtLeast(x: real, t: Value): (r: Result<bool>)
    ensures r.Err? <==> t.VStr? || t.VNone?
    ensures t.VNum? ==> r == Ok(x >= t.r)
  {
    match t
    case VNum(n) => Ok(x >= n)
    case VBool(b) => Ok(x >= (if b then 1.0 else 0.0))
    case _ => Err(TypeError("'>=' not supported between instances of 'float' and 'str'"))
  }

  /** The metadata threshold, or the service default when the key is absent. */
  function ThresholdOf(m: HitMetadata, default: real): Value {
    m.confidenceThreshold.GetOr(VNum(default))
  }

  /** The `except` block of both `search_intents`: a `ConfigurationError` propagates,
      any other error gives an empty result. */
  function Recover<T>(r: Result<seq<T>>): (out: Result<seq<T>>)
    ensures r.Ok? ==> out == r
    ensures r.Err? && r.error.ConfigurationError? ==> out == r
    ensures r.Err? && !r.error.ConfigurationError? ==> out == Ok([])
    ensures out.Err? ==> out.error.ConfigurationError?
  {
    if r.Err? && !r.error.ConfigurationError? then Ok([]) else r
  }

  /** `json.loads(metadata.get("responses", "[]"))` in the engine: a missing entry is
      the empty list. */
  function ParseResponses(m: HitMetadata): StoredResponses {
    m.responses.GetOr(Dumped(Texts([])))
  }

  /** An intent as the indexers read it from a knowledge-base dictionary; `None` is a
      key absent from the intent's metadata. */
  datatype SourceIntent = SourceIntent(
    id: string,
    patterns: seq<string>,
    responses: Responses,
    category: Option<string>,
    confidenceThreshold: Option<real>,
    tags: Option<seq<string>>,
    priority: Option<int>)

  /** `knowledge_base.model_dump()` as the indexers see it: every metadata key present. */
  function SourceOf(kb: KnowledgeBase): (r: seq<SourceIntent>)
    ensures |r| == |kb.intents|
    ensures forall i :: 0 <= i < |r| ==> r[i].id == kb.intents[i].id && r[i].patterns == kb.intents[i].patterns
    ensures forall i :: 0 <= i < |r| ==> r[i].category == Some(kb.intents[i].metadata.category)
    ensures forall i :: 0 <= i < |r| ==> r[i].confidenceThreshold == Some(kb.intents[i].metadata.confidenceThreshold)
  {
    seq(|kb.intents|, i requires 0 <= i < |kb.intents| =>
      var m := kb.intents[i].metadata;
      SourceIntent(kb.intents[i].id, kb.intents[i].patterns, kb.intents[i].responses,
        Some(m.category), Some(m.confidenceThreshold), Some(m.tags), Some(m.priority)))
  }

  // ---------------------------------------------------------------------------
  // The indexing loop both services share
  // ---------------------------------------------------------------------------

  /** Whether pattern `j` of the intent survives `preprocess_text` (which rejects blank
      text; the `except` then skips the pattern). */
  predicate Processable(intent: SourceIntent, j: nat) {
    j < |intent.patterns| && !IsBlank(intent.patterns[j])
  }

  /** The record built for pattern `j`; `make` is the service's record layout. */
  function RecordAt(intent: SourceIntent, j: nat, m: EmbeddingModel, make: (SourceIntent, nat, Processed) -> Record): Record
    requires Processable(intent, j)
  {
    make(intent, j, PreprocessText(intent.patterns[j], m).value)
  }

  /** What `preprocess_text` gives for each pattern of an intent, in order. */
  function Outcomes(intent: SourceIntent, m: EmbeddingModel): (outs: seq<Result<Processed>>)
    ensures |outs| == |intent.patterns|
    ensures forall j :: 0 <= j < |outs| ==> outs[j] == PreprocessText(intent.patterns[j], m)
  {
    seq(|intent.patterns|, j requires 0 <= j < |intent.patterns| => PreprocessText(intent.patterns[j], m))
  }

  /** `for i, pattern in enumerate(patterns)` from position `i` on, given what each
      pattern's preprocessing gave: a failure skips the pattern. */
  function Collect(intent: SourceIntent, outs: seq<Result<Processed>>, i: nat,
                   make: (SourceIntent, nat, Processed) -> Record): (r: seq<Record>)
    ensures |r| <= |outs| - i || i > |outs|
    decreases |outs| - i
  {
    if i >= |outs| then []
    else
      var rest := Collect(intent, outs, i + 1, make);
      if outs[i].Err? then rest
      else [make(intent, i, outs[i].value)] + rest
  }

  /** Every collected record comes from a successful preprocessing at or after `i`. */
  lemma {:induction false} CollectedFrom(intent: SourceIntent, outs: seq<Result<Processed>>, i: nat,
                                        make: (SourceIntent, nat, Processed) -> Record, x: Record)
    returns (j: nat)
    requires x in Collect(intent, outs, i, make)
    ensures i <= j < |outs| && outs[j].Ok? && x == make(intent, j, outs[j].value)
    decreases |outs| - i
  {
    if outs[i].Ok? && x == make(intent, i, outs[i].value) {
      j := i;
    } else {
      j := CollectedFrom(intent, outs, i + 1, make, x);
    }
  }

  /** Every successful preprocessing at or after `i` gives a record. */
  lemma {:induction false} CollectedOf(intent: SourceIntent, outs: seq<Result<Processed>>, i: nat,
                                      make: (SourceIntent, nat, Processed) -> Record, j: nat)
    requires i <= j < |outs| && outs[j].Ok?
    ensures make(intent, j, outs[j].value) in Collect(intent, outs, i, make)
    decreases |outs| - i
  {
    if i < j {
      CollectedOf(intent, outs, i + 1, make, j);
    }
  }

  /** The records of one intent's patterns. */
  function PatternRecords(intent: SourceIntent, m: EmbeddingModel, make: (SourceIntent, nat, Processed) -> Record): seq<Record> {
    Collect(intent, Outcomes(intent, m), 0, make)
  }

  /** Every record of an intent comes from one of its processable patterns. */
  lemma PatternRecordFrom(intent: SourceIntent, m: EmbeddingModel, make: (SourceIntent, nat, Processed) -> Record, x: Record)
    returns (j: nat)
    requires x in PatternRecords(intent, m, make)
    ensures Processable(intent, j) && x == RecordAt(intent, j, m, make)
  {
    j := CollectedFrom(intent, Outcomes(intent, m), 0, make, x);
  }

  /** Every processable pattern of an intent gives a record. */
  lemma PatternRecordOf(intent: SourceIntent, m: EmbeddingModel, make: (SourceIntent, nat, Processed) -> Record, j: nat)
    requires Processable(intent, j)
    ensures RecordAt(intent, j, m, make) in PatternRecords(intent, m, make)
  {
    CollectedOf(intent, Outcomes(intent, m), 0, make, j);
  }

  /** The loop over `knowledge_base_data.get("intents", [])`: one record per pattern
      that survives preprocessing, intents in order. */
  function IndexRecords(intents: seq<SourceIntent>, m: EmbeddingModel, make: (SourceIntent, nat, Processed) -> Record): (r: seq<Record>)
  {
    if intents == [] then []
    else PatternRecords(intents[0], m, make) + IndexRecords(intents[1..], m, make)
  }

  /** The intent and pattern position an indexed record was built from. */
  lemma {:induction false} IndexedFrom(intents: seq<SourceIntent>, m: EmbeddingModel, make: (SourceIntent, nat, Processed) -> Record, x: Record)
    returns (k: nat, j: nat)
    requires x in IndexRecords(intents, m, make)
    ensures k < |intents| && Processable(intents[k], j) && x == RecordAt(intents[k], j, m, make)
  {
    if x in PatternRecords(intents[0], m, make) {
      k := 0;
      j := PatternRecordFrom(intents[0], m, make, x);
    } else {
      var k': nat;
      k', j := IndexedFrom(intents[1..], m, make, x);
      k := k' + 1;
    }
  }

  /** Every processable pattern of every intent is indexed. */
  lemma {:induction false} IndexedOf(intents: seq<SourceIntent>, m: EmbeddingModel, make: (SourceIntent, nat, Processed) -> Record, k: nat, j: nat)
    requires k < |intents| && Processable(intents[k], j)
    ensures RecordAt(intents[k], j, m, make) in IndexRecords(intents, m, make)
  {
    if k == 0 {
      PatternRecordOf(intents[0], m, make, j);
    } else {
      IndexedOf(intents[1..], m, make, k - 1, j);
    }
  }
}

=== FILE: search_service.dfy ===
/** The retrieval service the chatbot engine uses (`VectorSearchService` in
    `src/services/vector_store/search_service.py`): the query is enhanced with the
    recent conversation, embedded, and sent to the Chroma adapter without filters;
    results whose raw score reaches their threshold are kept, blended with the context
    score and sorted. */
module SearchService {
  import opened Common
  import opened Strings
  import opened Dicts
  import opened Sorting
  import opened SessionModel
  import opened TextProcessor
  import opened ContextScoring
  import opened Retrieval
  import ChromaStore

  /** `self.confidence_threshold`. */
  const DefaultThreshold: real := 0.5

  /** The weight of the retrieval score in the final score; the context score gets the rest. */
  const ScoreWeight: real := 0.7
  const ContextWeight: real := 0.3

  // ---------------------------------------------------------------------------
  // Query enhancement
  // ---------------------------------------------------------------------------

  predicate FromUser(m: ConversationMessage) {
    m.role == User
  }

  /** The user messages among the given entries, in order. */
  function UserMessages(entries: seq<ConversationMessage>): (r: seq<string>)
    ensures |r| == |Filter(entries, FromUser)|
    ensures forall k :: 0 <= k < |r| ==> r[k] == Filter(entries, FromUser)[k].message
  {
    if entries == [] then []
    else
      var rest := UserMessages(entries[1..]);
      assert Filter(entries, FromUser) == (if FromUser(entries[0]) then [entries[0]] else []) + Filter(entries[1..], FromUser);
      if FromUser(entries[0]) then [entries[0].message] + rest else rest
  }

  /** The conversation lead put before the query, given the user messages among the
      last three history entries: the last two of them space-joined and followed by a
      space (`" ".join(recent[-2:]) + " "`); empty when there is none. */
  function HistoryLead(recent: seq<string>): (lead: string)
    ensures lead == [] <==> recent == []
    ensures |recent| == 1 ==> lead == recent[0] + " "
    ensures |recent| >= 2 ==> lead == recent[|recent| - 2] + " " + recent[|recent| - 1] + " "
    ensures lead != [] ==> lead[|lead| - 1] == ' '
  {
    if recent == [] then []
    else
      if |recent| >= 2 then
        LastTwoJoined(recent);
        Join(" ", LastN(recent, 2)) + " "
      else
        Join(" ", LastN(recent, 2)) + " "
  }

  /** A context variable the enhancement appends: a string shorter than 50 characters. */
  predicate ShortString(v: Value) {
    v.VStr? && |v.s| < 50
  }

  predicate IsShortEntry(e: (string, Value)) {
    ShortString(e.1)
  }

  /** The values the enhancement appends: the string variables shorter than 50
      characters, in dictionary order. */
  function ShortValues(vars: Dict<Value>): seq<string> {
    var kept := Filter(vars, IsShortEntry);
    seq(|kept|, i requires 0 <= i < |kept| => kept[i].1.s)
  }

  lemma ShortValuesCons(vars: Dict<Value>)
    requires vars != []
    ensures ShortValues(vars) == (if ShortString(vars[0].1) then [vars[0].1.s] else []) + ShortValues(vars[1..])
  {
    assert Filter(vars, IsShortEntry) == (if IsShortEntry(vars[0]) then [vars[0]] else []) + Filter(vars[1..], IsShortEntry);
  }

  lemma SpacedJoinCons(w: string, ws: seq<string>)
    ensures " " + Join(" ", [w] + ws) == " " + w + (if ws == [] then [] else " " + Join(" ", ws))
  {
    if ws != [] {
      JoinCons(w, ws);
    }
  }

  /** The variables appended after the query: each short string value, preceded by a
      space, in dictionary order. */
  function VariableTail(vars: Dict<Value>): (tail: string)
    ensures tail == [] <==> forall i :: 0 <= i < |vars| ==> !ShortString(vars[i].1)
    ensures tail != [] ==> tail[0] == ' '
    ensures tail == (if ShortValues(vars) == [] then [] else " " + Join(" ", ShortValues(vars)))
  {
    if vars == [] then []
    else
      var rest := VariableTail(vars[1..]);
      assert forall i :: 1 <= i < |vars| ==> vars[i] == vars[1..][i - 1];
      ShortValuesCons(vars);
      if ShortString(vars[0].1) then
        SpacedJoinCons(vars[0].1.s, ShortValues(vars[1..]));
        " " + vars[0].1.s + rest
      else
        assert ShortValues(vars) == ShortValues(vars[1..]);
        rest
  }

  /** The space-joined form of the enhanced query. */
  lemma EnhancedIsJoined(lead: seq<string>, query: string, vals: seq<string>)
    ensures (if lead == [] then [] else Join(" ", lead) + " ") + query + (if vals == [] then [] else " " + Join(" ", vals))
         == Join(" ", lead + [query] + vals)
  {
    if vals != [] {
      JoinCons(query, vals);
    }
    if lead != [] {
      JoinAppend(" ", lead, [query] + vals);
      assert lead + [query] + vals == lead + ([query] + vals);
    } else {
      assert lead + [query] + vals == [query] + vals;
    }
  }

  /** `_enhance_query_with_context`: without a context the query as typed; otherwise the
      space-separated words of the last two user messages among the last three history
      entries, the query, and every string context variable shorter than 50 characters,
      in that order. */
  function EnhanceQuery(query: string, context: Option<SessionContext>): (r: string)
    ensures context.None? ==> r == query
    ensures context.Some? ==>
      r == Join(" ", LastN(UserMessages(LastN(context.value.history, 3)), 2) + [query] + ShortValues(context.value.contextVariables))
  {
    if context.None? then query
    else
      EnhancedIsJoined(LastN(UserMessages(LastN(context.value.history, 3)), 2), query, ShortValues(context.value.contextVariables));
      HistoryLead(UserMessages(LastN(context.value.history, 3))) + query + VariableTail(context.value.contextVariables)
  }

  /** A first turn: with just the user's message in the snapshot and one short string
      variable, the message comes first, then the query, then the variable. */
  lemma FirstTurnQuery(query: string, context: SessionContext, m: ConversationMessage, key: string, value: string)
    requires context.history == [m] && m.role == User
    requires context.contextVariables == [(key, VStr(value))] && |value| < 50
    ensures EnhanceQuery(query, Some(context)) == m.message + " " + query + " " + value
  {
    calc {
      EnhanceQuery(query, Some(context));
      Join(" ", LastN(UserMessages(LastN(context.history, 3)), 2) + [query] + ShortValues(context.contextVariables));
      {
        assert LastN(context.history, 3) == [m];
        assert UserMessages([m]) == [m.message];
        assert LastN([m.message], 2) == [m.message];
        ShortValuesCons(context.contextVariables);
        assert ShortValues(context.contextVariables) == [value];
      }
      Join(" ", [m.message] + [query] + [value]);
      { assert [m.message] + [query] + [value] == [m.message] + ([query] + [value]); }
      Join(" ", [m.message] + ([query] + [value]));
      { JoinCons(query, [value]); JoinCons(m.message, [query] + [value]); }
      m.message + " " + query + " " + value;
    }
  }

  lemma {:induction false} NoUserMessages(entries: seq<ConversationMessage>)
    requires forall i :: 0 <= i < |entries| ==> entries[i].role != User
    ensures UserMessages(entries) == []
  {
    if entries != [] {
      assert forall i :: 1 <= i < |entries| ==> entries[i] == entries[1..][i - 1];
      NoUserMessages(entries[1..]);
    }
  }

  /** `_build_context_filters`: never a filter, whatever the context. */
  function BuildContextFilters(context: Option<SessionContext>): (f: Option<Dict<Value>>)
    ensures f.None?
  {
    if context.None? then None
    else
      var filters: Dict<Value> := [];
      if filters == [] then None else Some(filters)
  }

  // ---------------------------------------------------------------------------
  // search_intents
  // ---------------------------------------------------------------------------

  /** A kept hit with its scores. */
  datatype Scored = Scored(hit: Hit, finalScore: real, contextScore: real)

  function FinalScore(s: Scored): real {
    s.finalScore
  }

  function ContextScoreOf(h: Hit, context: Option<SessionContext>): real {
    ContextScore(h.metadata.category, h.metadata.intentId, context)
  }

  /** `final_score = score * 0.7 + context_score * 0.3`. */
  function Blend(score: real, contextScore: real): real {
    score * ScoreWeight + contextScore * ContextWeight
  }

  function ScoreHit(h: Hit, context: Option<SessionContext>): (x: Scored)
    ensures x.hit == h
    ensures x.contextScore == ContextScore(h.metadata.category, h.metadata.intentId, context)
    ensures 0.0 <= x.contextScore <= 0.35
    ensures x.finalScore == 0.7 * h.score + 0.3 * x.contextScore
    ensures context.None? ==> x.finalScore == 0.7 * h.score
  {
    Scored(h, Blend(h.score, ContextScoreOf(h, context)), ContextScoreOf(h, context))
  }

  /** Whether a hit's raw score reaches its threshold (metadata, else 0.5); an error
      when the threshold does not compare with a number. */
  function Passes(h: Hit): (r: Result<bool>)
    ensures r.Err? <==> h.metadata.confidenceThreshold.Some? && (h.metadata.confidenceThreshold.value.VStr? || h.metadata.confidenceThreshold.value.VNone?)
    ensures h.metadata.confidenceThreshold.None? ==> r == Ok(h.score >= DefaultThreshold)
    ensures h.metadata.confidenceThreshold.Some? && h.metadata.confidenceThreshold.value.VNum? ==> r == Ok(h.score >= h.metadata.confidenceThreshold.value.r)
  {
    AtLeast(h.score, ThresholdOf(h.metadata, DefaultThreshold))
  }

  /** The filtering loop: hits whose raw score reaches their threshold, in store order,
      each with its final score; the context score is computed only for kept hits. */
  function KeepAndScore(hits: seq<Hit>, context: Option<SessionContext>): (r: Result<seq<Scored>>)
    ensures r.Err? <==> exists i :: 0 <= i < |hits| && Passes(hits[i]).Err?
    ensures r.Err? ==> r.error.TypeError?
    ensures r.Ok? ==> |r.value| <= |hits|
    ensures r.Ok? ==> forall x :: x in r.value <==> exists i :: 0 <= i < |hits| && Passes(hits[i]) == Ok(true) && x == ScoreHit(hits[i], context)
  {
    if hits == [] then Ok([])
    else
      var rest := KeepAndScore(hits[1..], context);
      assert forall i :: 1 <= i < |hits| ==> hits[i] == hits[1..][i - 1];
      match Passes(hits[0])
      case Err(e) =>
        assert Passes(hits[0]).Err?;
        Err(e)
      case Ok(keep) =>
        if rest.Err? then rest
        else if keep then
          var x0 := ScoreHit(hits[0], context);
          assert forall x :: x in [x0] + rest.value <==> x == x0 || x in rest.value;
          Ok([x0] + rest.value)
        else rest
  }

  /** The filtering loop walks the hits in store order: the kept hits of a concatenation
      are those of each part, one after the other, and the error reported is that of the
      first hit whose threshold does not compare. */
  lemma {:induction false} KeepAndScoreSplit(a: seq<Hit>, b: seq<Hit>, context: Option<SessionContext>)
    ensures KeepAndScore(a + b, context)
         == if KeepAndScore(a, context).Err? then KeepAndScore(a, context)
            else if KeepAndScore(b, context).Err? then KeepAndScore(b, context)
            else Ok(KeepAndScore(a, context).value + KeepAndScore(b, context).value)
  {
    if a != [] {
      assert (a + b)[0] == a[0];
      assert (a + b)[1..] == a[1..] + b;
      KeepAndScoreSplit(a[1..], b, context);
      var ra, rb := KeepAndScore(a[1..], context), KeepAndScore(b, context);
      if Passes(a[0]) == Ok(true) && ra.Ok? && rb.Ok? {
        ConsAppend(ScoreHit(a[0], context), ra.value, rb.value);
      }
    } else {
      assert a + b == b;
      assert KeepAndScore(a, context) == Ok([]);
      var rb := KeepAndScore(b, context);
      if rb.Ok? {
        assert [] + rb.value == rb.value;
      }
      assert KeepAndScore(a + b, context) == rb;
    }
  }

  /** One hit is kept, with its final score, exactly when its score reaches its threshold. */
  lemma KeepAndScoreOne(h: Hit, context: Option<SessionContext>)
    ensures KeepAndScore([h], context)
         == match Passes(h)
            case Err(e) => Err(e)
            case Ok(keep) => Ok(if keep then [ScoreHit(h, context)] else [])
  {
    assert [h][1..] == [];
    assert KeepAndScore([h][1..], context) == Ok([]);
    assert [ScoreHit(h, context)] + [] == [ScoreHit(h, context)];
  }

  /** What the service asks the Chroma adapter for: the enhanced query's vector, no filters. */
  function QueryVector(query: string, context: Option<SessionContext>, m: EmbeddingModel): seq<real> {
    GetTextVector(EnhanceQuery(query, context), m)
  }

  /** `search_intents`. A `ConfigurationError` from the store propagates; any other error
      gives no results. */
  function SearchIntents(query: string, context: Option<SessionContext>, topK: int, m: EmbeddingModel,
                         backend: ChromaStore.Request -> Result<QueryColumns>): (r: Result<seq<Scored>>)
    ensures var hits := ChromaStore.Search(QueryVector(query, context, m), topK, BuildContextFilters(context), backend);
      && (hits.Err? ==> r == Err(hits.error))
      && (hits.Ok? ==> r.Ok?)
      && (hits.Ok? ==> SortedDesc(r.value, FinalScore))
      && (hits.Ok? && KeepAndScore(hits.value, context).Ok? ==>
            multiset(r.value) == multiset(KeepAndScore(hits.value, context).value))
      && (hits.Ok? && KeepAndScore(hits.value, context).Err? ==> r == Ok([]))
      && (hits.Ok? && KeepAndScore(hits.value, context).Ok? ==>
            r == Ok(SortDesc(KeepAndScore(hits.value, context).value, FinalScore)))
  {
    var hits := ChromaStore.Search(QueryVector(query, context, m), topK, BuildContextFilters(context), backend);
    if hits.Err? then Recover(Err(hits.error))
    else
      var kept := KeepAndScore(hits.value, context);
      if kept.Err? then Recover(Err(kept.error))
      else Ok(SortDesc(kept.value, FinalScore))
  }

  /** Python's sort is stable: kept hits with the same final score come out in the
      store's order, so the engine, which answers with the first result, picks the
      earlier of two equally scored hits. */
  lemma SearchIntentsStable(query: string, context: Option<SessionContext>, topK: int, m: EmbeddingModel,
                            backend: ChromaStore.Request -> Result<QueryColumns>, k: real)
    requires ChromaStore.Search(QueryVector(query, context, m), topK, BuildContextFilters(context), backend).Ok?
    requires KeepAndScore(ChromaStore.Search(QueryVector(query, context, m), topK, BuildContextFilters(context), backend).value, context).Ok?
    ensures SearchIntents(query, context, topK, m, backend).Ok?
    ensures Filter(SearchIntents(query, context, topK, m, backend).value, KeyIs(FinalScore, k))
         == Filter(KeepAndScore(ChromaStore.Search(QueryVector(query, context, m), topK, BuildContextFilters(context), backend).value, context).value,
                   KeyIs(FinalScore, k))
  {
    var kept := KeepAndScore(ChromaStore.Search(QueryVector(query, context, m), topK, BuildContextFilters(context), backend).value, context).value;
    SortDescStable(kept, FinalScore, k);
  }

  /** The store is queried without a `where` clause, whatever the context. */
  lemma SearchUsesNoFilter(context: Option<SessionContext>)
    ensures ChromaStore.BuildWhere(BuildContextFilters(context)).None?
  {
  }

  /** Every result of a successful search is a store hit that reached its threshold,
      scored `0.7 * score + 0.3 * context`, and every such hit is among the results. */
  lemma SearchResultsAreKeptHits(query: string, context: Option<SessionContext>, topK: int, m: EmbeddingModel,
                                 backend: ChromaStore.Request -> Result<QueryColumns>, x: Scored)
    requires ChromaStore.Search(QueryVector(query, context, m), topK, BuildContextFilters(context), backend).Ok?
    requires KeepAndScore(ChromaStore.Search(QueryVector(query, context, m), topK, BuildContextFilters(context), backend).value, context).Ok?
    ensures var hits := ChromaStore.Search(QueryVector(query, context, m), topK, BuildContextFilters(context), backend).value;
      x in SearchIntents(query, context, topK, m, backend).value <==>
        exists i :: 0 <= i < |hits| && Passes(hits[i]) == Ok(true) && x == ScoreHit(hits[i], context)
  {
    var hits := ChromaStore.Search(QueryVector(query, context, m), topK, BuildContextFilters(context), backend).value;
    var kept := KeepAndScore(hits, context).value;
    var r := SearchIntents(query, context, topK, m, backend).value;
    assert x in r <==> x in multiset(r);
    assert x in kept <==> x in multiset(kept);
  }

  /** The context never lowers a kept hit's final score below 70% of its raw score, nor
      raises it by more than 0.105. */
  lemma BlendBounds(h: Hit, context: Option<SessionContext>)
    ensures h.score * ScoreWeight <= ScoreHit(h, context).finalScore <= h.score * ScoreWeight + 0.105
  {
  }

  // ---------------------------------------------------------------------------
  // Indexing
  // ---------------------------------------------------------------------------

  /** The record `index_knowledge_base` builds for pattern `i` of an intent. */
  function MakeRecord(intent: SourceIntent, i: nat, p: Processed): (r: Record)
    ensures r.id == intent.id + "_pattern_" + NatToString(i)
    ensures r.vector == p.vector && r.text == p.original
    ensures r.metadata.intentId == Some(intent.id) && r.metadata.kind == Some("pattern")
    ensures r.metadata.category == Some(intent.category.GetOr("general"))
    ensures r.metadata.confidenceThreshold == Some(VNum(intent.confidenceThreshold.GetOr(DefaultThreshold)))
    ensures r.metadata.responses == Some(Dumped(intent.responses))
  {
    Record(intent.id + "_pattern_" + NatToString(i), p.vector, p.original,
      HitMetadata(
        Some(intent.id), Some("pattern"), Some(intent.category.GetOr("general")),
        Some(VNum(intent.confidenceThreshold.GetOr(DefaultThreshold))), Some(Dumped(intent.responses)),
        Some(p.original), Some(p.cleaned), Some([]), None, None, None, None))
  }

  /** `index_knowledge_base`: the records handed to the store, or `None` when there are
      none and the store is not called. */
  function IndexKnowledgeBase(intents: seq<SourceIntent>, m: EmbeddingModel): (r: Option<seq<Record>>)
    ensures r.None? <==> IndexRecords(intents, m, MakeRecord) == []
    ensures r.Some? ==> r.value == IndexRecords(intents, m, MakeRecord)
  {
    var records := IndexRecords(intents, m, MakeRecord);
    if records == [] then None else Some(records)
  }

  /** Every indexed record is the raw pattern `j` of some intent, embedded as typed,
      under the id `"{intent_id}_pattern_{j}"`; blank patterns are skipped. */
  lemma IndexedRecordShape(intents: seq<SourceIntent>, m: EmbeddingModel, x: Record)
    requires IndexKnowledgeBase(intents, m).Some? && x in IndexKnowledgeBase(intents, m).value
    ensures exists k, j :: (0 <= k < |intents| && 0 <= j < |intents[k].patterns| && !IsBlank(intents[k].patterns[j])
      && x.id == intents[k].id + "_pattern_" + NatToString(j)
      && x.text == intents[k].patterns[j]
      && x.vector == m.encode(intents[k].patterns[j]))
  {
    var k, j := IndexedFrom(intents, m, MakeRecord, x);
    RecordAtShape(intents[k], j, m);
    assert j < |intents[k].patterns| && !IsBlank(intents[k].patterns[j]);
    assert x.id == intents[k].id + "_pattern_" + NatToString(j);
    assert x.text == intents[k].patterns[j] && x.vector == m.encode(intents[k].patterns[j]);
  }

  lemma RecordAtShape(intent: SourceIntent, j: nat, m: EmbeddingModel)
    requires Processable(intent, j)
    ensures var x := RecordAt(intent, j, m, MakeRecord);
      x.id == intent.id + "_pattern_" + NatToString(j) && x.text == intent.patterns[j] && x.vector == m.encode(intent.patterns[j])
  {
    var p := PreprocessText(intent.patterns[j], m).value;
    assert RecordAt(intent, j, m, MakeRecord) == MakeRecord(intent, j, p);
  }

  // ---------------------------------------------------------------------------
  // get_fallback_response
  // ---------------------------------------------------------------------------

  const FallbackReplies: seq<string> := [
    "I'm not sure I understand. Could you please rephrase that?",
    "I don't have information about that topic. Can you ask something else?",
    "That's not something I'm familiar with. How else can I help you?",
    "I'm still learning about that. Is there something else I can assist with?"]

  const FallbackSuggestions: seq<string> := [
    "Try asking about greetings, help, or thanks",
    "Be more specific in your question"]

  datatype Fallback = Fallback(intentId: string, response: string, confidence: real, kind: string, suggestions: seq<string>)

  /** `get_fallback_response`: `choice` is the random pick; the query is not consulted. */
  function GetFallbackResponse(query: string, choice: nat): (r: Fallback)
    ensures r.intentId == "fallback" && r.kind == "fallback" && r.confidence == 0.0
    ensures r.response in FallbackReplies && r.response != []
    ensures |r.suggestions| == 2
  {
    Fallback("fallback", Pick(FallbackReplies, choice), 0.0, "fallback", FallbackSuggestions)
  }
}

=== FILE: session_manager.dfy ===
/** The Redis-backed session store (`SessionManager`). Redis is a map from keys to
    session records; the time-to-live, the re-save of `last_active` on every read
    and the JSON encoding are not modelled, so a read leaves the store unchanged. */
module SessionManager {
  import opened Common
  import opened Strings
  import opened Dicts
  import opened SessionModel

  const SessionPrefix: string := "alfred_session:"

  /** `max_conversation_history` when the environment does not set it. */
  const DefaultMaxHistory: int := 50

  datatype Store = Store(redis: map<string, SessionData>, maxHistory: int)

  /** `get_session_key`. */
  function SessionKey(sessionId: string): (k: string) {
    SessionPrefix + sessionId
  }

  /** Every key is the prefix followed by the session id. */
  lemma SessionKeyShape(sessionId: string)
    ensures IsPrefix(SessionPrefix, SessionKey(sessionId)) && SessionKey(sessionId)[|SessionPrefix|..] == sessionId
  {
    assert SessionKey(sessionId)[..|SessionPrefix|] == SessionPrefix;
  }

  /** Distinct sessions never share a key. */
  lemma SessionKeyInjective(a: string, b: string)
    ensures SessionKey(a) == SessionKey(b) <==> a == b
  {
    SessionKeyShape(a);
    SessionKeyShape(b);
  }

  /** The shape every store reachable through this module has: each record sits under
      the key of its own id, which is the key `_save_session` writes it to. */
  predicate WellFormed(st: Store) {
    forall k :: k in st.redis ==> k == SessionKey(st.redis[k].sessionId)
  }

  /** Redis starts empty, so the shape holds from the start. */
  lemma EmptyStoreWellFormed(maxHistory: int)
    ensures WellFormed(Store(map[], maxHistory))
  {
  }

  /** In a well-formed store the record read under an id carries that id. */
  lemma WellFormedOwnId(st: Store, sessionId: string)
    requires WellFormed(st) && GetSession(st, sessionId).Some?
    ensures GetSession(st, sessionId).value.sessionId == sessionId
  {
    SessionKeyInjective(GetSession(st, sessionId).value.sessionId, sessionId);
  }

  /** `create_session`: the fresh uuid is the parameter `freshId`. */
  function CreateSession(st: Store, req: SessionCreate, freshId: string): (r: (SessionData, Store))
    ensures r.0.sessionId == freshId && r.0.userId == req.userId
    ensures r.0.conversationHistory == [] && r.0.isActive
    ensures r.0.contextVariables == (if req.initialContext.Some? then req.initialContext.value else [])
    ensures r.1.maxHistory == st.maxHistory
    ensures r.1.redis == st.redis[SessionKey(freshId) := r.0]
  {
    var session := SessionData(freshId, req.userId, [], req.initialContext.GetOr([]), [], true);
    (session, st.(redis := st.redis[SessionKey(freshId) := session]))
  }

  /** `get_session`: the stored record, or `None` when the key is absent. */
  function GetSession(st: Store, sessionId: string): (r: Option<SessionData>)
    ensures r.None? <==> SessionKey(sessionId) !in st.redis
    ensures r.Some? ==> r.value == st.redis[SessionKey(sessionId)]
  {
    var key := SessionKey(sessionId);
    if key in st.redis then Some(st.redis[key]) else None
  }

  lemma CreateKeepsWellFormed(st: Store, req: SessionCreate, freshId: string)
    requires WellFormed(st)
    ensures WellFormed(CreateSession(st, req, freshId).1)
  {
  }

  /** A session reads back exactly as it was created. */
  lemma CreateThenGet(st: Store, req: SessionCreate, freshId: string)
    ensures var (s, st') := CreateSession(st, req, freshId); GetSession(st', freshId) == Some(s)
  {
  }

  /** Appends a message and keeps only the newest `max_history` entries once the
      history is longer than that (Python's `history[-max_history:]`). */
  function AppendBounded(history: seq<ConversationMessage>, msg: ConversationMessage, maxHistory: int): (h: seq<ConversationMessage>)
    ensures IsSuffixOf(h, history + [msg])
    ensures maxHistory > 0 ==> |h| <= maxHistory && h != [] && h[|h| - 1] == msg
    ensures maxHistory > 0 ==> |h| == (if |history| + 1 < maxHistory then |history| + 1 else maxHistory)
    ensures maxHistory == 0 || |history| + 1 <= maxHistory ==> h == history + [msg]
  {
    var appended := history + [msg];
    if |appended| > maxHistory then LastN(appended, maxHistory) else appended
  }

  /** With room for two entries, the entry that was last before an append is now just
      before the appended message. */
  lemma AppendKeepsLast(history: seq<ConversationMessage>, msg: ConversationMessage, maxHistory: int)
    requires history != [] && maxHistory >= 2
    ensures |AppendBounded(history, msg, maxHistory)| >= 2
    ensures AppendBounded(history, msg, maxHistory)[|AppendBounded(history, msg, maxHistory)| - 2] == history[|history| - 1]
  {
    var a := history + [msg];
    var h := AppendBounded(history, msg, maxHistory);
    assert a[|a| - |h|..] == h;
    assert a[|a| - 2] == history[|history| - 1];
    assert h[|h| - 2] == a[|a| - |h|..][|h| - 2];
  }

  /** Appending several messages in turn, as successive `add_message` calls do. */
  function AppendAll(history: seq<ConversationMessage>, msgs: seq<ConversationMessage>, maxHistory: int): seq<ConversationMessage>
    decreases |msgs|
  {
    if msgs == [] then history else AppendAll(AppendBounded(history, msgs[0], maxHistory), msgs[1..], maxHistory)
  }

  /** One bounded append onto the newest `max_history` messages gives the newest
      `max_history` messages of the longer list. */
  lemma AppendOntoNewest(earlier: seq<ConversationMessage>, msg: ConversationMessage, maxHistory: int)
    requires maxHistory > 0
    ensures AppendBounded(LastN(earlier, maxHistory), msg, maxHistory) == LastN(earlier + [msg], maxHistory)
  {
    var kept := LastN(earlier, maxHistory);
    var all := earlier + [msg];
    var a := AppendBounded(kept, msg, maxHistory);
    var b := LastN(all, maxHistory);
    assert kept + [msg] == all[|all| - |kept| - 1..];
    assert a == (kept + [msg])[|kept| + 1 - |a|..];
    assert |a| == |b|;
    assert a == all[|all| - |a|..];
  }

  /** The history is a queue of capacity `max_history`: after any run of appends it
      holds exactly the newest `max_history` messages ever added, oldest first. */
  lemma {:induction false} AppendAllKeepsNewest(earlier: seq<ConversationMessage>, msgs: seq<ConversationMessage>, maxHistory: int)
    requires maxHistory > 0
    ensures AppendAll(LastN(earlier, maxHistory), msgs, maxHistory) == LastN(earlier + msgs, maxHistory)
    decreases |msgs|
  {
    if msgs == [] {
      assert earlier + msgs == earlier;
    } else {
      var longer := earlier + [msgs[0]];
      calc {
        AppendAll(LastN(earlier, maxHistory), msgs, maxHistory);
        AppendAll(AppendBounded(LastN(earlier, maxHistory), msgs[0], maxHistory), msgs[1..], maxHistory);
        { AppendOntoNewest(earlier, msgs[0], maxHistory); }
        AppendAll(LastN(longer, maxHistory), msgs[1..], maxHistory);
        { AppendAllKeepsNewest(longer, msgs[1..], maxHistory); }
        LastN(longer + msgs[1..], maxHistory);
        { assert longer + msgs[1..] == earlier + msgs; }
        LastN(earlier + msgs, maxHistory);
      }
    }
  }

  /** `update_session`. */
  function UpdateSession(st: Store, sessionId: string, update: SessionUpdate): (r: (Option<SessionData>, Store))
    ensures GetSession(st, sessionId).None? ==> r.0.None? && r.1 == st
    ensures GetSession(st, sessionId).Some? ==>
      && r.0.Some?
      && r.1 == st.(redis := st.redis[SessionKey(sessionId) := r.0.value])
      && r.0.value.sessionId == GetSession(st, sessionId).value.sessionId
    ensures WellFormed(st) && r.0.Some? ==> SessionKey(sessionId) == SessionKey(r.0.value.sessionId)
  {
    match GetSession(st, sessionId)
    case None => (None, st)
    case Some(session) =>
      var history :=
        if update.message.Some? then AppendBounded(session.conversationHistory, update.message.value, st.maxHistory)
        else session.conversationHistory;
      var context :=
        if update.contextVariables.Some? && update.contextVariables.value != [] then Update(session.contextVariables, update.contextVariables.value)
        else session.contextVariables;
      var active := if update.isActive.Some? then update.isActive.value else session.isActive;
      var updated := session.(conversationHistory := history, contextVariables := context, isActive := active);
      (Some(updated), st.(redis := st.redis[SessionKey(sessionId) := updated]))
  }

  lemma UpdateKeepsWellFormed(st: Store, sessionId: string, update: SessionUpdate)
    requires WellFormed(st)
    ensures WellFormed(UpdateSession(st, sessionId, update).1)
  {
  }

  /** What an update promises: the history grows only by the supplied message (and is
      trimmed to `max_history`), supplied context keys take the supplied values while
      every other key keeps its value, `is_active` changes only when supplied, and the
      identity of the session is untouched. */
  lemma UpdateSessionEffect(st: Store, sessionId: string, update: SessionUpdate, k: string)
    requires GetSession(st, sessionId).Some?
    requires update.contextVariables.Some? ==> Distinct(update.contextVariables.value)
    ensures var before := GetSession(st, sessionId).value;
      var after := UpdateSession(st, sessionId, update).0.value;
      && after.sessionId == before.sessionId && after.userId == before.userId
      && (update.message.None? ==> after.conversationHistory == before.conversationHistory)
      && (update.message.Some? ==> after.conversationHistory == AppendBounded(before.conversationHistory, update.message.value, st.maxHistory))
      && Get(after.contextVariables, k) ==
           (if update.contextVariables.Some? && k in Keys(update.contextVariables.value)
            then Get(update.contextVariables.value, k) else Get(before.contextVariables, k))
      && after.isActive == (if update.isActive.Some? then update.isActive.value else before.isActive)
  {
    var before := GetSession(st, sessionId).value;
    if update.contextVariables.Some? && update.contextVariables.value != [] {
      UpdateGet(before.contextVariables, update.contextVariables.value, k);
    }
  }

  /** After an update the store answers reads with the updated record, and no other session changes. */
  lemma UpdateThenGet(st: Store, sessionId: string, update: SessionUpdate, other: string)
    requires other != sessionId
    ensures var (r, st') := UpdateSession(st, sessionId, update);
      && GetSession(st', sessionId) == r
      && GetSession(st', other) == GetSession(st, other)
  {
    SessionKeyInjective(sessionId, other);
  }

  /** `add_message`. */
  function AddMessage(st: Store, sessionId: string, msg: ConversationMessage): (r: (Option<SessionData>, Store))
    ensures r == UpdateSession(st, sessionId, SessionUpdate(Some(msg), None, None))
    ensures r.0.Some? <==> GetSession(st, sessionId).Some?
  {
    UpdateSession(st, sessionId, SessionUpdate(Some(msg), None, None))
  }

  /** The history `add_message` stores: the newest entries of the old history plus the
      message, as many as the bound allows, ending with the message. */
  lemma AddMessageHistory(st: Store, sessionId: string, msg: ConversationMessage)
    requires GetSession(st, sessionId).Some?
    ensures AddMessage(st, sessionId, msg).0.Some?
    ensures var h := AddMessage(st, sessionId, msg).0.value.conversationHistory;
      var before := GetSession(st, sessionId).value.conversationHistory;
      && IsSuffixOf(h, before + [msg])
      && (st.maxHistory > 0 ==> |h| == (if |before| + 1 < st.maxHistory then |before| + 1 else st.maxHistory))
      && (st.maxHistory > 0 ==> h[|h| - 1] == msg)
  {
    var before := GetSession(st, sessionId).value.conversationHistory;
    assert AddMessage(st, sessionId, msg).0.value.conversationHistory == AppendBounded(before, msg, st.maxHistory);
  }

  /** `delete_session`: reports whether the key existed. */
  function DeleteSession(st: Store, sessionId: string): (r: (bool, Store))
    ensures r.0 <==> GetSession(st, sessionId).Some?
    ensures GetSession(r.1, sessionId).None?
    ensures forall other :: other != sessionId ==> GetSession(r.1, other) == GetSession(st, other)
  {
    var key := SessionKey(sessionId);
    forall other | other != sessionId ensures SessionKey(other) != key {
      SessionKeyInjective(other, sessionId);
    }
    (key in st.redis, st.(redis := st.redis - {key}))
  }

  lemma DeleteKeepsWellFormed(st: Store, sessionId: string)
    requires WellFormed(st)
    ensures WellFormed(DeleteSession(st, sessionId).1)
  {
  }

  /** One line of `get_conversation_context`: "User" for the user role, "Alfred" for bot and system. */
  function FormatLine(m: ConversationMessage): (line: string)
    ensures m.role == User ==> IsPrefix("User: ", line)
    ensures m.role != User ==> IsPrefix("Alfred: ", line)
    ensures IsSuffix(m.message, line)
    ensures |line| == (if m.role == User then |"User: "| else |"Alfred: "|) + |m.message|
  {
    (if m.role == User then "User" else "Alfred") + ": " + m.message
  }

  function FormatLines(ms: seq<ConversationMessage>): (lines: seq<string>)
    ensures |lines| == |ms| && forall i :: 0 <= i < |ms| ==> lines[i] == FormatLine(ms[i])
  {
    seq(|ms|, i requires 0 <= i < |ms| => FormatLine(ms[i]))
  }

  /** `get_conversation_context`: the last `n` messages, one formatted line each,
      joined by newlines; "" when the session is missing. */
  function GetConversationContext(st: Store, sessionId: string, n: int): (r: string)
    ensures GetSession(st, sessionId).None? ==> r == ""
    ensures GetSession(st, sessionId).Some? ==>
      r == Join("\n", FormatLines(LastN(GetSession(st, sessionId).value.conversationHistory, n)))
  {
    match GetSession(st, sessionId)
    case None => ""
    case Some(session) => Join("\n", FormatLines(LastN(session.conversationHistory, n)))
  }

  /** Right after a message is added, the one-message context is that message's line. */
  lemma ContextShowsLastMessage(st: Store, sessionId: string, msg: ConversationMessage)
    requires GetSession(st, sessionId).Some? && st.maxHistory > 0
    ensures var st' := AddMessage(st, sessionId, msg).1;
      GetConversationContext(st', sessionId, 1) == FormatLine(msg)
  {
    var (r, st') := AddMessage(st, sessionId, msg);
    UpdateThenGet(st, sessionId, SessionUpdate(Some(msg), None, None), sessionId + "'");
    var h := r.value.conversationHistory;
    assert LastN(h, 1) == [msg];
  }
}

=== FILE: session_model.dfy ===
/** Session records (`src/models/session.py`) and the conversation-state enumeration
    (`src/models/conversation_state.py`, repeated verbatim in the chatbot engine).
    Timestamps are not modelled. */
module SessionModel {
  import opened Common
  import opened Dicts

  datatype MessageRole = User | Bot | System {
    /** The enumeration's string value. */
    function Name(): string {
      match this
      case User => "user"
      case Bot => "bot"
      case System => "system"
    }
  }

  /** The string values of the roles are distinct, so a role survives its JSON round trip. */
  lemma RoleNamesDistinct(a: MessageRole, b: MessageRole)
    ensures a.Name() == b.Name() <==> a == b
  {
  }

  datatype ConversationMessage = ConversationMessage(
    role: MessageRole,
    message: string,
    metadata: Option<Dict<Value>>,
    intentId: Option<string>,
    confidence: Option<real>)

  datatype SessionData = SessionData(
    sessionId: string,
    userId: Option<string>,
    conversationHistory: seq<ConversationMessage>,
    contextVariables: Dict<Value>,
    sessionMetadata: Dict<Value>,
    isActive: bool)

  datatype SessionCreate = SessionCreate(userId: Option<string>, initialContext: Option<Dict<Value>>)

  datatype SessionUpdate = SessionUpdate(
    message: Option<ConversationMessage>,
    contextVariables: Option<Dict<Value>>,
    isActive: Option<bool>)

  datatype ConversationState = Greeting | Ongoing | Closing | Ended {
    /** The enumeration's string value, which is what the session store keeps. */
    function Name(): string {
      match this
      case Greeting => "greeting"
      case Ongoing => "ongoing"
      case Closing => "closing"
      case Ended => "ended"
    }

    /** The state as a context-variable value. */
    function AsValue(): Value {
      VStr(Name())
    }
  }

  /** Reads a stored context value back as a state; a string that names no state, or
      a value of another type, gives `None`. */
  function StateOf(v: Value): (r: Option<ConversationState>)
    ensures r.Some? ==> r.value.AsValue() == v
  {
    if v == VStr("greeting") then Some(Greeting)
    else if v == VStr("ongoing") then Some(Ongoing)
    else if v == VStr("closing") then Some(Closing)
    else if v == VStr("ended") then Some(Ended)
    else None
  }

  /** Storing a state and reading it back gives the same state. */
  lemma StateRoundTrip(s: ConversationState)
    ensures StateOf(s.AsValue()) == Some(s)
  {
  }
}

=== FILE: session_utils.dfy ===
/** Message constructors and read-only session views (`src/utils/session_utils.py`). */
module SessionUtils {
  import opened Common
  import opened Dicts
  import opened SessionModel
  import opened SessionManager

  /** `metadata or {}`: a missing or empty dictionary becomes a fresh empty one. */
  function MetadataOrEmpty(metadata: Option<Dict<Value>>): (r: Dict<Value>)
    ensures metadata.Some? && metadata.value != [] ==> r == metadata.value
    ensures metadata.None? ==> r == []
  {
    if metadata.Some? && metadata.value != [] then metadata.value else []
  }

  /** `create_user_message`. */
  function CreateUserMessage(message: string, metadata: Option<Dict<Value>>): (m: ConversationMessage)
    ensures m.role == User && m.message == message
    ensures m.metadata == Some(metadata.GetOr([]))
    ensures m.intentId.None? && m.confidence.None?
  {
    ConversationMessage(User, message, Some(MetadataOrEmpty(metadata)), None, None)
  }

  /** `create_bot_message`. */
  function CreateBotMessage(message: string, metadata: Option<Dict<Value>>): (m: ConversationMessage)
    ensures m.role == Bot && m.message == message
    ensures m.metadata == Some(metadata.GetOr([]))
    ensures m.intentId.None? && m.confidence.None?
  {
    ConversationMessage(Bot, message, Some(MetadataOrEmpty(metadata)), None, None)
  }

  /** The two constructors differ only in the role, which the context formatter maps to
      "User" and "Alfred" respectively. */
  lemma MessageRolesFormat(message: string, metadata: Option<Dict<Value>>)
    ensures FormatLine(CreateUserMessage(message, metadata)) == "User: " + message
    ensures FormatLine(CreateBotMessage(message, metadata)) == "Alfred: " + message
  {
  }

  /** `extract_entities_from_context`: a copy of the context variables, or `{}` for a missing session. */
  function ExtractEntitiesFromContext(st: Store, sessionId: string): (entities: Dict<Value>)
    ensures GetSession(st, sessionId).None? ==> entities == []
    ensures GetSession(st, sessionId).Some? ==>
      forall k :: k in Keys(entities) <==> k in Keys(GetSession(st, sessionId).value.contextVariables)
  {
    match GetSession(st, sessionId)
    case None => []
    case Some(session) => Update([], session.contextVariables)
  }

  /** The extracted entities carry exactly the session's context values. */
  lemma ExtractedEntitiesAreContext(st: Store, sessionId: string, k: string)
    requires GetSession(st, sessionId).Some?
    requires Distinct(GetSession(st, sessionId).value.contextVariables)
    ensures Get(ExtractEntitiesFromContext(st, sessionId), k) == Get(GetSession(st, sessionId).value.contextVariables, k)
  {
    var ctx := GetSession(st, sessionId).value.contextVariables;
    UpdateGet([], ctx, k);
  }

  /** The summary fields that do not depend on the clock. */
  datatype SessionSummary = SessionSummary(
    sessionId: string,
    userId: Option<string>,
    messageCount: nat,
    isActive: bool,
    contextKeys: seq<string>)

  /** `get_session_summary`: `None` stands for the empty dictionary returned for a missing session. */
  function GetSessionSummary(st: Store, sessionId: string): (r: Option<SessionSummary>)
    ensures r.None? <==> GetSession(st, sessionId).None?
    ensures r.Some? ==> var s := GetSession(st, sessionId).value;
      && r.value.sessionId == s.sessionId && r.value.userId == s.userId
      && r.value.messageCount == |s.conversationHistory|
      && r.value.isActive == s.isActive
      && r.value.contextKeys == Keys(s.contextVariables)
  {
    match GetSession(st, sessionId)
    case None => None
    case Some(s) => Some(SessionSummary(s.sessionId, s.userId, |s.conversationHistory|, s.isActive, Keys(s.contextVariables)))
  }

  /** Adding a message to a session whose history has room raises the summary's message count by one. */
  lemma SummaryCountsAddedMessage(st: Store, sessionId: string, msg: ConversationMessage)
    requires GetSession(st, sessionId).Some?
    requires |GetSession(st, sessionId).value.conversationHistory| < st.maxHistory
    ensures var st' := AddMessage(st, sessionId, msg).1;
      GetSessionSummary(st', sessionId).value.messageCount == GetSessionSummary(st, sessionId).value.messageCount + 1
  {
    UpdateThenGet(st, sessionId, SessionUpdate(Some(msg), None, None), sessionId + "'");
  }
}

=== FILE: sorting.dfy ===
/** Python's `list.sort(key=..., reverse=True)` on a real-valued key: a stable
    insertion sort into non-increasing key order. */
module Sorting {

  ghost predicate SortedDesc<T>(s: seq<T>, key: T -> real) {
    forall i, j :: 0 <= i < j < |s| ==> key(s[i]) >= key(s[j])
  }

  /** Puts `x` in front of the first element whose key is strictly smaller, so that
      `x` stays ahead of every element with an equal key that follows it. */
  function Insert<T>(x: T, s: seq<T>, key: T -> real): (r: seq<T>)
    requires SortedDesc(s, key)
    ensures |r| == |s| + 1
    ensures SortedDesc(r, key)
    ensures multiset(r) == multiset(s) + multiset{x}
  {
    if s == [] then [x]
    else if key(x) >= key(s[0]) then
      PrependSorted(x, s, key);
      [x] + s
    else
      TailSorted(s, key);
      var t := Insert(x, s[1..], key);
      InsertedBelowHead(x, s, t, key);
      PrependSorted(s[0], t, key);
      assert s == [s[0]] + s[1..];
      [s[0]] + t
  }

  /** Dropping the head keeps a sequence sorted. */
  lemma TailSorted<T>(s: seq<T>, key: T -> real)
    requires s != [] && SortedDesc(s, key)
    ensures SortedDesc(s[1..], key)
  {
    forall i, j | 0 <= i < j < |s| - 1 ensures key(s[1..][i]) >= key(s[1..][j]) {
      assert s[1..][i] == s[i + 1] && s[1..][j] == s[j + 1];
    }
  }

  /** An element whose key bounds every key of a sorted sequence can go in front of it. */
  lemma PrependSorted<T>(h: T, t: seq<T>, key: T -> real)
    requires SortedDesc(t, key)
    requires forall i :: 0 <= i < |t| ==> key(h) >= key(t[i])
    ensures SortedDesc([h] + t, key)
  {
    var r := [h] + t;
    forall i, j | 0 <= i < j < |r| ensures key(r[i]) >= key(r[j]) {
      assert r[j] == t[j - 1];
      if i > 0 {
        assert r[i] == t[i - 1];
      }
    }
  }

  /** Whatever is inserted behind the head of a sorted sequence stays below it. */
  lemma InsertedBelowHead<T>(x: T, s: seq<T>, t: seq<T>, key: T -> real)
    requires s != [] && SortedDesc(s, key) && key(x) < key(s[0])
    requires multiset(t) == multiset(s[1..]) + multiset{x}
    ensures forall i :: 0 <= i < |t| ==> key(s[0]) >= key(t[i])
  {
    forall i | 0 <= i < |t| ensures key(s[0]) >= key(t[i]) {
      assert t[i] in multiset(t);
      if t[i] != x {
        assert t[i] in multiset(s[1..]);
        var k :| 0 <= k < |s[1..]| && s[1..][k] == t[i];
        assert s[1..][k] == s[k + 1];
      }
    }
  }

  function SortDesc<T>(s: seq<T>, key: T -> real): (r: seq<T>)
    ensures |r| == |s|
    ensures SortedDesc(r, key)
    ensures multiset(r) == multiset(s)
  {
    if s == [] then []
    else
      assert s == [s[0]] + s[1..];
      Insert(s[0], SortDesc(s[1..], key), key)
  }

  /** A prefix of a descending sequence holds its best elements: whatever is
      left behind scores no higher than the last element kept. */
  lemma PrefixIsBest<T>(s: seq<T>, n: nat, key: T -> real)
    requires SortedDesc(s, key) && 0 < n <= |s|
    ensures multiset(s[..n]) <= multiset(s)
    ensures forall x :: multiset(s[..n])[x] < multiset(s)[x] ==> key(x) <= key(s[n - 1])
  {
    var rest := s[n..];
    assert s == s[..n] + rest;
    forall x | multiset(s[..n])[x] < multiset(s)[x] ensures key(x) <= key(s[n - 1]) {
      assert x in multiset(rest);
      var j :| 0 <= j < |rest| && rest[j] == x;
      assert s[n + j] == x;
    }
  }

  /** Keeps, in order, the elements satisfying `p`. */
  function Filter<T>(s: seq<T>, p: T -> bool): (r: seq<T>)
    ensures |r| <= |s|
    ensures forall i :: 0 <= i < |r| ==> r[i] in s && p(r[i])
    ensures forall i :: 0 <= i < |s| && p(s[i]) ==> s[i] in r
  {
    if s == [] then []
    else
      assert s == [s[0]] + s[1..];
      (if p(s[0]) then [s[0]] else []) + Filter(s[1..], p)
  }

  /** The test for the elements whose key is exactly `k`. */
  function KeyIs<T>(key: T -> real, k: real): T -> bool {
    x => key(x) == k
  }

  /** `Insert` puts `x` ahead of the elements with its key and keeps their order. */
  lemma {:induction false} InsertStable<T>(x: T, s: seq<T>, key: T -> real, k: real)
    requires SortedDesc(s, key)
    ensures Filter(Insert(x, s, key), KeyIs(key, k)) == (if key(x) == k then [x] else []) + Filter(s, KeyIs(key, k))
  {
    var p := KeyIs(key, k);
    var hx := if key(x) == k then [x] else [];
    if s == [] {
      assert Insert(x, s, key) == [x];
      assert [x][1..] == [];
    } else if key(x) >= key(s[0]) {
      assert Insert(x, s, key) == [x] + s;
      assert ([x] + s)[0] == x && ([x] + s)[1..] == s;
    } else {
      var t := Insert(x, s[1..], key);
      var h0 := if key(s[0]) == k then [s[0]] else [];
      assert Insert(x, s, key) == [s[0]] + t;
      calc {
        Filter(Insert(x, s, key), p);
        { assert ([s[0]] + t)[0] == s[0] && ([s[0]] + t)[1..] == t; }
        h0 + Filter(t, p);
        { TailSorted(s, key); InsertStable(x, s[1..], key, k); }
        h0 + (hx + Filter(s[1..], p));
        // `x` ranks strictly below `s[0]`, so at most one of the two has key `k`.
        { assert h0 == [] || hx == []; SwapEmpty(h0, hx, Filter(s[1..], p)); }
        hx + (h0 + Filter(s[1..], p));
        hx + Filter(s, p);
      }
    }
  }

  /** Two parts of which one is empty can be put in either order. */
  lemma SwapEmpty<T>(a: seq<T>, b: seq<T>, c: seq<T>)
    requires a == [] || b == []
    ensures a + (b + c) == b + (a + c)
  {
    if a == [] {
      assert a + (b + c) == b + c == b + (a + c);
    } else {
      assert a + (b + c) == a + c == b + (a + c);
    }
  }

  /** `SortDesc` is stable, as Python's sort is: the elements with any one key come out
      in their input order. */
  lemma {:induction false} SortDescStable<T>(s: seq<T>, key: T -> real, k: real)
    ensures Filter(SortDesc(s, key), KeyIs(key, k)) == Filter(s, KeyIs(key, k))
  {
    if s != [] {
      SortDescStable(s[1..], key, k);
      InsertStable(s[0], SortDesc(s[1..], key), key, k);
    }
  }

  /** Prepending an element and appending a sequence commute. */
  lemma ConsAppend<T>(x: T, p: seq<T>, q: seq<T>)
    ensures [x] + (p + q) == ([x] + p) + q
  {
  }

  /** Filtering distributes over appending one element. */
  lemma {:induction false} FilterAppendOne<T>(s: seq<T>, x: T, p: T -> bool)
    ensures Filter(s + [x], p) == Filter(s, p) + (if p(x) then [x] else [])
  {
    var t := s + [x];
    if s == [] {
      assert t == [x] && t[1..] == [];
    } else {
      assert t[0] == s[0] && t[1..] == s[1..] + [x];
      FilterAppendOne(s[1..], x, p);
      var h := if p(s[0]) then [s[0]] else [];
      var fs := Filter(s[1..], p);
      var tail := if p(x) then [x] else [];
      assert Filter(t, p) == h + (fs + tail);
      assert h + (fs + tail) == (h + fs) + tail;
    }
  }

  /** Whether every element satisfies `p`. */
  predicate AllPass<T>(s: seq<T>, p: T -> bool) {
    forall i :: 0 <= i < |s| ==> p(s[i])
  }

  lemma AllPassSplit<T>(s: seq<T>, p: T -> bool)
    requires s != []
    ensures AllPass(s, p) <==> p(s[0]) && AllPass(s[1..], p)
  {
    if p(s[0]) && AllPass(s[1..], p) {
      forall i | 1 <= i < |s| ensures p(s[i]) {
        assert s[i] == s[1..][i - 1];
      }
    }
  }

  /** Filtering drops nothing exactly when every element passes, and then it is the identity. */
  lemma {:induction false} FilterKeepsAll<T>(s: seq<T>, p: T -> bool)
    ensures |Filter(s, p)| == |s| <==> AllPass(s, p)
    ensures AllPass(s, p) ==> Filter(s, p) == s
  {
    if s != [] {
      var tail := s[1..];
      FilterKeepsAll(tail, p);
      AllPassSplit(s, p);
      var rest := Filter(tail, p);
      assert Filter(s, p) == (if p(s[0]) then [s[0]] else []) + rest;
      if p(s[0]) {
        assert |Filter(s, p)| == 1 + |rest|;
        if AllPass(s, p) {
          assert s == [s[0]] + tail;
        }
      } else {
        assert |Filter(s, p)| == |rest| <= |tail| < |s|;
      }
    }
  }

  /** Filtering a sorted sequence leaves it sorted. */
  lemma {:induction false} FilterKeepsSorted<T>(s: seq<T>, p: T -> bool, key: T -> real)
    requires SortedDesc(s, key)
    ensures SortedDesc(Filter(s, p), key)
  {
    if s != [] {
      TailSorted(s, key);
      FilterKeepsSorted(s[1..], p, key);
      var t := Filter(s[1..], p);
      if p(s[0]) {
        forall i | 0 <= i < |t| ensures key(s[0]) >= key(t[i]) {
          var k :| 0 <= k < |s[1..]| && s[1..][k] == t[i];
          assert s[1..][k] == s[k + 1];
        }
        PrependSorted(s[0], t, key);
      }
      assert Filter(s, p) == (if p(s[0]) then [s[0]] else []) + t;
    }
  }

  /** Filtering keeps every copy of a satisfying element and no copy of any other. */
  lemma FilterMultiset<T>(s: seq<T>, p: T -> bool, x: T)
    ensures multiset(Filter(s, p))[x] == if p(x) then multiset(s)[x] else 0
  {
    if s != [] {
      assert s == [s[0]] + s[1..];
      FilterMultiset(s[1..], p, x);
    }
  }
}

=== FILE: strings.dfy ===
/** Python string operations the core relies on, over `seq<char>`.
    Character classes are the ASCII parts of Python's: `\s` / `str.isspace`
    (space, \t \n \v \f \r and the separators \x1c-\x1f), `\w` (letters, digits,
    underscore) and `str.lower` (A-Z). */
module Strings {
  import Sorting

  predicate IsSpace(c: char) {
    c == ' ' || 9 <= c as int <= 13 || 28 <= c as int <= 31
  }

  predicate IsUpper(c: char) { 'A' <= c <= 'Z' }

  predicate IsWordChar(c: char) {
    'a' <= c <= 'z' || 'A' <= c <= 'Z' || '0' <= c <= '9' || c == '_'
  }

  function LowerChar(c: char): (r: char)
    ensures !IsUpper(r)
    ensures !IsUpper(c) ==> r == c
    ensures IsWordChar(r) <==> IsWordChar(c)
    ensures IsSpace(r) <==> IsSpace(c)
  {
    if IsUpper(c) then (c as int + 32) as char else c
  }

  /** `str.lower()`. */
  function Lower(s: string): (r: string)
    ensures |r| == |s|
    ensures forall i :: 0 <= i < |s| ==> r[i] == LowerChar(s[i])
  {
    seq(|s|, i requires 0 <= i < |s| => LowerChar(s[i]))
  }

  /** No upper-case letter occurs in `s`. */
  predicate NoUpper(s: string) {
    forall i :: 0 <= i < |s| ==> !IsUpper(s[i])
  }

  lemma LowerIsLower(s: string)
    ensures NoUpper(Lower(s))
    ensures NoUpper(s) ==> Lower(s) == s
  {
  }

  /** `not s.strip()`: the text is empty or whitespace only. */
  predicate IsBlank(s: string) {
    forall i :: 0 <= i < |s| ==> IsSpace(s[i])
  }

  function TrimLeft(s: string): (r: string)
    ensures |r| <= |s|
    ensures r == [] || !IsSpace(r[0])
    ensures forall i :: 0 <= i < |s| - |r| ==> IsSpace(s[i])
  {
    if |s| > 0 && IsSpace(s[0]) then TrimLeft(s[1..]) else s
  }

  /** Trimming on the left keeps a suffix. */
  lemma {:induction false} TrimLeftIsSuffix(s: string)
    ensures TrimLeft(s) == s[|s| - |TrimLeft(s)|..]
  {
    if |s| > 0 && IsSpace(s[0]) {
      TrimLeftIsSuffix(s[1..]);
    }
  }

  function TrimRight(s: string): (r: string)
    ensures |r| <= |s|
    ensures r == [] || !IsSpace(r[|r| - 1])
    ensures forall i :: |r| <= i < |s| ==> IsSpace(s[i])
  {
    if |s| > 0 && IsSpace(s[|s| - 1]) then TrimRight(s[..|s| - 1]) else s
  }

  /** Trimming on the right keeps a prefix. */
  lemma {:induction false} TrimRightIsPrefix(s: string)
    ensures TrimRight(s) == s[..|TrimRight(s)|]
  {
    if |s| > 0 && IsSpace(s[|s| - 1]) {
      TrimRightIsPrefix(s[..|s| - 1]);
    }
  }

  /** `str.strip()`: drops leading and trailing whitespace and nothing else. */
  function Trim(s: string): (r: string)
    ensures r == [] <==> IsBlank(s)
    ensures r == [] || (!IsSpace(r[0]) && !IsSpace(r[|r| - 1]))
    ensures |r| <= |s|
  {
    TrimLeftIsSuffix(s);
    TrimRightIsPrefix(TrimLeft(s));
    TrimRight(TrimLeft(s))
  }

  /** `strip()` keeps a contiguous slice of its input. */
  lemma TrimIsSlice(s: string)
    ensures TrimOffset(s) + |Trim(s)| <= |s| && Trim(s) == s[TrimOffset(s)..TrimOffset(s) + |Trim(s)|]
  {
    var l := TrimLeft(s);
    var r := TrimRight(l);
    TrimLeftIsSuffix(s);
    TrimRightIsPrefix(l);
    SliceOfSuffix(s, |s| - |l|, |r|);
  }

  lemma SliceOfSuffix(s: string, k: nat, n: nat)
    requires k + n <= |s|
    ensures s[k..][..n] == s[k..k + n]
  {
  }

  /** Number of leading whitespace characters `strip()` drops. */
  function TrimOffset(s: string): nat {
    |s| - |TrimLeft(s)|
  }

  predicate IsPrefix(p: string, s: string) {
    |p| <= |s| && s[..|p|] == p
  }

  predicate IsSuffix(p: string, s: string) {
    |p| <= |s| && s[|s| - |p|..] == p
  }

  /** Python's `sub in s`. */
  predicate Contains(s: string, sub: string)
    decreases |s|
  {
    IsPrefix(sub, s) || (|s| > 0 && Contains(s[1..], sub))
  }

  /** `s.replace(pat, sub)`: every non-overlapping occurrence, scanning left to right. */
  function Replace(s: string, pat: string, sub: string): (r: string)
    requires |pat| > 0
    ensures !Contains(s, pat) ==> r == s
    ensures IsPrefix(pat, s) ==> IsPrefix(sub, r)
    ensures forall i :: 0 <= i < |r| ==> r[i] in s || r[i] in sub
    decreases |s|
  {
    if IsPrefix(pat, s) then sub + Replace(s[|pat|..], pat, sub)
    else if s == [] then []
    else [s[0]] + Replace(s[1..], pat, sub)
  }

  /** Replacing a pattern by itself leaves every text unchanged. */
  lemma {:induction false} ReplaceSelf(s: string, pat: string)
    requires |pat| > 0
    ensures Replace(s, pat, pat) == s
    decreases |s|
  {
    if IsPrefix(pat, s) {
      ReplaceSelf(s[|pat|..], pat);
      assert s == pat + s[|pat|..];
    } else if s != [] {
      ReplaceSelf(s[1..], pat);
      assert s == [s[0]] + s[1..];
    }
  }

  /** Length of the longest prefix of `s` whose characters all satisfy `p`. */
  function RunLen(s: string, p: char -> bool): (n: nat)
    ensures n <= |s|
    ensures forall i :: 0 <= i < n ==> p(s[i])
    ensures n < |s| ==> !p(s[n])
  {
    if s == [] || !p(s[0]) then 0 else 1 + RunLen(s[1..], p)
  }

  /** The maximal runs of characters satisfying `p`, in order. */
  function Runs(s: string, p: char -> bool): (rs: seq<string>)
    ensures forall k :: 0 <= k < |rs| ==> rs[k] != [] && forall i :: 0 <= i < |rs[k]| ==> p(rs[k][i])
    decreases |s|
  {
    if s == [] then []
    else if !p(s[0]) then Runs(s[1..], p)
    else
      var n := RunLen(s, p);
      [s[..n]] + Runs(s[n..], p)
  }

  /** A run grows no further past a character without the property. */
  lemma {:induction false} RunLenExtend(a: string, t: string, p: char -> bool)
    requires RunLen(a, p) < |a| || (t != [] && !p(t[0]))
    ensures RunLen(a + t, p) == RunLen(a, p)
  {
    if a != [] {
      assert (a + t)[0] == a[0];
      if p(a[0]) {
        assert (a + t)[1..] == a[1..] + t;
        RunLenExtend(a[1..], t, p);
      }
    }
  }

  /** A character without the property separates runs: the runs of `a + [c] + b` are
      those of `a` followed by those of `b`. With `RunsOfRun` and `RunsOfGap` this fixes
      the runs of every string. */
  lemma {:induction false} RunsSplit(a: string, c: char, b: string, p: char -> bool)
    requires !p(c)
    ensures Runs(a + [c] + b, p) == Runs(a, p) + Runs(b, p)
    decreases |a|
  {
    var s := a + [c] + b;
    if a == [] {
      assert s[0] == c && s[1..] == b;
    } else if !p(a[0]) {
      assert s[0] == a[0] && s[1..] == a[1..] + [c] + b;
      RunsSplit(a[1..], c, b, p);
    } else {
      assert s[0] == a[0];
      var n := RunLen(a, p);
      RunLenExtend(a, [c] + b, p);
      assert s == a + ([c] + b);
      assert s[..n] == a[..n];
      assert s[n..] == a[n..] + [c] + b;
      RunsSplit(a[n..], c, b, p);
      assert Runs(s, p) == [a[..n]] + Runs(s[n..], p);
      Sorting.ConsAppend(a[..n], Runs(a[n..], p), Runs(b, p));
    }
  }

  /** A non-empty stretch of characters with the property is one run. */
  lemma RunsOfRun(w: string, p: char -> bool)
    requires w != [] && forall i :: 0 <= i < |w| ==> p(w[i])
    ensures Runs(w, p) == [w]
  {
    assert RunLen(w, p) == |w|;
    assert w[..|w|] == w && w[|w|..] == [];
  }

  /** A stretch without any character with the property holds no run. */
  lemma {:induction false} RunsOfGap(g: string, p: char -> bool)
    requires forall i :: 0 <= i < |g| ==> !p(g[i])
    ensures Runs(g, p) == []
  {
    if g != [] {
      RunsOfGap(g[1..], p);
    }
  }

  predicate NotSpace(c: char) { !IsSpace(c) }

  /** `s.split()`: the maximal runs of non-whitespace characters, in order. */
  function Words(s: string): (ws: seq<string>)
    ensures forall k :: 0 <= k < |ws| ==> ws[k] != [] && forall i :: 0 <= i < |ws[k]| ==> !IsSpace(ws[k][i])
  {
    Runs(s, NotSpace)
  }

  /** A whitespace character ends a word: `(a + c + b).split()` is `a.split() + b.split()`. */
  lemma WordsSplit(a: string, c: char, b: string)
    requires IsSpace(c)
    ensures Words(a + [c] + b) == Words(a) + Words(b)
  {
    RunsSplit(a, c, b, NotSpace);
  }

  /** Text without whitespace splits into itself alone, and blank text into nothing. */
  lemma WordsOfWordAndBlank(w: string, g: string)
    requires w != [] && forall i :: 0 <= i < |w| ==> !IsSpace(w[i])
    requires forall i :: 0 <= i < |g| ==> IsSpace(g[i])
    ensures Words(w) == [w]
    ensures Words(g) == []
  {
    RunsOfRun(w, NotSpace);
    RunsOfGap(g, NotSpace);
  }

  /** `sep.join(parts)`. */
  function Join(sep: string, parts: seq<string>): (r: string)
    ensures |parts| == 1 ==> r == parts[0]
    decreases |parts|
  {
    if |parts| == 0 then []
    else if |parts| == 1 then parts[0]
    else parts[0] + sep + Join(sep, parts[1..])
  }

  /** Joining two non-empty lists is joining each and putting the separator between. */
  lemma {:induction false} JoinAppend(sep: string, a: seq<string>, b: seq<string>)
    requires a != [] && b != []
    ensures Join(sep, a + b) == Join(sep, a) + sep + Join(sep, b)
    decreases |a|
  {
    assert (a + b)[0] == a[0] && (a + b)[1..] == a[1..] + b;
    if |a| > 1 {
      JoinAppend(sep, a[1..], b);
    }
  }

  /** The last two items of a list joined by a space. */
  lemma LastTwoJoined(items: seq<string>)
    requires |items| >= 2
    ensures Join(" ", LastN(items, 2)) == items[|items| - 2] + " " + items[|items| - 1]
  {
    var x, y := items[|items| - 2], items[|items| - 1];
    assert LastN(items, 2) == [x, y];
    assert [x, y][1..] == [y];
  }

  function DigitChar(d: nat): (c: char)
    requires d < 10
    ensures '0' <= c <= '9'
  {
    ('0' as int + d) as char
  }

  predicate AllDigits(s: string) {
    forall i :: 0 <= i < |s| ==> '0' <= s[i] <= '9'
  }

  /** The number a string of decimal digits denotes, read most significant digit first. */
  function DecimalValue(s: string): nat
    requires AllDigits(s)
  {
    if s == [] then 0 else 10 * DecimalValue(s[..|s| - 1]) + (s[|s| - 1] as int - '0' as int)
  }

  /** `str(n)` for a non-negative integer: its decimal digits without leading zeros. */
  function NatToString(n: nat): (r: string)
    ensures |r| > 0
    ensures AllDigits(r)
    ensures |r| > 1 ==> r[0] != '0'
    ensures DecimalValue(r) == n
  {
    if n < 10 then [DigitChar(n)]
    else
      var high := NatToString(n / 10);
      var r := high + [DigitChar(n % 10)];
      assert r[..|r| - 1] == high;
      r
  }

  /** Python's `s[-n:]` for an integer `n`: `n == 0` keeps everything, a positive `n`
      keeps the last `n` items, a negative `n` drops the first `-n`. */
  function LastN<T>(s: seq<T>, n: int): (r: seq<T>)
    ensures n > 0 ==> |r| == (if n < |s| then n else |s|)
    ensures n == 0 ==> r == s
    ensures IsSuffixOf(r, s)
  {
    if n == 0 then s
    else if n > 0 then (if n < |s| then s[|s| - n..] else s)
    else (if -n < |s| then s[-n..] else [])
  }

  ghost predicate IsSuffixOf<T>(r: seq<T>, s: seq<T>) {
    |r| <= |s| && s[|s| - |r|..] == r
  }
}

=== FILE: text_processor.dfy ===
/** Text normalisation and embedding helpers (`TextProcessor`). The sentence
    transformer is uninterpreted: a fixed embedding dimension, an encoder, and the
    cosine similarity of two vectors. Batch encoding is taken to give the same vectors
    as encoding each text alone. */
module TextProcessor {
  import opened Common
  import opened Strings
  import Sorting

  datatype EmbeddingModel = EmbeddingModel(
    dim: nat,
    encode: string -> seq<real>,
    cosine: (seq<real>, seq<real>) -> real)

  function Zeros(n: nat): (v: seq<real>)
    ensures |v| == n && forall i :: 0 <= i < n ==> v[i] == 0.0
  {
    seq(n, i => 0.0)
  }

  // ---------------------------------------------------------------------------
  // _clean_text
  // ---------------------------------------------------------------------------

  /** Characters the cleaning regex keeps: word characters, whitespace and `. ! ? , - '`. */
  predicate KeptChar(c: char) {
    IsWordChar(c) || IsSpace(c) || c in ".!?,-'"
  }

  /** `re.sub(r"[^\w\s\.\!\?\,\-']", "", s)`. */
  function RemoveSpecial(s: string): (r: string)
    ensures forall i :: 0 <= i < |r| ==> KeptChar(r[i])
    ensures NoUpper(s) ==> NoUpper(r)
    ensures (forall i :: 0 <= i < |s| ==> KeptChar(s[i])) ==> r == s
  {
    if s == [] then []
    else (if KeptChar(s[0]) then [s[0]] else []) + RemoveSpecial(s[1..])
  }

  /** The substitution works character by character: the text of a concatenation is
      cleaned piecewise, so the kept characters stay in order and none is duplicated. */
  lemma {:induction false} RemoveSpecialSplit(a: string, b: string)
    ensures RemoveSpecial(a + b) == RemoveSpecial(a) + RemoveSpecial(b)
  {
    if a != [] {
      assert (a + b)[1..] == a[1..] + b;
      RemoveSpecialSplit(a[1..], b);
    } else {
      assert a + b == b;
    }
  }

  /** One character survives iff the regex keeps it. */
  lemma RemoveSpecialOne(c: char)
    ensures RemoveSpecial([c]) == (if KeptChar(c) then [c] else [])
  {
  }

  /** `re.sub(r"\s+", " ", s)`: each maximal whitespace run becomes one space. */
  function CollapseSpaces(s: string): (r: string)
    ensures forall i :: 0 <= i < |r| ==> r[i] == ' ' || !IsSpace(r[i])
    ensures |r| == 0 <==> |s| == 0
    ensures |r| > 0 ==> (IsSpace(r[0]) <==> IsSpace(s[0]))
    decreases |s|
  {
    if s == [] then []
    else if IsSpace(s[0]) then
      var n := RunLen(s, IsSpace);
      [' '] + CollapseSpaces(s[n..])
    else [s[0]] + CollapseSpaces(s[1..])
  }

  /** After collapsing, no two whitespace characters are adjacent. */
  lemma {:induction false} CollapseSingleSpaced(s: string)
    ensures SingleSpaced(CollapseSpaces(s))
    decreases |s|
  {
    if s != [] {
      var r := CollapseSpaces(s);
      var n := if IsSpace(s[0]) then RunLen(s, IsSpace) else 1;
      var rest := CollapseSpaces(s[n..]);
      CollapseSingleSpaced(s[n..]);
      assert r == [r[0]] + rest;
      assert IsSpace(r[0]) && rest != [] ==> !IsSpace(rest[0]);
      forall i, j | 0 <= i < j < |r| && j == i + 1 ensures !IsSpace(r[i]) || !IsSpace(r[j]) {
        if i > 0 {
          assert r[i] == rest[i - 1] && r[j] == rest[j - 1];
        }
      }
    }
  }

  /** Collapsing whitespace introduces no character but the plain space. */
  lemma {:induction false} CollapseKeepsChars(s: string, p: char -> bool)
    requires forall i :: 0 <= i < |s| ==> IsSpace(s[i]) || p(s[i])
    ensures forall i :: 0 <= i < |CollapseSpaces(s)| ==> CollapseSpaces(s)[i] == ' ' || p(CollapseSpaces(s)[i])
    decreases |s|
  {
    if s != [] {
      var n := if IsSpace(s[0]) then RunLen(s, IsSpace) else 1;
      CollapseKeepsChars(s[n..], p);
    }
  }

  /** Only the plain space occurs as whitespace, never twice in a row. */
  ghost predicate SingleSpaced(t: string) {
    && (forall i :: 0 <= i < |t| ==> t[i] == ' ' || !IsSpace(t[i]))
    && (forall i, j :: 0 <= i < j < |t| && j == i + 1 ==> !IsSpace(t[i]) || !IsSpace(t[j]))
  }

  predicate CleanChar(c: char) {
    c == ' ' || (KeptChar(c) && !IsSpace(c) && !IsUpper(c))
  }

  /** `strip()` keeps a contiguous slice, so per-character and adjacency facts survive it. */
  lemma TrimKeepsShape(c: string)
    requires SingleSpaced(c) && forall i :: 0 <= i < |c| ==> CleanChar(c[i])
    ensures SingleSpaced(Trim(c)) && forall i :: 0 <= i < |Trim(c)| ==> CleanChar(Trim(c)[i])
  {
    TrimIsSlice(c);
    SliceKeepsShape(c, Trim(c), TrimOffset(c));
  }

  lemma SliceKeepsShape(c: string, r: string, lo: nat)
    requires lo + |r| <= |c| && r == c[lo..lo + |r|]
    requires SingleSpaced(c) && forall i :: 0 <= i < |c| ==> CleanChar(c[i])
    ensures SingleSpaced(r) && forall i :: 0 <= i < |r| ==> CleanChar(r[i])
  {
    assert forall i :: 0 <= i < |r| ==> r[i] == c[lo + i];
  }

  /** `_clean_text`: lower-case, drop special characters, collapse whitespace, strip. */
  function CleanText(s: string): (r: string)
    ensures forall i :: 0 <= i < |r| ==> CleanChar(r[i])
    ensures NoUpper(r)
    ensures r == [] || (!IsSpace(r[0]) && !IsSpace(r[|r| - 1]))
    ensures SingleSpaced(r)
  {
    var l := Lower(s);
    LowerIsLower(s);
    var k := RemoveSpecial(l);
    var c := CollapseSpaces(k);
    CollapseKeepsChars(k, CleanChar);
    CollapseSingleSpaced(k);
    TrimKeepsShape(c);
    Trim(c)
  }

  lemma {:induction false} CollapseKeepsPrefix(s: string, n: nat)
    requires n <= |s| && forall i :: 0 <= i < n ==> !IsSpace(s[i])
    ensures CollapseSpaces(s) == s[..n] + CollapseSpaces(s[n..])
  {
    if n > 0 {
      CollapseKeepsPrefix(s[1..], n - 1);
      assert s[1..][n - 1..] == s[n..];
      assert s[..n] == [s[0]] + s[1..][..n - 1];
    }
  }

  lemma {:induction false} WordsSkipSpaces(s: string, n: nat)
    requires n <= |s| && forall i :: 0 <= i < n ==> IsSpace(s[i])
    ensures Words(s) == Words(s[n..])
  {
    if n > 0 {
      WordsSkipSpaces(s[1..], n - 1);
      assert s[1..][n - 1..] == s[n..];
    }
  }

  lemma JoinCons(w: string, ws: seq<string>)
    requires ws != []
    ensures Join(" ", [w] + ws) == w + " " + Join(" ", ws)
  {
    assert ([w] + ws)[1..] == ws;
  }

  /** A space-joined list of non-empty, space-free words neither starts nor ends with whitespace. */
  lemma {:induction false} JoinedWordsTrimmed(ws: seq<string>)
    requires forall k :: 0 <= k < |ws| ==> ws[k] != [] && forall i :: 0 <= i < |ws[k]| ==> !IsSpace(ws[k][i])
    ensures var j := Join(" ", ws); (j == [] <==> ws == []) && (j == [] || (!IsSpace(j[0]) && !IsSpace(j[|j| - 1])))
  {
    if |ws| > 1 {
      JoinedWordsTrimmed(ws[1..]);
      JoinCons(ws[0], ws[1..]);
    }
  }

  function TrailingSpace(s: string): string {
    if s != [] && IsSpace(s[|s| - 1]) then " " else ""
  }

  /** The words of a text that starts with a word: that word, then the words of the rest. */
  lemma WordsFromWord(s: string)
    requires s != [] && !IsSpace(s[0])
    ensures Words(s) == [s[..RunLen(s, NotSpace)]] + Words(s[RunLen(s, NotSpace)..])
  {
  }

  /** A whitespace run collapses to one space and contributes no word. */
  lemma SpacesStep(r: string)
    requires r != [] && IsSpace(r[0])
    ensures var n := RunLen(r, IsSpace);
      && CollapseSpaces(r) == [' '] + CollapseSpaces(r[n..])
      && Words(r) == Words(r[n..])
      && (r[n..] == [] || !IsSpace(r[n..][0]))
      && TrailingSpace(r) == (if r[n..] == [] then " " else TrailingSpace(r[n..]))
  {
    var n := RunLen(r, IsSpace);
    WordsSkipSpaces(r, n);
    if r[n..] != [] {
      assert r[|r| - 1] == r[n..][|r[n..]| - 1];
    }
  }

  /** Collapsing a text that starts with a word yields its words joined by single
      spaces, plus one space when the text ends in whitespace. */
  lemma {:induction false} CollapseIsJoinedWords(s: string)
    requires s == [] || !IsSpace(s[0])
    ensures CollapseSpaces(s) == Join(" ", Words(s)) + TrailingSpace(s)
    decreases |s|
  {
    if s != [] {
      var t := RunLen(s, NotSpace);
      var w := s[..t];
      var rest := s[t..];
      CollapseKeepsPrefix(s, t);
      WordsFromWord(s);
      if rest == [] {
        assert s == w;
        assert Words(rest) == [];
      } else {
        assert s[|s| - 1] == rest[|rest| - 1];
        SpacesStep(rest);
        var rest' := rest[RunLen(rest, IsSpace)..];
        if rest' == [] {
          assert Words(rest') == [];
        } else {
          var ws := Words(rest');
          assert Words(s) == [w] + ws;
          assert TrailingSpace(s) == TrailingSpace(rest');
          calc {
            CollapseSpaces(s);
            w + CollapseSpaces(rest);
            w + ([' '] + CollapseSpaces(rest'));
            { CollapseIsJoinedWords(rest'); }
            w + ([' '] + (Join(" ", ws) + TrailingSpace(rest')));
            { JoinSpaceAssoc(w, Join(" ", ws), TrailingSpace(rest')); }
            (w + " " + Join(" ", ws)) + TrailingSpace(rest');
            { WordsFromWord(rest'); JoinCons(w, ws); }
            Join(" ", [w] + ws) + TrailingSpace(rest');
          }
        }
      }
    }
  }

  lemma JoinSpaceAssoc(w: string, j: string, t: string)
    ensures w + ([' '] + (j + t)) == (w + " " + j) + t
  {
  }

  lemma TrimLeftStep(s: string)
    requires s != [] && IsSpace(s[0])
    ensures TrimLeft(s) == TrimLeft(s[1..])
  {
  }

  lemma TrimRightStep(s: string)
    requires s != [] && IsSpace(s[|s| - 1])
    ensures TrimRight(s) == TrimRight(s[..|s| - 1])
  {
  }

  lemma {:induction false} TrimLeftBlankPrefix(a: string, x: string)
    requires IsBlank(a)
    ensures TrimLeft(a + x) == TrimLeft(x)
  {
    if a != [] {
      var ax := a + x;
      assert ax[0] == a[0];
      TrimLeftStep(ax);
      assert ax[1..] == a[1..] + x;
      TrimLeftBlankPrefix(a[1..], x);
    } else {
      assert a + x == x;
    }
  }

  lemma {:induction false} TrimRightBlankSuffix(x: string, b: string)
    requires IsBlank(b)
    ensures TrimRight(x + b) == TrimRight(x)
    decreases |b|
  {
    if b != [] {
      var xb := x + b;
      assert xb[|xb| - 1] == b[|b| - 1];
      TrimRightStep(xb);
      assert xb[..|xb| - 1] == x + b[..|b| - 1];
      TrimRightBlankSuffix(x, b[..|b| - 1]);
    } else {
      assert x + b == x;
    }
  }

  lemma TrimAround(a: string, m: string, b: string)
    requires IsBlank(a) && IsBlank(b)
    requires m == [] || (!IsSpace(m[0]) && !IsSpace(m[|m| - 1]))
    ensures Trim(a + (m + b)) == m
  {
    TrimLeftBlankPrefix(a, m + b);
    if m == [] {
      assert IsBlank(m + b);
    } else {
      assert TrimLeft(m + b) == m + b;
      TrimRightBlankSuffix(m, b);
    }
  }

  lemma TrimTrailing(m: string, b: string)
    requires IsBlank(b)
    requires m == [] || (!IsSpace(m[0]) && !IsSpace(m[|m| - 1]))
    ensures Trim(m + b) == m
  {
    TrimAround([], m, b);
    assert [] + (m + b) == m + b;
  }

  /** `re.sub(r"\s+", " ", t).strip()` equals `" ".join(t.split())`. */
  lemma CollapseTrimIsJoinedWords(k: string)
    ensures Trim(CollapseSpaces(k)) == Join(" ", Words(k))
  {
    if k != [] && IsSpace(k[0]) {
      LeadingSpaceCollapse(k);
    } else {
      WordFirstCollapse(k);
    }
  }

  lemma LeadingSpaceCollapse(k: string)
    requires k != [] && IsSpace(k[0])
    ensures Trim(CollapseSpaces(k)) == Join(" ", Words(k))
  {
    var k' := k[RunLen(k, IsSpace)..];
    CollapseAfterSpaces(k);
    TrimJoinedWords(Words(k'), [' '], TrailingSpace(k'));
  }

  /** A text that starts with whitespace collapses to one space and then the words of
      the rest. */
  lemma CollapseAfterSpaces(k: string)
    requires k != [] && IsSpace(k[0])
    ensures var k' := k[RunLen(k, IsSpace)..];
      && CollapseSpaces(k) == [' '] + (Join(" ", Words(k')) + TrailingSpace(k'))
      && Words(k) == Words(k')
  {
    SpacesStep(k);
    CollapseIsJoinedWords(k[RunLen(k, IsSpace)..]);
  }

  /** Words joined by single spaces survive `strip()` of surrounding whitespace. */
  lemma TrimJoinedWords(ws: seq<string>, a: string, b: string)
    requires forall k :: 0 <= k < |ws| ==> ws[k] != [] && forall i :: 0 <= i < |ws[k]| ==> !IsSpace(ws[k][i])
    requires IsBlank(a) && IsBlank(b)
    ensures Trim(a + (Join(" ", ws) + b)) == Join(" ", ws)
    ensures Trim(Join(" ", ws) + b) == Join(" ", ws)
  {
    JoinedWordsTrimmed(ws);
    TrimAround(a, Join(" ", ws), b);
    TrimTrailing(Join(" ", ws), b);
  }

  lemma WordFirstCollapse(k: string)
    requires k == [] || !IsSpace(k[0])
    ensures Trim(CollapseSpaces(k)) == Join(" ", Words(k))
  {
    CollapseIsJoinedWords(k);
    TrimJoinedWords(Words(k), [], TrailingSpace(k));
  }

  /** `_clean_text` equals `" ".join(t.split())` on the lower-cased text with special
      characters removed: the regex pipeline and the split/join idiom agree. */
  lemma CleanTextIsJoinedWords(s: string)
    ensures CleanText(s) == Join(" ", Words(RemoveSpecial(Lower(s))))
  {
    CollapseTrimIsJoinedWords(RemoveSpecial(Lower(s)));
  }

  lemma {:induction false} CollapseFixpoint(t: string)
    requires SingleSpaced(t)
    ensures CollapseSpaces(t) == t
  {
    if t != [] {
      assert SingleSpaced(t[1..]);
      CollapseFixpoint(t[1..]);
      if IsSpace(t[0]) {
        assert RunLen(t, IsSpace) == 1;
      }
    }
  }

  /** Cleaning a cleaned text changes nothing. */
  lemma CleanTextIdempotent(s: string)
    ensures CleanText(CleanText(s)) == CleanText(s)
  {
    var r := CleanText(s);
    LowerIsLower(r);
    assert RemoveSpecial(Lower(r)) == r;
    CollapseFixpoint(r);
    assert TrimLeft(r) == r;
  }

  // ---------------------------------------------------------------------------
  // preprocess_text, get_text_vector, get_similarity, get_batch_similarities
  // ---------------------------------------------------------------------------

  datatype Processed = Processed(original: string, cleaned: string, vector: seq<real>, vectorDim: nat)

  /** `get_text_vector`: the zero vector for blank text, otherwise the text's embedding. */
  function GetTextVector(text: string, m: EmbeddingModel): (v: seq<real>)
    ensures IsBlank(text) ==> |v| == m.dim && forall i :: 0 <= i < |v| ==> v[i] == 0.0
    ensures !IsBlank(text) ==> v == m.encode(text)
  {
    if IsBlank(text) then Zeros(m.dim) else m.encode(text)
  }

  /** `preprocess_text`: rejects blank input; otherwise cleans the text and embeds the RAW text. */
  function PreprocessText(text: string, m: EmbeddingModel): (r: Result<Processed>)
    ensures r.Err? <==> IsBlank(text)
    ensures r.Err? ==> r.error.TextProcessingError?
    ensures r.Ok? ==> r.value.original == text && r.value.cleaned == CleanText(text)
    ensures r.Ok? ==> r.value.vector == m.encode(text) && r.value.vectorDim == |r.value.vector|
  {
    if IsBlank(text) then Err(TextProcessingError("Input text cannot be empty"))
    else
      var v := GetTextVector(text, m);
      Ok(Processed(text, CleanText(text), v, |v|))
  }

  /** `get_similarity`: 0.0 when either text is blank. */
  function GetSimilarity(t1: string, t2: string, m: EmbeddingModel): (r: real)
    ensures IsBlank(t1) || IsBlank(t2) ==> r == 0.0
    ensures !IsBlank(t1) && !IsBlank(t2) ==> r == m.cosine(m.encode(t1), m.encode(t2))
  {
    if IsBlank(t1) || IsBlank(t2) then 0.0 else m.cosine(m.encode(t1), m.encode(t2))
  }

  /** `get_batch_similarities`: one score per candidate; blank candidates are
      embedded as a single space, and a blank query gives all zeros. */
  function GetBatchSimilarities(query: string, candidates: seq<string>, m: EmbeddingModel): (r: seq<real>)
    ensures |r| == |candidates|
    ensures IsBlank(query) ==> forall i :: 0 <= i < |r| ==> r[i] == 0.0
    ensures !IsBlank(query) ==> forall i :: 0 <= i < |r| ==>
      r[i] == m.cosine(m.encode(query), m.encode(if IsBlank(candidates[i]) then " " else candidates[i]))
  {
    if IsBlank(query) || candidates == [] then Zeros(|candidates|)
    else
      seq(|candidates|, i requires 0 <= i < |candidates| =>
        m.cosine(m.encode(query), m.encode(if IsBlank(candidates[i]) then " " else candidates[i])))
  }

  // ---------------------------------------------------------------------------
  // extract_keywords
  // ---------------------------------------------------------------------------

  const Stopwords: set<string> := {"the", "a", "an", "in", "to", "for", "of", "on", "with", "is", "are", "was", "were"}

  /** Python's `s[:n]` for an integer `n` (a negative `n` drops the last `-n` items). */
  function PyTake<T>(s: seq<T>, n: int): (r: seq<T>)
    ensures n >= 0 ==> |r| == (if n < |s| then n else |s|)
    ensures |r| <= |s| && r == s[..|r|]
  {
    if n >= 0 then (if n < |s| then s[..n] else s)
    else (if -n < |s| then s[..|s| + n] else [])
  }

  /** Whether a word run qualifies as a keyword: three or more characters and no stopword. */
  predicate IsKeyword(w: string) {
    |w| >= 3 && w !in Stopwords
  }

  /** `re.findall(r"\w+", text.lower())`: the maximal word-character runs of the lower-cased text. */
  function WordRuns(text: string): seq<string> {
    Runs(Lower(text), IsWordChar)
  }

  /** The word runs that qualify as keywords, in order, before truncation to `n`. */
  function KeywordCandidates(text: string): (ks: seq<string>)
    ensures forall k :: 0 <= k < |ks| ==> ks[k] in WordRuns(text) && IsKeyword(ks[k])
    ensures forall k :: 0 <= k < |WordRuns(text)| && IsKeyword(WordRuns(text)[k]) ==> WordRuns(text)[k] in ks
  {
    Sorting.Filter(WordRuns(text), IsKeyword)
  }

  /** `extract_keywords`: at most `n` lower-case words of three or more word characters,
      none a stopword, in order of appearance. */
  function ExtractKeywords(text: string, n: int): (r: seq<string>)
    ensures n >= 0 ==> |r| == (if n < |KeywordCandidates(text)| then n else |KeywordCandidates(text)|)
    ensures |r| <= |KeywordCandidates(text)| && r == KeywordCandidates(text)[..|r|]
    ensures forall k :: 0 <= k < |r| ==>
      |r[k]| >= 3 && r[k] !in Stopwords && NoUpper(r[k]) && forall i :: 0 <= i < |r[k]| ==> IsWordChar(r[k][i])
  {
    var ks := KeywordCandidates(text);
    var r := PyTake(ks, n);
    forall k | 0 <= k < |r| ensures NoUpper(r[k]) && forall i :: 0 <= i < |r[k]| ==> IsWordChar(r[k][i]) {
      assert r[k] == ks[k];
      RunsOfLowered(text, ks[k]);
    }
    r
  }

  /** Every word run of lower-cased text is itself lower-case. */
  lemma RunsOfLowered(text: string, w: string)
    requires w in Runs(Lower(text), IsWordChar)
    ensures NoUpper(w) && forall i :: 0 <= i < |w| ==> IsWordChar(w[i])
  {
    var l := Lower(text);
    LowerIsLower(text);
    RunsAreSlices(l, IsWordChar, w);
  }

  lemma {:induction false} RunsAreSlices(s: string, p: char -> bool, w: string)
    requires w in Runs(s, p)
    ensures forall i :: 0 <= i < |w| ==> w[i] in s
    decreases |s|
  {
    if s != [] {
      if !p(s[0]) {
        RunsAreSlices(s[1..], p, w);
      } else {
        var n := RunLen(s, p);
        if w != s[..n] {
          RunsAreSlices(s[n..], p, w);
        }
      }
    }
  }

  /** Asking for fewer keywords gives a prefix of the longer answer. */
  lemma KeywordsPrefix(text: string, n: int, m: int)
    requires 0 <= n <= m
    ensures ExtractKeywords(text, n) == ExtractKeywords(text, m)[..|ExtractKeywords(text, n)|]
  {
  }

  // ---------------------------------------------------------------------------
  // batch_process_texts
  // ---------------------------------------------------------------------------

  datatype BatchEntry =
    | Done(original: string, cleaned: string, vector: seq<real>)
    | Failed(original: string, error: string, vector: seq<real>)
  {
    function VectorDim(): nat { |vector| }
  }

  const EmptyTextError: string := "Empty or invalid text"

  /** The entry `batch_process_texts` produces for a single text. */
  function EntryFor(text: string, m: EmbeddingModel): BatchEntry {
    if IsBlank(text) then Failed(text, EmptyTextError, Zeros(m.dim))
    else Done(text, CleanText(text), m.encode(text))
  }

  /** The first pass of `batch_process_texts`: the non-blank texts and their positions, in order. */
  method CollectValid(texts: seq<string>) returns (valid: seq<string>, indices: seq<nat>)
    ensures |valid| == |indices|
    ensures forall k :: 0 <= k < |indices| ==> indices[k] < |texts| && valid[k] == texts[indices[k]]
    ensures forall k :: 0 <= k < |valid| ==> !IsBlank(valid[k])
    ensures forall k, l :: 0 <= k < l < |indices| ==> indices[k] < indices[l]
    ensures forall j :: 0 <= j < |texts| && !IsBlank(texts[j]) ==> j in indices
  {
    valid, indices := [], [];
    var i := 0;
    while i < |texts|
      invariant 0 <= i <= |texts|
      invariant |valid| == |indices|
      invariant forall k :: 0 <= k < |indices| ==> indices[k] < i && valid[k] == texts[indices[k]]
      invariant forall k :: 0 <= k < |valid| ==> !IsBlank(valid[k])
      invariant forall k, l :: 0 <= k < l < |indices| ==> indices[k] < indices[l]
      invariant forall j :: 0 <= j < i && !IsBlank(texts[j]) ==> j in indices
    {
      if !IsBlank(texts[i]) {
        valid := valid + [texts[i]];
        indices := indices + [i];
      }
      i := i + 1;
    }
  }

  /** The second pass: `results[text_idx] = ...` for each processed text, leaving
      every other position `None`. */
  method PlaceAt<T>(n: nat, indices: seq<nat>, entries: seq<T>) returns (slots: seq<Option<T>>)
    requires |indices| == |entries|
    requires forall k :: 0 <= k < |indices| ==> indices[k] < n
    requires forall k, l :: 0 <= k < l < |indices| ==> indices[k] < indices[l]
    ensures |slots| == n
    ensures forall q :: 0 <= q < |indices| ==> slots[indices[q]] == Some(entries[q])
    ensures forall j :: 0 <= j < n && j !in indices ==> slots[j] == None
  {
    slots := seq(n, _ => None);
    var k := 0;
    while k < |indices|
      invariant 0 <= k <= |indices|
      invariant |slots| == n
      invariant forall q :: 0 <= q < k ==> slots[indices[q]] == Some(entries[q])
      invariant forall j :: 0 <= j < n && j !in indices[..k] ==> slots[j] == None
    {
      slots := slots[indices[k] := Some(entries[k])];
      assert indices[..k + 1] == indices[..k] + [indices[k]];
      k := k + 1;
    }
    assert indices[..k] == indices;
  }

  /** `batch_process_texts`: one entry per input, at the same index. Non-blank texts
      are encoded together; blank ones get an error entry with a zero vector. */
  method BatchProcessTexts(texts: seq<string>, m: EmbeddingModel) returns (results: seq<BatchEntry>)
    ensures |results| == |texts|
    ensures forall i :: 0 <= i < |texts| && IsBlank(texts[i]) ==>
      results[i] == Failed(texts[i], EmptyTextError, Zeros(m.dim))
    ensures forall i :: 0 <= i < |texts| && !IsBlank(texts[i]) ==>
      results[i] == Done(texts[i], CleanText(texts[i]), m.encode(texts[i]))
  {
    if texts == [] {
      return [];
    }
    var valid, indices := CollectValid(texts);
    var vectors := seq(|valid|, k requires 0 <= k < |valid| => m.encode(valid[k]));
    var entries := seq(|valid|, k requires 0 <= k < |valid| => Done(valid[k], CleanText(valid[k]), vectors[k]));
    var slots := PlaceAt(|texts|, indices, entries);
    results := seq(|texts|, q requires 0 <= q < |texts| => Fill(slots[q], texts[q], m));
    // Every non-blank text was placed, and every position left empty held a blank text.
    forall q | 0 <= q < |texts| ensures results[q] == EntryFor(texts[q], m) {
      if !IsBlank(texts[q]) {
        var p :| 0 <= p < |indices| && indices[p] == q;
        assert slots[q] == Some(entries[p]);
      }
    }
  }

  /** The third pass: a position still `None` gets the error entry. */
  function Fill(slot: Option<BatchEntry>, text: string, m: EmbeddingModel): (e: BatchEntry)
    ensures slot.None? ==> e == Failed(text, EmptyTextError, Zeros(m.dim))
    ensures slot.Some? ==> e == slot.value
  {
    if slot.Some? then slot.value else Failed(text, EmptyTextError, Zeros(m.dim))
  }

  // ---------------------------------------------------------------------------
  // find_most_similar
  // ---------------------------------------------------------------------------

  function Second(p: (string, real)): real { p.1 }

  function Zip(xs: seq<string>, ys: seq<real>): (r: seq<(string, real)>)
    requires |xs| == |ys|
    ensures |r| == |xs| && forall i :: 0 <= i < |r| ==> r[i] == (xs[i], ys[i])
  {
    seq(|xs|, i requires 0 <= i < |xs| => (xs[i], ys[i]))
  }

  /** Each candidate paired with its similarity to the query, in candidate order. */
  function ScoredCandidates(query: string, candidates: seq<string>, m: EmbeddingModel): seq<(string, real)> {
    Zip(candidates, GetBatchSimilarities(query, candidates, m))
  }

  /** Taking from the front of an arrangement of `s` keeps part of `s` ... */
  lemma {:induction false} TakeSubBag<T>(s: seq<T>, sorted: seq<T>, topK: int)
    requires multiset(sorted) == multiset(s)
    ensures multiset(PyTake(sorted, topK)) <= multiset(s)
  {
    var r := PyTake(sorted, topK);
    assert sorted == r + sorted[|r|..];
  }

  /** ... and when the arrangement is best-first, the part it keeps is the best: nothing
      left behind beats the last one kept. */
  lemma {:induction false} TakeBest<T>(s: seq<T>, sorted: seq<T>, topK: int, key: T -> real)
    requires Sorting.SortedDesc(sorted, key) && multiset(sorted) == multiset(s)
    ensures var r := PyTake(sorted, topK);
      r != [] ==> forall x :: multiset(r)[x] < multiset(s)[x] ==> key(x) <= key(r[|r| - 1])
  {
    var r := PyTake(sorted, topK);
    if r != [] {
      var n := |r|;
      assert r == sorted[..n];
      Sorting.PrefixIsBest(sorted, n, key);
    }
  }

  /** The `top_k` best of some scored pairs, best first: a sub-bag of the pairs
      such that every pair left out scores no higher than the last one kept. */
  function BestPairs(pairs: seq<(string, real)>, topK: int): (r: seq<(string, real)>)
    ensures topK >= 0 ==> |r| == (if topK < |pairs| then topK else |pairs|)
    ensures Sorting.SortedDesc(r, Second)
    ensures multiset(r) <= multiset(pairs)
    ensures r != [] ==> forall p :: multiset(r)[p] < multiset(pairs)[p] ==> Second(p) <= Second(r[|r| - 1])
  {
    TakeSubBag(pairs, Sorting.SortDesc(pairs, Second), topK);
    TakeBest(pairs, Sorting.SortDesc(pairs, Second), topK, Second);
    PyTake(Sorting.SortDesc(pairs, Second), topK)
  }

  /** `find_most_similar`: the `top_k` candidates most similar to the query, with
      their similarities, best first. */
  function FindMostSimilar(query: string, candidates: seq<string>, topK: int, m: EmbeddingModel): (r: seq<(string, real)>)
    ensures candidates == [] ==> r == []
    ensures topK >= 0 ==> |r| == (if topK < |candidates| then topK else |candidates|)
    ensures Sorting.SortedDesc(r, Second)
    ensures multiset(r) <= multiset(ScoredCandidates(query, candidates, m))
    ensures r != [] ==> forall p :: multiset(r)[p] < multiset(ScoredCandidates(query, candidates, m))[p] ==>
      Second(p) <= Second(r[|r| - 1])
  {
    if candidates == [] then []
    else
      var pairs := ScoredCandidates(query, candidates, m);
      assert |pairs| == |candidates|;
      BestPairs(pairs, topK)
  }
}

=== FILE: vector_search.dfy ===
/** The multi-collection search service (`VectorSearchService` in
    `src/services/vector_search.py`): one Chroma collection per language, chosen from the
    session's preferred language; distances become similarities `max(0, 1 - d/2)`;
    every hit is blended with the context score and sorted, and only then compared with
    its threshold. The Chroma client is an external backend whose answers are
    parameters. */
module VectorSearch {
  import opened Common
  import opened Strings
  import opened Dicts
  import opened Sorting
  import opened TextProcessor
  import opened ContextScoring
  import opened Retrieval
  import ChromaStore

  /** `self.confidence_threshold`. */
  const DefaultThreshold: real := 0.6

  /** The collection searched when the session states no language. */
  const DefaultCollection: string := "intent_en"

  const IntentPrefix: string := "intent_"

  // ---------------------------------------------------------------------------
  // Collections
  // ---------------------------------------------------------------------------

  /** A collection as `list_collections` reports it; absent metadata is `{}`. */
  datatype Collection = Collection(name: string, metadata: Dict<Value>)

  /** The metadata `_get_or_create_collection` creates a collection with: the
      description, and the language only when one is given. A collection is never
      given a language inferred from its name. */
  function CollectionMetadata(description: string, language: Option<string>): (md: Dict<Value>)
    ensures Get(md, "description") == Some(VStr(description))
    ensures "language" in Keys(md) <==> language.Some? && language.value != []
    ensures "language" in Keys(md) ==> Get(md, "language") == Some(VStr(language.value))
  {
    var md := [("description", VStr(description))];
    if language.Some? && language.value != [] then md + [("language", VStr(language.value))] else md
  }

  /** The description `add_vectors` gives the collections it creates. */
  function CollectionDescription(collection: string): string {
    "Alfred Bot Knowledge Base - " + collection
  }

  /** What `add_vectors` hands the Chroma client: the collection to get or create, its
      creation metadata, and the records, whose ids, vectors, metadata and texts become
      the index-aligned columns of `collection.add`. */
  datatype AddCall = AddCall(collection: string, metadata: Dict<Value>, records: seq<Record>)

  /** `add_vectors`: nothing happens for an empty list; otherwise any failure resurfaces
      as a `ConfigurationError` naming the collection. */
  function AddVectors(collection: string, records: seq<Record>, language: Option<string>,
                      backend: AddCall -> Result<()>): (r: Result<()>)
    ensures records == [] ==> r == Ok(())
    ensures records != [] ==>
      var call := AddCall(collection, CollectionMetadata(CollectionDescription(collection), language), records);
      && (r.Ok? <==> backend(call).Ok?)
      && (r.Err? ==> r.error == ConfigurationError("Failed to add vectors to Chroma collection '" + collection + "'"))
  {
    if records == [] then Ok(())
    else
      var call := AddCall(collection, CollectionMetadata(CollectionDescription(collection), language), records);
      ChromaStore.Surface(backend(call), "Failed to add vectors to Chroma collection '" + collection + "'")
  }

  // ---------------------------------------------------------------------------
  // search_collection
  // ---------------------------------------------------------------------------

  /** The similarity this service reports: `max(0.0, 1.0 - distance / 2.0)`. */
  function Similarity(distance: real): (s: real)
    ensures s >= 0.0
    ensures s == 0.0 <==> distance >= 2.0
    ensures distance <= 2.0 ==> s == 1.0 - distance / 2.0
    ensures distance >= 0.0 ==> s <= 1.0
  {
    if 1.0 - distance / 2.0 > 0.0 then 1.0 - distance / 2.0 else 0.0
  }

  /** The `where` clause: the filters when there are any, with the source language
      required to equal `language` when one is given. */
  function WhereClause(filters: Option<ChromaStore.Where>, language: Option<string>): (w: Option<ChromaStore.Where>)
    ensures w.None? <==> (filters.None? || filters.value == []) && (language.None? || language.value == [])
    ensures language.Some? && language.value != [] ==> Get(w.value, "source_language") == Some(ChromaStore.EqualTo(VStr(language.value)))
    ensures w.Some? ==> forall k :: k != "source_language" ==> Get(w.value, k) == (if filters.Some? then Get(filters.value, k) else None)
  {
    var base := if filters.Some? && filters.value != [] then filters else None;
    if language.Some? && language.value != [] then
      Some(Set(base.GetOr([]), "source_language", ChromaStore.EqualTo(VStr(language.value))))
    else base
  }

  function SearchFailure(collection: string): Error {
    ConfigurationError("Failed to search Chroma collection '" + collection + "'")
  }

  /** `search_collection`: the named collection is queried once; its rows come back in
      order with similarity `max(0, 1 - d/2)`. A missing collection, a failed query or a
      malformed answer is a `ConfigurationError` naming the collection. */
  function SearchCollection(collection: string, queryVector: seq<real>, topK: int,
                            filters: Option<ChromaStore.Where>, language: Option<string>,
                            backend: (string, ChromaStore.Request) -> Result<QueryColumns>): (r: Result<seq<Hit>>)
    ensures r.Err? ==> r.error == SearchFailure(collection)
    ensures var answer := backend(collection, ChromaStore.Request(queryVector, topK, WhereClause(filters, language)));
      && (r.Ok? <==> answer.Ok? && (|answer.value.ids| == 0 || Aligned(answer.value)))
      && (r.Ok? ==> |r.value| == |answer.value.ids|)
      && (r.Ok? ==> forall i :: 0 <= i < |r.value| ==>
            && r.value[i].id == answer.value.ids[i]
            && r.value[i].text == answer.value.documents[i]
            && r.value[i].metadata == answer.value.metadatas[i]
            && r.value[i].distance == answer.value.distances[i]
            && r.value[i].score == Similarity(answer.value.distances[i]))
  {
    var answer := backend(collection, ChromaStore.Request(queryVector, topK, WhereClause(filters, language)));
    if answer.Err? then Err(SearchFailure(collection))
    else
      match FormatHits(answer.value, Similarity)
      case None => Err(SearchFailure(collection))
      case Some(hits) => Ok(hits)
  }

  // ---------------------------------------------------------------------------
  // search_intents
  // ---------------------------------------------------------------------------

  /** `_determine_collection_for_search`: `"intent_" + preferred_language` when the
      session states one, else `"intent_en"`. A preferred language that is a number is
      written as `numberText` renders it (Python's `str` of a float). */
  function DetermineCollection(context: Option<SessionContext>, numberText: real -> string): (name: string)
    ensures IsPrefix(IntentPrefix, name)
    ensures context.None? ==> name == DefaultCollection
    ensures context.Some? ==>
      var pref := GetOr(context.value.contextVariables, "preferred_language", VNone);
      && (!Truthy(pref) ==> name == DefaultCollection)
      && (pref.VStr? && pref.s != [] ==> name == IntentPrefix + pref.s)
  {
    var pref := if context.Some? then GetOr(context.value.contextVariables, "preferred_language", VNone) else VNone;
    assert IsPrefix(IntentPrefix, IntentPrefix + "en");
    if !Truthy(pref) then DefaultCollection
    else
      var text := match pref
        case VStr(s) => s
        case VBool(_) => "True"
        case VNum(x) => numberText(x)
        case VNone => "None";
      assert IsPrefix(IntentPrefix, IntentPrefix + text);
      IntentPrefix + text
  }

  /** `_build_context_filters`: the last intent is read but never used, so there is never
      a filter. */
  function BuildContextFilters(context: Option<SessionContext>): (f: Option<ChromaStore.Where>)
    ensures f.None?
  {
    if context.None? then None
    else
      var filters: ChromaStore.Where := [];
      if filters == [] then None else Some(filters)
  }

  /** A hit with the fields `search_intents` adds to it. */
  datatype Ranked = Ranked(hit: Hit, finalScore: real, contextScore: real, originalScore: real, threshold: Value)

  function FinalScore(x: Ranked): real {
    x.finalScore
  }

  /** The scoring loop's entry for one hit; nothing is dropped at this stage. */
  function Rank(h: Hit, context: Option<SessionContext>): (x: Ranked)
    ensures x.hit == h && x.originalScore == h.score
    ensures x.finalScore == 0.7 * h.score + 0.3 * x.contextScore
    ensures 0.0 <= x.contextScore <= 0.35
    ensures x.threshold == ThresholdOf(h.metadata, DefaultThreshold)
    ensures x.contextScore == ContextScore(h.metadata.category, h.metadata.intentId, context)
  {
    var c := ContextScore(h.metadata.category, h.metadata.intentId, context);
    Ranked(h, h.score * 0.7 + c * 0.3, c, h.score, ThresholdOf(h.metadata, DefaultThreshold))
  }

  function RankAll(hits: seq<Hit>, context: Option<SessionContext>): (r: seq<Ranked>)
    ensures |r| == |hits|
    ensures forall i :: 0 <= i < |hits| ==> r[i] == Rank(hits[i], context)
  {
    seq(|hits|, i requires 0 <= i < |hits| => Rank(hits[i], context))
  }

  /** Whether a ranked hit's final score reaches its threshold. */
  predicate Reaches(x: Ranked) {
    AtLeast(x.finalScore, x.threshold) == Ok(true)
  }

  /** Whether a ranked hit's threshold compares with its final score. */
  predicate Comparable(x: Ranked) {
    AtLeast(x.finalScore, x.threshold).Ok?
  }

  /** The threshold loop over the sorted hits; a threshold that does not compare with a
      number raises `TypeError`. */
  function KeepReaching(s: seq<Ranked>): (r: Result<seq<Ranked>>)
    ensures r.Err? <==> !AllPass(s, Comparable)
    ensures r.Err? ==> r.error.TypeError?
    ensures r.Ok? ==> r.value == Filter(s, Reaches)
  {
    if s == [] then Ok([])
    else
      var rest := KeepReaching(s[1..]);
      AllPassSplit(s, Comparable);
      match AtLeast(s[0].finalScore, s[0].threshold)
      case Err(e) => Err(e)
      case Ok(keep) =>
        if rest.Err? then rest
        else if keep then Ok([s[0]] + rest.value)
        else rest
  }

  /** The collection a search goes to: an explicit, non-empty name wins. */
  function TargetCollection(collection: Option<string>, context: Option<SessionContext>, numberText: real -> string): (name: string)
    ensures collection.Some? && collection.value != [] ==> name == collection.value
    ensures collection.None? || collection.value == [] ==> name == DetermineCollection(context, numberText)
  {
    if collection.Some? && collection.value != [] then collection.value else DetermineCollection(context, numberText)
  }

  /** The hits for a query: the cleaned query is embedded, and the target collection
      searched without filters or language. */
  function Retrieve(query: string, context: Option<SessionContext>, topK: int, collection: Option<string>, m: EmbeddingModel,
                    backend: (string, ChromaStore.Request) -> Result<QueryColumns>, numberText: real -> string): (r: Result<seq<Hit>>)
    ensures var target := TargetCollection(collection, context, numberText);
      var answer := backend(target, ChromaStore.Request(GetTextVector(CleanText(query), m), topK, None));
      && (r.Err? ==> r.error == SearchFailure(target))
      && (r.Ok? <==> answer.Ok? && (|answer.value.ids| == 0 || Aligned(answer.value)))
      && (r.Ok? ==> |r.value| == |answer.value.ids|)
      && (r.Ok? ==> forall i :: 0 <= i < |r.value| ==> r.value[i].id == answer.value.ids[i] && r.value[i].score == Similarity(answer.value.distances[i]))
  {
    SearchCollection(TargetCollection(collection, context, numberText), GetTextVector(CleanText(query), m), topK,
      BuildContextFilters(context), None, backend)
  }

  /** `search_intents`: every hit is ranked, the ranking sorted by final score, and the
      hits whose final score reaches their threshold returned. A search failure
      propagates; a threshold `TypeError` gives no results. */
  function SearchIntents(query: string, context: Option<SessionContext>, topK: int, collection: Option<string>, m: EmbeddingModel,
                         backend: (string, ChromaStore.Request) -> Result<QueryColumns>, numberText: real -> string): (r: Result<seq<Ranked>>)
    ensures var hits := Retrieve(query, context, topK, collection, m, backend, numberText);
      && (hits.Err? ==> r == Err(SearchFailure(TargetCollection(collection, context, numberText))))
      && (hits.Ok? ==> r.Ok? && SortedDesc(r.value, FinalScore))
      && (hits.Ok? ==> forall x :: x in r.value ==> x in RankAll(hits.value, context) && Reaches(x))
      && (hits.Ok? && KeepReaching(SortDesc(RankAll(hits.value, context), FinalScore)).Ok? ==>
            forall x :: x in RankAll(hits.value, context) && Reaches(x) ==> x in r.value)
      && (hits.Ok? && (exists x :: x in RankAll(hits.value, context) && !Comparable(x)) ==> r == Ok([]))
      && (hits.Ok? && (forall x :: x in RankAll(hits.value, context) ==> Comparable(x)) ==>
            r == Ok(Filter(SortDesc(RankAll(hits.value, context), FinalScore), Reaches)))
  {
    var hits := Retrieve(query, context, topK, collection, m, backend, numberText);
    if hits.Err? then Recover(Err(hits.error))
    else KeepRanked(RankAll(hits.value, context))
  }

  /** The sort and threshold steps of `search_intents` over the ranked hits: the result
      is sorted, holds only ranked hits that reach their threshold, and holds all of
      them unless a threshold raised `TypeError`. */
  function KeepRanked(ranked: seq<Ranked>): (r: Result<seq<Ranked>>)
    ensures r.Ok?
    ensures SortedDesc(r.value, FinalScore)
    ensures forall x :: x in r.value ==> x in ranked && Reaches(x)
    ensures KeepReaching(SortDesc(ranked, FinalScore)).Ok? ==>
      forall x :: x in ranked && Reaches(x) ==> x in r.value
    ensures (exists x :: x in ranked && !Comparable(x)) ==> r.value == []
    ensures (forall x :: x in ranked ==> Comparable(x)) ==> r.value == Filter(SortDesc(ranked, FinalScore), Reaches)
  {
    var sorted := SortDesc(ranked, FinalScore);
    KeptSorted(sorted);
    SortedMembers(ranked, sorted);
    assert AllPass(sorted, Comparable) <==> forall x :: x in ranked ==> Comparable(x) by {
      if AllPass(sorted, Comparable) {
        forall x | x in ranked ensures Comparable(x) {
          var i :| 0 <= i < |sorted| && sorted[i] == x;
        }
      }
    }
    Recover(KeepReaching(sorted))
  }

  /** What the threshold loop keeps from a sorted ranking stays sorted. */
  lemma KeptSorted(sorted: seq<Ranked>)
    requires SortedDesc(sorted, FinalScore)
    ensures SortedDesc(Recover(KeepReaching(sorted)).value, FinalScore)
    ensures forall x :: x in Recover(KeepReaching(sorted)).value ==> x in sorted && Reaches(x)
    ensures KeepReaching(sorted).Ok? ==> forall x :: x in sorted && Reaches(x) ==> x in Recover(KeepReaching(sorted)).value
  {
    FilterKeepsSorted(sorted, Reaches, FinalScore);
  }

  /** Sorting loses and invents nothing. */
  lemma SortedMembers(s: seq<Ranked>, sorted: seq<Ranked>)
    requires multiset(sorted) == multiset(s)
    ensures forall x :: x in sorted <==> x in s
  {
    forall x ensures x in sorted <==> x in s {
      assert x in sorted <==> x in multiset(sorted);
      assert x in s <==> x in multiset(s);
    }
  }

  /** A hit whose raw score reaches the threshold can still be dropped once blended:
      with no context a raw 0.8 against the default 0.6 ends at 0.56. */
  lemma BlendingCanDropAStrongHit(h: Hit)
    requires h.score == 0.8 && h.metadata.confidenceThreshold.None?
    ensures h.score >= DefaultThreshold
    ensures !Reaches(Rank(h, None))
  {
    var x := Rank(h, None);
    assert x.contextScore == 0.0;
    assert x.finalScore == 0.56;
  }

  /** Without a context a hit survives exactly when 70% of its similarity reaches its
      numeric threshold. */
  lemma NoContextThreshold(h: Hit, t: real)
    requires ThresholdOf(h.metadata, DefaultThreshold) == VNum(t)
    ensures Reaches(Rank(h, None)) <==> 0.7 * h.score >= t
  {
    var x := Rank(h, None);
    assert x.contextScore == 0.0;
  }

  // ---------------------------------------------------------------------------
  // index_knowledge_base
  // ---------------------------------------------------------------------------

  /** The language recorded with every indexed pattern: the source metadata's language,
      `"unknown"` without one. */
  function SourceLanguage(sourceLanguage: Option<string>): string {
    sourceLanguage.GetOr("unknown")
  }

  /** The record for pattern `j` of an intent indexed into `collection`. The threshold
      is the intent's own, else the knowledge base's search default, else 0.6. */
  function MakeRecord(collection: string, kbDefault: Option<real>, language: string,
                      intent: SourceIntent, j: nat, p: Processed): (r: Record)
    ensures r.id == collection + "_" + intent.id + "_pattern_" + NatToString(j)
    ensures r.vector == p.vector && r.text == p.original
    ensures r.metadata.intentId == Some(intent.id) && r.metadata.kind == Some("pattern")
    ensures r.metadata.category == Some(intent.category.GetOr("general"))
    ensures intent.confidenceThreshold.Some? ==> r.metadata.confidenceThreshold == Some(VNum(intent.confidenceThreshold.value))
    ensures intent.confidenceThreshold.None? && kbDefault.Some? ==> r.metadata.confidenceThreshold == Some(VNum(kbDefault.value))
    ensures intent.confidenceThreshold.None? && kbDefault.None? ==> r.metadata.confidenceThreshold == Some(VNum(DefaultThreshold))
    ensures r.metadata.sourceLanguage == Some(language) && r.metadata.sourceCollection == Some(collection)
    ensures r.metadata.intentTags == Some(intent.tags.GetOr([]))
    ensures r.metadata.intentPriority == Some(intent.priority.GetOr(1))
  {
    Record(collection + "_" + intent.id + "_pattern_" + NatToString(j), p.vector, p.original,
      HitMetadata(
        Some(intent.id), Some("pattern"), Some(intent.category.GetOr("general")),
        Some(VNum(intent.confidenceThreshold.GetOr(kbDefault.GetOr(DefaultThreshold)))),
        Some(Dumped(intent.responses)), Some(p.original), Some(p.cleaned), Some([]),
        Some(language), Some(collection), Some(intent.tags.GetOr([])), Some(intent.priority.GetOr(1))))
  }

  function RecordMaker(collection: string, kbDefault: Option<real>, language: string): (SourceIntent, nat, Processed) -> Record {
    (intent: SourceIntent, j: nat, p: Processed) => MakeRecord(collection, kbDefault, language, intent, j, p)
  }

  /** The records `index_knowledge_base` builds: one per pattern that survives
      preprocessing. */
  function IndexedRecords(collection: string, intents: seq<SourceIntent>, kbDefault: Option<real>,
                          sourceLanguage: Option<string>, m: EmbeddingModel): seq<Record> {
    IndexRecords(intents, m, RecordMaker(collection, kbDefault, SourceLanguage(sourceLanguage)))
  }

  /** `index_knowledge_base`: the records are added with the source language, unless
      there are none, in which case the store is not called. */
  function IndexKnowledgeBase(collection: string, intents: seq<SourceIntent>, kbDefault: Option<real>,
                              sourceLanguage: Option<string>, m: EmbeddingModel, backend: AddCall -> Result<()>): (r: Result<()>)
    ensures var records := IndexedRecords(collection, intents, kbDefault, sourceLanguage, m);
      && (records == [] ==> r == Ok(()))
      && (records != [] ==> r == AddVectors(collection, records, Some(SourceLanguage(sourceLanguage)), backend))
  {
    var records := IndexedRecords(collection, intents, kbDefault, sourceLanguage, m);
    if records == [] then Ok(()) else AddVectors(collection, records, Some(SourceLanguage(sourceLanguage)), backend)
  }

  /** Every record indexed into a collection is pattern `j` of some intent, under the id
      `"{collection}_{intent_id}_pattern_{j}"`, tagged with that collection and the
      source language. */
  lemma IndexedRecordShape(collection: string, intents: seq<SourceIntent>, kbDefault: Option<real>,
                           sourceLanguage: Option<string>, m: EmbeddingModel, x: Record)
    requires x in IndexedRecords(collection, intents, kbDefault, sourceLanguage, m)
    ensures exists k, j :: (0 <= k < |intents| && 0 <= j < |intents[k].patterns| && !IsBlank(intents[k].patterns[j])
      && x.id == collection + "_" + intents[k].id + "_pattern_" + NatToString(j)
      && x.text == intents[k].patterns[j])
    ensures x.metadata.sourceCollection == Some(collection)
    ensures x.metadata.sourceLanguage == Some(SourceLanguage(sourceLanguage))
  {
    var make := RecordMaker(collection, kbDefault, SourceLanguage(sourceLanguage));
    var k, j := IndexedFrom(intents, m, make, x);
    var p := PreprocessText(intents[k].patterns[j], m).value;
    assert x == MakeRecord(collection, kbDefault, SourceLanguage(sourceLanguage), intents[k], j, p);
    assert x.text == intents[k].patterns[j];
  }

  // ---------------------------------------------------------------------------
  // Language discovery
  // ---------------------------------------------------------------------------

  /** The text after the last `c` in `s` (`s.split(c)[-1]`). */
  function AfterLast(s: string, c: char): (r: string)
    ensures c !in r
    ensures IsSuffix(r, s)
    ensures c in s ==> |r| < |s| && s[|s| - |r| - 1] == c
    ensures c !in s ==> r == s
  {
    if s == [] then []
    else if s[|s| - 1] == c then []
    else
      var rest := AfterLast(s[..|s| - 1], c);
      AppendLastKept(s, c, rest);
      rest + [s[|s| - 1]]
  }

  /** The step of `AfterLast` past a last character other than `c`: a `c`-free suffix of
      the prefix, extended by that character, is a `c`-free suffix of the whole text. */
  lemma AppendLastKept(s: string, c: char, rest: string)
    requires s != [] && s[|s| - 1] != c
    requires c !in rest && IsSuffix(rest, s[..|s| - 1])
    requires c in s[..|s| - 1] ==> |rest| < |s| - 1 && s[..|s| - 1][|s| - 1 - |rest| - 1] == c
    requires c !in s[..|s| - 1] ==> rest == s[..|s| - 1]
    ensures c !in rest + [s[|s| - 1]]
    ensures IsSuffix(rest + [s[|s| - 1]], s)
    ensures c in s ==> |rest| + 1 < |s| && s[|s| - |rest| - 2] == c
    ensures c !in s ==> rest + [s[|s| - 1]] == s
  {
    var init := s[..|s| - 1];
    assert s == init + [s[|s| - 1]];
    assert c in s ==> c in init;
    assert s[|s| - |rest| - 1..] == init[|init| - |rest|..] + [s[|s| - 1]];
  }

  /** The language `get_available_languages` reads off one collection: its metadata
      language; else the text after `"intent_"`; else the last `_`-separated segment. */
  function LanguageOf(c: Collection): (r: Option<Value>)
    ensures "language" in Keys(c.metadata) ==> r == Get(c.metadata, "language")
    ensures "language" !in Keys(c.metadata) && IsPrefix(IntentPrefix, c.name) ==> r == Some(VStr(c.name[|IntentPrefix|..]))
    ensures "language" !in Keys(c.metadata) && !IsPrefix(IntentPrefix, c.name) && '_' in c.name ==> r == Some(VStr(AfterLast(c.name, '_')))
    ensures r.None? <==> "language" !in Keys(c.metadata) && '_' !in c.name
  {
    if "language" in Keys(c.metadata) then Get(c.metadata, "language")
    else if IsPrefix(IntentPrefix, c.name) then
      assert c.name[6] == '_';
      Some(VStr(c.name[|IntentPrefix|..]))
    else if '_' in c.name then Some(VStr(AfterLast(c.name, '_')))
    else None
  }

  /** `get_available_languages`: the distinct languages of the listed collections; a
      listing failure gives none. */
  function AvailableLanguages(listing: Result<seq<Collection>>): (r: set<Value>)
    ensures listing.Err? ==> r == {}
    ensures listing.Ok? ==> forall v :: v in r <==> exists i :: 0 <= i < |listing.value| && LanguageOf(listing.value[i]) == Some(v)
  {
    if listing.Err? then {}
    else LanguagesOf(listing.value)
  }

  function LanguagesOf(cs: seq<Collection>): (r: set<Value>)
    ensures forall v :: v in r <==> exists i :: 0 <= i < |cs| && LanguageOf(cs[i]) == Some(v)
  {
    if cs == [] then {}
    else
      assert forall i :: 1 <= i < |cs| ==> cs[i] == cs[1..][i - 1];
      (if LanguageOf(cs[0]).Some? then {LanguageOf(cs[0]).value} else {}) + LanguagesOf(cs[1..])
  }

  /** Whether `get_collections_by_language` lists a collection for `language`. */
  predicate MatchesLanguage(c: Collection, language: string) {
    Get(c.metadata, "language") == Some(VStr(language)) || IsSuffix("_" + language, c.name)
  }

  /** `get_collections_by_language`: the names of the matching collections, in listing
      order; a listing failure gives none. */
  function CollectionsByLanguage(listing: Result<seq<Collection>>, language: string): (r: seq<string>)
    ensures listing.Err? ==> r == []
    ensures listing.Ok? ==> |r| <= |listing.value|
    ensures listing.Ok? ==> forall n :: n in r <==> exists i :: 0 <= i < |listing.value| && listing.value[i].name == n && MatchesLanguage(listing.value[i], language)
    ensures listing.Ok? ==> |r| == |Filter(listing.value, ListedFor(language))|
    ensures listing.Ok? ==> forall k :: 0 <= k < |r| ==> r[k] == Filter(listing.value, ListedFor(language))[k].name
  {
    if listing.Err? then []
    else
      MatchingNamesMembers(listing.value, language);
      MatchingNames(listing.value, language)
  }

  /** The test `get_collections_by_language` filters the listing with. */
  function ListedFor(language: string): Collection -> bool {
    c => MatchesLanguage(c, language)
  }

  /** The names of the matching collections, one per matching collection, in listing order. */
  function MatchingNames(cs: seq<Collection>, language: string): (r: seq<string>)
    ensures |r| == |Filter(cs, ListedFor(language))|
    ensures forall k :: 0 <= k < |r| ==> r[k] == Filter(cs, ListedFor(language))[k].name
  {
    if cs == [] then []
    else
      var rest := MatchingNames(cs[1..], language);
      assert Filter(cs, ListedFor(language)) == (if MatchesLanguage(cs[0], language) then [cs[0]] else []) + Filter(cs[1..], ListedFor(language));
      if MatchesLanguage(cs[0], language) then [cs[0].name] + rest else rest
  }

  /** A name is listed exactly when some matching collection has it. */
  lemma MatchingNamesMembers(cs: seq<Collection>, language: string)
    ensures forall n :: n in MatchingNames(cs, language) <==>
      exists i :: 0 <= i < |cs| && cs[i].name == n && MatchesLanguage(cs[i], language)
  {
    forall n | n in MatchingNames(cs, language)
      ensures exists i :: 0 <= i < |cs| && cs[i].name == n && MatchesLanguage(cs[i], language)
    {
      var i := ListedNameSource(cs, language, n);
    }
    forall i | 0 <= i < |cs| && MatchesLanguage(cs[i], language)
      ensures cs[i].name in MatchingNames(cs, language)
    {
      MatchingCollectionListed(cs, language, i);
    }
  }

  /** Every listed name comes from a matching collection. */
  lemma ListedNameSource(cs: seq<Collection>, language: string, n: string) returns (i: nat)
    requires n in MatchingNames(cs, language)
    ensures i < |cs| && cs[i].name == n && MatchesLanguage(cs[i], language)
  {
    var names, kept := MatchingNames(cs, language), Filter(cs, ListedFor(language));
    var k :| 0 <= k < |names| && names[k] == n;
    var c := kept[k];
    FilterMultiset(cs, ListedFor(language), c);
    assert c in kept;
    assert c in cs && ListedFor(language)(c);
    i :| 0 <= i < |cs| && cs[i] == c;
  }

  /** Every matching collection's name is listed. */
  lemma MatchingCollectionListed(cs: seq<Collection>, language: string, i: nat)
    requires i < |cs| && MatchesLanguage(cs[i], language)
    ensures cs[i].name in MatchingNames(cs, language)
  {
    var names, kept := MatchingNames(cs, language), Filter(cs, ListedFor(language));
    var c := cs[i];
    assert ListedFor(language)(c);
    FilterMultiset(cs, ListedFor(language), c);
    assert c in kept;
    var k :| 0 <= k < |kept| && kept[k] == c;
    assert names[k] == c.name;
  }

  /** The collection a session's preferred language selects reports that language back,
      and is listed for it. */
  lemma PreferredCollectionRoundTrip(language: string, description: string)
    requires language != []
    ensures var c := Collection(IntentPrefix + language, CollectionMetadata(description, None));
      LanguageOf(c) == Some(VStr(language)) && MatchesLanguage(c, language)
  {
    var name := IntentPrefix + language;
    assert name[|IntentPrefix|..] == language;
    assert IsPrefix(IntentPrefix, name);
    assert name[|name| - |"_" + language|..] == "_" + language;
  }

  /** Discovery and matching agree: a collection whose language is discovered as a string
      is listed for that language. */
  lemma DiscoveredLanguageMatches(c: Collection, language: string)
    requires LanguageOf(c) == Some(VStr(language))
    ensures MatchesLanguage(c, language)
  {
    if "language" !in Keys(c.metadata) {
      if IsPrefix(IntentPrefix, c.name) {
        PrefixedNameEndsWithLanguage(c.name);
      } else {
        SegmentEndsName(c.name);
      }
    }
  }

  /** A name `"intent_" + x` ends with `"_" + x`. */
  lemma PrefixedNameEndsWithLanguage(name: string)
    requires IsPrefix(IntentPrefix, name)
    ensures IsSuffix("_" + name[|IntentPrefix|..], name)
  {
    var language := name[|IntentPrefix|..];
    assert name == IntentPrefix + language;
    assert name[|name| - |"_" + language|..] == "_" + language;
  }

  lemma ConsSuffix(s: string, i: nat, c: char, t: string)
    requires i < |s| && s[i] == c && s[i + 1..] == t
    ensures IsSuffix([c] + t, s) && |[c] + t| == |s| - i
  {
    assert s[i..] == [c] + t;
  }

  /** A name ends with `"_"` followed by its last `_`-separated segment. */
  lemma SegmentEndsName(name: string)
    requires '_' in name
    ensures IsSuffix("_" + AfterLast(name, '_'), name)
  {
    var language := AfterLast(name, '_');
    var i := |name| - |language| - 1;
    assert name[i + 1..] == language;
    ConsSuffix(name, i, '_', language);
  }
}
